=== FILE: README.md ===
# RepoViz core, modelled in Dafny

RepoViz turns a Git repository's commit history into charts and structured data. It
reads per-period commit counts (`period count` text files for hours, weekdays and
months), validates chart configuration, draws pies and bars, writes schema.org JSON-LD,
and keeps an SQL store of repositories, commits and per-period summaries. This project
models the pure logic underneath the plotting, ORM and file plumbing, and proves what
that logic promises:

- `Text` covers the Python string behaviour the core relies on: `strip`, `split`,
  `splitlines`, `in`, `find`, `lower`, `replace`, `int()` in bases 10 and 16, and
  two-digit hex.
- `Json` is a small JSON value with ordered objects and Python truthiness.
- `CommitData` is the commit-count file parser `validate_commit_data_file` with its
  `CommitCount` records, the kind inference from the file path, and the
  period-range rule.
- `Config` covers `PlotConfig` and `ChartConfig` validation, the `ChartType` enum
  and `create_default_chart_config`.
- `Palette` is the pie palette `_generate_pie_colors`: hex decoding, integer
  interpolation and re-encoding.
- `Charts` covers the zero-fill and non-zero filter of the pies, the hour bars and
  their labels, the combined figure, the `create_chart_from_config` dispatch and
  `create_chart_from_env`.
- `ContactForm` covers `validate_contact_form` and the sample forms.
- `SchemaOrg` covers name and description derivation in the three schema
  builders, the file names of `generate_all_schemas`, and `get_meta_tags`.
- `JsonLd` covers the marker slicing of `load_schema_from_html` and
  `extract_services_from_schema`.
- `Database` models the `DatabaseManager` operations and
  `import_commit_data_from_files` as state transitions on an immutable store of
  three tables.

File contents, the environment, the clock and `json.loads` are parameters. A missing
file is `None`, the environment is a `map<string, string>`, the current time is a
string, and a JSON decoder is a function `string -> Option<Json>`.

Where the documentation and the code disagree, the model follows the code:

- The `CommitCount` period validator never fires, because pydantic validates
  `period` before `period_type` is known. Records with out-of-range periods are
  therefore accepted.
- `day_of_week` is `weekday()` (Monday = 0), not the `Sunday=0` the column comment
  (`database_schema.py:54`) and the `CommitData` field description promise.
- `generate_all_schemas` keeps hyphens in repository names. `create_default_chart_config`
  turns them into underscores.
- The colour check promises `#RRGGBB` but accepts whatever `int(..., 16)` reads after
  the `#`: `#-f0000`, `#0x1234`, `# 12345`, `#12_345`. The palette then decodes a
  channel slice the same way. A `0x` slice fails the gradient, and a negative channel
  makes gradient entries such as `#-70000`, which are not `#rrggbb`.
- The hour data file's name contains none of the kind words, so the loader as
  written cannot read it (see Findings).

## Model

| member | source | states |
|---|---|---|
| `Text.WordsOfStrip` | schemas.py:159-164 | Splitting a stripped line on whitespace gives the same words as splitting the raw line, so the parser may split the raw line |
| `Text.WordsEmptyIffBlank` | schemas.py:159-161 | A line has no words exactly when it is empty or all whitespace |
| `Text.TrimLeftShape` | schemas.py:159 | Left stripping drops exactly a run of leading whitespace: the result is a suffix of the line, the dropped characters are all whitespace, and the result does not start with whitespace |
| `Text.TrimRightShape` | schemas.py:159 | Right stripping drops exactly a run of trailing whitespace: the result is a prefix, the dropped characters are all whitespace, and the result does not end with whitespace |
| `Text.IntRoundTrip` | schemas.py:168 | `int()` of the decimal rendering of an integer with at most 4300 digits, negative ones included, gives the integer back. A longer rendering is refused |
| `Text.ReadGroupedIff` | schemas.py:168 | The digit reader of `int()` accepts a body exactly when it starts and ends with a digit of the base, holds only digits and `_`, and never two `_` in a row |
| `Text.ReadGroupedValue` | schemas.py:168 | An accepted body's value is the base-`b` value of its digits once the `_` separators are removed |
| `Text.PlainDigitsRead` | schemas.py:168 | A body of digits alone reads as its positional value |
| `Text.UnderscoreRead` | schemas.py:80 | One `_` between two digit groups is skipped: the body reads as the two groups written together |
| `Text.PyIntAccepts` | schemas.py:80 | `int(t, base)` accepts leading and trailing whitespace, an optional `+` or `-`, in base 16 an optional `0x`/`0X` (and one `_` after it), then a grouped digit body, and gives the body's value with the sign applied. A decimal body of more than 4300 digits, `_` not counted, is refused instead |
| `Text.TooManyDigitsRefused` | schemas.py:168 | `int()` refuses more than 4300 decimal digits, while the same digits read in base 16 whatever their number |
| `Text.PyInt` | schemas.py:80 | `int()` refuses text that is empty or all whitespace, and gives a negative value only when the stripped text starts with `-` |
| `Text.SignedDecimal` | schemas.py:168 | A sign followed by at most 4300 decimal digits reads as the digits' value, negated for `-`. More digits are refused |
| `Json.PyStr` | schema_org.py:341-353 | A string renders as itself, an integer reads back through `int()` (when it has at most 4300 digits), a boolean is `"True"` exactly when true, and null is `"None"` |
| `Text.ShortHexBound` | enhanced_plot_scripts.py:321-322 | `int(..., 16)` of at most two characters lies in -15..255: only a sign can make it negative, and then a single digit follows |
| `Text.HexByteRoundTrip` | enhanced_plot_scripts.py:321-331 | Reading back the two lowercase hex digits written for a byte gives the byte |
| `Text.RemoveCharKeeps` | luis_landscaping_data_loader.py:269 | Removing a character only deletes: every character of the result occurs in the input |
| `CommitData.ParseLine` | schemas.py:158-184 | A line is blank exactly when it is all whitespace. A parsed record has a non-negative count and the kind taken from the path. With no kind, no line parses |
| `CommitData.ParseLineChecks` | schemas.py:159-187 | A line's outcome follows the source's checks in order: no word is blank; a token count other than two, then a first or a second token `int()` refuses, then an unknown kind, then a negative count is each rejected with that cause; otherwise the record holds the two integers and the kind |
| `CommitData.LenientTokensParse` | schemas.py:164-168 | A line `+p c1_c2` of decimal digit groups, each number of at most 4300 digits, parses as period `p` and count `c1c2`, since `int()` accepts a sign and digit separators |
| `CommitData.ParseCommitCounts` | schemas.py:156-189 | Every record returned has a non-negative count and the file's kind. An error carries a 1-based line number no larger than the file's line count |
| `CommitData.ValidateCommitDataFile` | schemas.py:149-189 | A missing file is reported by its path. Every record of a successful load has a non-negative count and the kind inferred from the path |
| `CommitData.InferKind` | schemas.py:170-178 | A kind is found only when the path contains its word. No kind is found exactly when the path contains none of `hour`, `day`, `month`. `hour` wins over `day` and `month`, and `day` over `month` |
| `CommitData.LoadWith` | enhanced_plot_scripts.py:51-55 | Either loader reports a missing file by its path and returns non-negative counts. The records carry the requested kind under the corrected loader or when the path names that kind. As written, a path naming no kind yields no record |
| `CommitData.CollectSucceedsIffNoRejected` | schemas.py:158-189 | The per-line outcomes give a list exactly when no line is rejected. The list is then the parsed records, in file order |
| `CommitData.CollectFailsAtFirstRejected` | schemas.py:163-187 | A failure reports the first rejected line and its cause. Every earlier line is blank or parsed |
| `CommitData.ParseSucceedsIffNoRejectedLine` | schemas.py:156-189 | Parsing succeeds exactly when no line of the text is rejected, and then returns the records in file order. There is no partial list otherwise |
| `CommitData.ParseFailsAtFirstRejectedLine` | schemas.py:158-187 | The error's line number points at the first rejected line and carries that line's cause. All earlier lines are accepted |
| `CommitData.BlankLineShiftsLineNumbers` | schemas.py:158-161 | A leading blank line changes no record and moves every reported line number down by one |
| `CommitData.AllBlankFileIsEmpty` | schemas.py:158-161 | A file of blank lines gives the empty list, whatever its name |
| `CommitData.NoKindOnlyBlankFiles` | schemas.py:170-178 | Under a path that names no kind, parsing succeeds exactly for all-blank files, with no records. The kind error is raised only at a non-blank line |
| `CommitData.CollectFormatted` | schemas.py:157-184 | The outcomes of formatted `period count` lines collect back to exactly the records written, whatever line number counting starts from |
| `CommitData.FormatParseRoundTrip` | schemas.py:157-184 | Writing records whose numbers `str()` can render (at most 4300 digits) as `period count` lines, and validating them under a path that names their kind, gives back the same records in order |
| `CommitData.FourWordsRejected` | schemas.py:164-166 | A line of four words is rejected for its token count |
| `CommitData.MalformedSecondLine` | schemas.py:163-187 | A malformed second line aborts the whole file with an error for line 2, even after a good first line |
| `CommitData.RangeNotEnforced` | schemas.py:51-61 | The range rule excludes hour 24, yet a record with any period is returned: the rule is no postcondition of the parser |
| `CommitData.HourBeforeMonth` | schemas.py:171-176 | The path is searched for `hour` before `month`: a path containing both is read as hourly |
| `CommitData.KindIsCaseSensitive` | schemas.py:171-178 | The substring tests are case-sensitive: `HOURLY_DAY.txt` names no kind |
| `CommitData.NoKindWord` | schemas.py:171-178 | A text with neither an `h` nor a `y` contains none of the kind words `hour`, `day`, `month` |
| `CommitData.PlotHourPathNamesNoKind` | enhanced_plot_scripts.py:45-49 | The plotting script's hour file name contains none of `hour`, `day`, `month` |
| `CommitData.PlotDayPathNamesDay` | enhanced_plot_scripts.py:45-49 | The plotting script's day file name infers the day kind |
| `CommitData.PlotMonthPathNamesMonth` | enhanced_plot_scripts.py:45-49 | The plotting script's month file name infers the month kind |
| `CommitData.ImportHourPathNamesNoKind` | database_schema.py:471 | The import's hour file name contains none of the kind words |
| `CommitData.ImportDayPathNamesDay` | database_schema.py:472 | The import's day file name infers the day kind |
| `CommitData.ImportMonthPathNamesMonth` | database_schema.py:473 | The import's month file name infers the month kind |
| `CommitData.HourFileNeverLoads` | enhanced_plot_scripts.py:43-55 | As written, loading the hour file fails for every content that has a non-blank line, in the plotting script and in the import |
| `CommitData.PlotPathKind` | enhanced_plot_scripts.py:45-49 | The plotting script's paths name the day and month kinds and no kind for hours |
| `CommitData.ImportPathKind` | database_schema.py:471-473 | The import's paths name the day and month kinds and no kind for hours |
| `CommitData.NoKindLoadsNothing` | schemas.py:158-189 | Under a path naming no kind, a load as written yields no record: it succeeds exactly when the file is all blank lines |
| `CommitData.LoadCommitData` | enhanced_plot_scripts.py:43-55 | Loading with the kind the caller asked for: a missing file is reported by path, and every record carries that kind |
| `CommitData.HourFileLoadsWhenCorrected` | enhanced_plot_scripts.py:43-55 | With the kind passed by the caller, formatted hourly records load back unchanged under any path, the hour file's included |
| `CommitData.CorrectionAgreesForDayAndMonth` | enhanced_plot_scripts.py:45-55 | For the day and month files, of both the plotting script and the import, the corrected loader and the loader as written agree on every content |
| `Config.ChartTypeFromValue` | schemas.py:14-19 | A string maps to a chart type only when it is that type's value |
| `Config.ChartTypeValueRoundTrip` | schemas.py:14-19 | Each type's value maps back to that type, and no other string does |
| `Config.CheckRange` | schemas.py:66-72 | A bounded field yields one error exactly when it lies outside its closed range, and the error names the field and the range |
| `Config.CheckColor` | schemas.py:74-83 | A colour yields no error exactly when it is seven characters, a `#`, and six that `int(..., 16)` reads. Otherwise it yields one error for that field, naming the shape or the digits as the source's two messages do |
| `Config.StrictColorAccepted` | schemas.py:74-83 | Every `#RRGGBB` colour is accepted |
| `Config.LenientColorsAccepted` | schemas.py:79-82 | Colours that are not `#RRGGBB` are accepted too: a `-` sign, a `0x` prefix, a leading space, or a `_` between digits |
| `Config.SignedColorAccepted` | schemas.py:79-82 | `#-` and five hex digits is accepted and is not `#RRGGBB` |
| `Config.PrefixedColorAccepted` | schemas.py:79-82 | `#0x` and four hex digits is accepted and is not `#RRGGBB` |
| `Config.PaddedColorAccepted` | schemas.py:79-82 | `#`, a space and five hex digits is accepted and is not `#RRGGBB` |
| `Config.UnderscoreColorAccepted` | schemas.py:79-82 | `#`, two hex digits, `_` and three hex digits is accepted and is not `#RRGGBB` |
| `Config.MakePlotStyle` | schemas.py:64-83 | A style is accepted exactly when dpi is in 72..600, font size in 8..24, title size in 10..32 and both colours pass the colour check. The errors name exactly the failing fields |
| `Config.DefaultStyleValid` | schemas.py:66-72 | The default style (300, `#4e79a7`, `#2e4977`, 12, 16) passes validation |
| `Config.MakeChartConfig` | schemas.py:86-100 | A chart configuration is accepted exactly when the title is non-empty and the file name is non-empty and free of `/ \ : * ? " < > \|`. The errors name the title and the file name exactly when each fails |
| `Config.DefaultChartConfig` | schemas.py:193-221 | A default configuration keeps the chart type, the repository name and the default style |
| `Config.SlugReserved` | schemas.py:212-214 | The lower-cased, underscored repository name contains a reserved character exactly when the name does |
| `Config.DefaultFailsIffReservedRepo` | schemas.py:193-221 | The default configuration fails exactly when a non-empty repository name holds a reserved file-name character |
| `Config.DefaultWithRepo` | schemas.py:209-214 | A usable repository name gives the title `T - repo` and the file name `stem_` plus the name lower-cased with spaces and hyphens made `_` |
| `Config.DefaultWithoutRepo` | schemas.py:195-221 | No name, or an empty one, gives the type's fixed title and stem |
| `Palette.DecodeColor` | enhanced_plot_scripts.py:321-322 | Decoded channels lie in -15..255, the range `int(..., 16)` gives two characters. A failure names the endpoint and the offset (1, 3 or 5) of the slice it refuses |
| `Palette.DecodeChannels` | enhanced_plot_scripts.py:321-322 | The offsets are read in order: the result has one channel per offset, or names the first offset whose slice does not read |
| `Palette.DecodeColorByChannel` | enhanced_plot_scripts.py:321-322 | A colour decodes exactly when its three slices read, and a failure names the first of offsets 1, 3, 5 that does not |
| `Palette.EncodeColor` | enhanced_plot_scripts.py:331 | An encoded colour is seven characters starting with `#` |
| `Palette.EncodeChannel` | enhanced_plot_scripts.py:331 | `{v:02x}` is two lowercase hex digits for a byte, and `-` and one digit for a negative channel |
| `Palette.ChannelRoundTrip` | enhanced_plot_scripts.py:321-331 | `int(..., 16)` reads back each channel's rendering, negative ones included |
| `Palette.EncodeDecode` | enhanced_plot_scripts.py:321-331 | Every colour decodes back from its encoding, and the encoding is a lowercase `#rrggbb` exactly when all channels are bytes |
| `Palette.ValidColorDecodes` | enhanced_plot_scripts.py:321-331 | Every colour that passes the `#RRGGBB` check decodes, and re-encoding gives it lower-cased |
| `Palette.PieColors` | enhanced_plot_scripts.py:304-334 | 0 colours give `[]`, 1 gives `[primary]` and 2 give `[primary, secondary]`, verbatim. A successful palette has exactly the requested length |
| `Palette.MixBetween` | enhanced_plot_scripts.py:318-328 | Each interpolated channel lies between the two endpoint channels |
| `Palette.MixEnds` | enhanced_plot_scripts.py:318-328 | The first step gives the primary channel and the last step the secondary one |
| `Palette.MixMonotone` | enhanced_plot_scripts.py:318-328 | Channels move monotonically from primary towards secondary as the index grows |
| `Palette.MixIsTruncation` | enhanced_plot_scripts.py:318-328 | A channel is `p + (s - p) * i / (n - 1)` truncated toward zero, as `int()` of the float does, on both sides of zero |
| `Palette.MixInRgb` | enhanced_plot_scripts.py:318-328 | Interpolating two decoded colours gives decoded-range colours, and bytes when both ends are bytes |
| `Palette.GradientEntries` | enhanced_plot_scripts.py:313-334 | For 3 or more colours both endpoints decode, and every entry decodes to the channels interpolated at its index. With byte endpoints every entry is a lowercase `#rrggbb` |
| `Palette.GradientEndpoints` | enhanced_plot_scripts.py:313-334 | For 3 or more colours, the first entry is the primary colour lower-cased and the last is the secondary lower-cased |
| `Palette.GradientAt` | enhanced_plot_scripts.py:318-331 | For decodable endpoints, entry `i` of a gradient is the encoding of the colour interpolated at `i` |
| `Palette.BadPrimaryFailsOnlyGradients` | enhanced_plot_scripts.py:309-322 | A primary colour that is not hex breaks exactly the palettes of 3 or more colours, and the error names the primary |
| `Palette.PrefixedColorBreaksGradient` | enhanced_plot_scripts.py:321 | A `#0x` colour passes the colour check, yet a gradient from it fails at its first channel, whose slice `0x` `int(..., 16)` refuses |
| `Palette.NegativeChannelGradient` | enhanced_plot_scripts.py:318-331 | The accepted colour `#-f0000` decodes to red -15, and the three-colour gradient to black has middle entry `#-70000`, which is not `#rrggbb` |
| `Charts.PyIndex` | enhanced_plot_scripts.py:112-114 | A list index is valid exactly in `[-size, size)`, and a negative one counts from the end |
| `Charts.FillSucceedsIffAllInSlots` | enhanced_plot_scripts.py:112-114 | The zero-fill succeeds exactly when every record's index is valid. Otherwise it fails at the first record that is not, after all earlier ones fit |
| `Charts.FillLastWriteWins` | enhanced_plot_scripts.py:112-114 | Each slot holds the count of the last record landing on it, or stays zero |
| `Charts.Fill` | enhanced_plot_scripts.py:112-114 | A successful zero-fill keeps the number of slots. The only way it fails is a record whose index has no slot |
| `Charts.InRangeLands` | enhanced_plot_scripts.py:171-173 | An in-range day lands on slot `period`, and an in-range month on slot `period - 1` |
| `Charts.NegativePeriodsWrap` | enhanced_plot_scripts.py:171-173 | A period just below the range wraps to the end of the slots (month 0 lands in December) |
| `Charts.Kept` | enhanced_plot_scripts.py:116-122 | The kept slots are exactly the positive ones, in ascending order |
| `Charts.FilterNonZero` | enhanced_plot_scripts.py:116-122 | The filter pairs each kept slot's name with its count, in slot order |
| `Charts.KeptEmptyIffNoPositive` | enhanced_plot_scripts.py:124-125 | Nothing is kept exactly when no slot is positive |
| `Charts.PieSlices` | enhanced_plot_scripts.py:111-131 | Slices carry as many labels and colours as values, every value is positive, and building them never reports missing data |
| `Charts.PieShowsPositiveSlots` | enhanced_plot_scripts.py:111-125 | A pie shows exactly the positive slots under their own names, and fails for lack of data exactly when every slot is zero |
| `Charts.PieColoursFollowStyle` | enhanced_plot_scripts.py:131 | With `#RRGGBB` style colours the palette request for a pie always succeeds |
| `Charts.Pie` | enhanced_plot_scripts.py:124-125 | A pie that succeeds has at least one slice. When the slices themselves could be built, the only failure is the no-data error of the pie's kind |
| `Charts.CombinedHalfSkipsEmpty` | enhanced_plot_scripts.py:242-273 | Where a single pie fails for lack of data, the combined figure's half is simply empty |
| `Charts.CombinedNeverFailsForNoData` | enhanced_plot_scripts.py:221-302 | The combined figure never fails for lack of data |
| `Charts.HourChartNeverDraws` | enhanced_plot_scripts.py:43-63 | As written, the hour chart fails with a malformed-file error for any hour file with a non-blank line, and otherwise draws no bar |
| `Charts.HourChartWhenCorrected` | enhanced_plot_scripts.py:43-63 | With the corrected loader, the hour chart draws one bar per record of the hour file |
| `Charts.LoadersAgreeBeyondHours` | enhanced_plot_scripts.py:355-368 | Every other chart type comes out the same under either loader |
| `Charts.BarLabelsAt` | enhanced_plot_scripts.py:86-90 | One value label per positive count, in record order, each the record's period with `str(count)` |
| `Charts.BarLabelsReadBack` | enhanced_plot_scripts.py:86-90 | Each bar label reads back as its bar's count, when the count has at most 4300 digits |
| `Charts.HourBars` | enhanced_plot_scripts.py:57-63 | One bar per loaded record, in file order: bar `i` stands at record `i`'s hour with record `i`'s count |
| `Charts.Load` | enhanced_plot_scripts.py:43-55 | A missing file is reported by its path, and loaded records all carry the requested kind. As written, the hour file loads only when all blank, and then with no record |
| `Charts.EnvStyle` | enhanced_plot_scripts.py:385-398 | The font sizes keep their defaults. A non-empty `COLOR_PRIMARY` or `COLOR_SECONDARY` replaces that colour, and otherwise the default colour stays |
| `Charts.DrawBars` | enhanced_plot_scripts.py:56-70 | A loaded hour file gives a bar chart with one bar per record, in file order, at the record's hour with its count. A load error passes through unchanged |
| `Charts.DrawPie` | enhanced_plot_scripts.py:103-125 | A drawn pie has at least one slice, and a load error passes through unchanged |
| `Charts.DrawCombined` | enhanced_plot_scripts.py:221-302 | The day file's error comes first, then the month file's. With both loaded, no failure is for lack of data |
| `Charts.CreateChart` | enhanced_plot_scripts.py:355-368 | Each chart type dispatches to its own builder, whichever loader reads the files. The output and schema paths follow the file name, and the schema key is the type's value |
| `Charts.ChartReadsOnlyItsKinds` | enhanced_plot_scripts.py:355-368 | A chart depends only on the data files its type reads |
| `Charts.MissingFileReported` | enhanced_plot_scripts.py:51-53 | The first missing file the chart reads is the error, reported by path |
| `Charts.EnvConfig` | enhanced_plot_scripts.py:371-407 | Title and file name come from the environment or the defaults. The style is the environment's, and the repository name is present exactly when set |
| `Charts.EnvChartType` | enhanced_plot_scripts.py:380-383 | The chart type is the one `CHART_TYPE` names, and the hour bar chart when it names none |
| `Charts.EnvDpi` | enhanced_plot_scripts.py:388-392 | A non-empty `DPI` that reads as an integer sets the dpi. Anything else leaves 300 |
| `Charts.EmptyEnvDefaults` | enhanced_plot_scripts.py:374-386 | An empty environment gives `Git Commit Analysis`, `commit_chart`, the hour bar chart, no repository and the default style |
| `Charts.EnvConfigFailsIff` | enhanced_plot_scripts.py:374-407 | The configuration fails exactly when the title is set empty, or the file name is set empty or with a reserved character |
| `Charts.ChartFromEnv` | enhanced_plot_scripts.py:371-409 | Validation errors are reported exactly when the configuration fails, and a chart is written under the file name the environment gives |
| `ContactForm.RequiredError` | luis_landscaping_data_loader.py:251-256 | A field adds a required error exactly when it is absent or empty |
| `ContactForm.ValidateContactForm` | luis_landscaping_data_loader.py:237-276 | A form yields at most six errors |
| `ContactForm.NoErrorsIffAcceptable` | luis_landscaping_data_loader.py:237-276 | No errors exactly when all four fields are present, the email has `@`, and the cleaned phone is at least ten digits |
| `ContactForm.RaisedIff` | luis_landscaping_data_loader.py:250-274 | Each error is in the list exactly when its condition holds: a missing field, an email without `@`, or a bad phone |
| `ContactForm.RequiredIffMissing` | luis_landscaping_data_loader.py:250-274 | A missing field yields its required error and no format error |
| `ContactForm.EmailWithoutAt` | luis_landscaping_data_loader.py:259-264 | A present email without `@` yields exactly one email error |
| `ContactForm.ErrorsInOrder` | luis_landscaping_data_loader.py:250-274 | Errors come in the order name, email, phone, message required, then email, then phone, each at most once |
| `ContactForm.CleanPhone` | luis_landscaping_data_loader.py:269 | The cleaned phone has no `-`, space, `(` or `)` |
| `ContactForm.CleanPhoneIsChainedReplace` | luis_landscaping_data_loader.py:269 | Dropping the four separators in one pass equals the source's four chained `replace` calls |
| `ContactForm.SampleContactType` | luis_landscaping_data_loader.py:131-144 | The sample forms cycle through the four types: form `i` is a general inquiry, a service request, a quote request or feedback exactly when `i mod 4` is 0, 1, 2 or 3 |
| `ContactForm.SamplePhoneValid` | luis_landscaping_data_loader.py:142 | Sample phone `(512) 555-NNNN` cleans to `512555` plus `1000 + i` and passes the phone rule |
| `ContactForm.SampleFormsValid` | luis_landscaping_data_loader.py:120-149 | Every sample form validates with no errors |
| `ContactForm.DemonstrationFormValid` | luis_landscaping_data_loader.py:362-374 | The `John Doe` demonstration form validates with no errors |
| `ContactForm.DemonstrationPhone` | luis_landscaping_data_loader.py:365 | The demonstration phone is the sample phone shape for line 1234 |
| `SchemaOrg.SuffixReadBack` | schema_org.py:210-212 | The suffixed name and description start with the base text, and the repository name can be read back at its place |
| `SchemaOrg.DatasetKindRoundTrip` | schema_org.py:103-115 | Each dataset type's key maps back to that type, and no other string does |
| `SchemaOrg.ChartNamingFallsBackIffUnknown` | schema_org.py:193-208 | Name and description fall back exactly for a chart type outside the four-key table |
| `SchemaOrg.CreativeWorkNames` | schema_org.py:186-238 | The chart schema's name, description and `isBasedOn` name are the table entries, suffixed for a non-empty repository |
| `SchemaOrg.CreativeWorkFile` | schema_org.py:240-244 | The chart schema has a content URL exactly when the file is given and exists |
| `SchemaOrg.DatasetSchema` | schema_org.py:95-183 | The dataset schema fails (`KeyError`) exactly when a truthy record count meets a missing distribution |
| `SchemaOrg.DatasetNames` | schema_org.py:103-122 | The dataset's name and description are the table entries or the fallbacks, suffixed for a repository. There is a distribution exactly for an existing file |
| `SchemaOrg.DatasetDistribution` | schema_org.py:171-181 | For an existing file the distribution points at it and holds the record count exactly when the count is truthy |
| `SchemaOrg.ApplicationNames` | schema_org.py:86-90 | A repository name overrides the application's name and description |
| `SchemaOrg.ApplicationVersion` | schema_org.py:66 | The version is the given one when non-empty, otherwise `1.0.0` |
| `SchemaOrg.SoftwareApplicationSchema` | schema_org.py:14-93 | The application schema has 23 entries. It opens with the schema.org context and the type `SoftwareApplication`, and its `dateModified` is the clock's time |
| `SchemaOrg.CreativeWorkSchema` | schema_org.py:186-246 | The chart schema opens with the schema.org context and the type `CreativeWork`, and its `dateCreated` is the clock's time. It has 11 entries, and an existing given file adds exactly two |
| `SchemaOrg.McpServerSchema` | schema_org.py:249-286 | The server schema has 14 entries. It opens with the schema.org context and the type `SoftwareApplication`, and its `dateCreated` is the clock's time |
| `SchemaOrg.SchemaSlug` | schema_org.py:318-320 | The slug has the name's length; each space becomes `_`, each ASCII capital its lower-case letter, and every other character is kept, hyphens included |
| `SchemaOrg.SlugsAgreeIffNoHyphen` | schema_org.py:318-320 | The schema file slug equals the chart file slug exactly for names without a hyphen |
| `SchemaOrg.SchemaFileNameShape` | schema_org.py:318-320 | A schema file name is the key, then `_slug` when a repository is given, then `.jsonld` |
| `SchemaOrg.SchemaPathsDistinct` | schema_org.py:298-326 | The six schemas are written to six different paths |
| `SchemaOrg.GenerateAllSchemas` | schema_org.py:298-326 | One file per schema key, in order, each at the key's path |
| `SchemaOrg.JoinItems` | schema_org.py:352-353 | Keywords join exactly when they are all strings, and the joined items are those strings in order |
| `SchemaOrg.MetaTags` | schema_org.py:337-360 | 2 title, 3 description, 1 keywords and 1 author tags, each only when the entry is there, 0 to 7 in all. Keywords that are not strings raise |
| `SchemaOrg.MetaTagsReadFourKeys` | schema_org.py:337-360 | The tags depend only on the `name`, `description`, `keywords` and `author` entries |
| `SchemaOrg.MetaTagsOfEntries` | schema_org.py:337-360 | With string name and description, string keywords and a person author or none, the tags are exactly the listed seven (or six) |
| `SchemaOrg.ApplicationMetaTags` | schema_org.py:337-360 | The application schema yields seven tags, with its author |
| `SchemaOrg.CreativeWorkMetaTags` | schema_org.py:337-360 | A chart schema yields six tags, headed by its derived title |
| `SchemaOrg.DatasetMetaTags` | schema_org.py:337-360 | A dataset schema yields six tags, headed by its derived title |
| `JsonLd.Between` | integrity_studio_data_loader.py:57-70 | There is a payload exactly when the start marker occurs and the end marker occurs after it |
| `JsonLd.LoadSchemaFromHtml` | integrity_studio_data_loader.py:41-76 | A missing file raises. A missing marker or an undecodable payload gives `{}`. Otherwise the result is the decoded payload |
| `JsonLd.LaterBlocksIgnored` | integrity_studio_data_loader.py:60-70 | Text appended after a found block does not change the slice |
| `JsonLd.PayloadIgnoresLaterBlocks` | integrity_studio_data_loader.py:60-70 | Later script blocks do not change the payload |
| `JsonLd.ScriptTagRoundTrip` | integrity_studio_data_loader.py:57-70 | The payload of a page holding a script tag is the JSON text written into it |
| `JsonLd.LoadScriptTag` | integrity_studio_data_loader.py:41-76 | Loading a page holding a script tag gives the value its JSON decodes to |
| `JsonLd.ServicesOf` | integrity_studio_data_loader.py:177-181 | Only `Service` items are returned, and every `Service` item is. An item that is not a dict raises |
| `JsonLd.ServicesCounted` | integrity_studio_data_loader.py:177-181 | Each `Service` item occurs in the result exactly as often as in the graph, and nothing else occurs, so equal items are not merged |
| `JsonLd.ExtractServices` | integrity_studio_data_loader.py:173-181 | No `@graph` gives no services |
| `JsonLd.ServicesInOrder` | integrity_studio_data_loader.py:177-181 | The services come out as a subsequence of the graph, in its order |
| `JsonLd.ServicesIdempotent` | integrity_studio_data_loader.py:177-181 | Filtering the services again changes nothing |
| `JsonLd.ExtractFromServiceGraph` | integrity_studio_data_loader.py:173-181 | A schema whose graph is the extracted services extracts to them again |
| `Database.Weekday` | database_schema.py:253 | `weekday()` lies in 0..6 |
| `Database.NextDayNextWeekday` | database_schema.py:253 | The next calendar day has the next weekday, modulo 7 |
| `Database.NextDayIsOneLater` | database_schema.py:253 | The day count of the next calendar day is one more, across month ends and leap days |
| `Database.MondayIsZero` | database_schema.py:253 | Monday 2024-01-01 has weekday 0 |
| `Database.SundayIsSix` | database_schema.py:54 | Sunday 2023-01-01 has weekday 6, not the 0 the column comment promises |
| `Database.FindFirst` | database_schema.py:225 | `.filter(...).first()`: the index found is the first at or after the start whose row matches, and there is none exactly when no row from there on matches |
| `Database.GetOrCreateRepository` | database_schema.py:221-233 | The named row is returned. A new one is appended with the next id only when the name is absent. The store's constraints are kept |
| `Database.RepositoryIdempotent` | tests/test_database_schema.py:35-50 | A repeated call returns the same row, changes nothing, and leaves exactly one row with the name |
| `Database.NewCommit` | database_schema.py:247-262 | A new commit's hour, weekday, month and year agree with its timestamp |
| `Database.AddCommit` | database_schema.py:235-269 | An existing `(repository, hash)` returns that row and inserts nothing. Otherwise one derived row is appended. Constraints are kept |
| `Database.AddCommitIdempotent` | database_schema.py:240-246 | Adding the same hash again returns the first row and changes nothing, whatever else the input holds |
| `Database.Bucket` | database_schema.py:281-285 | A bucket holds exactly the repository's commits with that period value |
| `Database.UpdateKeepsOtherRepositories` | database_schema.py:275-278 | Other repositories' summary rows survive the rebuild, and none are added |
| `Database.UpdateWritesBuckets` | database_schema.py:280-341 | After the rebuild the repository has exactly one row per non-empty in-range bucket, holding that bucket's figures |
| `Database.BucketRowFigures` | database_schema.py:288-298 | A bucket row counts the bucket, has between 1 and that many authors, and its first commit is not after its last |
| `Database.UpdateKeepsKeysUnique` | database_schema.py:104-105 | The rebuild keeps `uq_repo_period` |
| `Database.UpdateIdempotent` | database_schema.py:271-345 | Rebuilding twice equals rebuilding once |
| `Database.GetCommitStatistics` | database_schema.py:381-421 | An unknown id gives nothing. Otherwise the result has the repository's name and its commit count |
| `Database.Distribution` | database_schema.py:411-413 | A distribution has a key exactly for the period values that have a summary row of that repository and type |
| `Database.DistributionAt` | database_schema.py:411-413 | Under unique keys each row's count is what the distribution reports for its value |
| `Database.DistributionAfterUpdate` | database_schema.py:271-345 | After a rebuild the distribution has a value exactly for the in-range non-empty buckets, and reports their sizes |
| `Database.UpdateCommitSummaries` | database_schema.py:271-345 | The rebuild changes only the summary table: the repositories and commits are as before |
| `Database.StatisticsAddUp` | database_schema.py:381-421 | After a rebuild each distribution's counts add up to the repository's commit total |
| `Database.ImportEntries` | database_schema.py:447-480 | The import changes only the summary table, and a rolled-back import changes nothing |
| `Database.ImportCommitDataFromFiles` | database_schema.py:432-483 | The repository exists afterwards and the repository table is that of `get_or_create_repository`. A rollback leaves the store as it was right after the repository was created |
| `Database.Loaded` | database_schema.py:464-467 | A file's records all carry its kind, and a file that fails to load gives none. As written, the hour file gives none |
| `Database.HourFileNeverImported` | database_schema.py:464-474 | As written, the import with any hour file equals the import without it |
| `Database.LoadersAgreeWithoutHourFile` | database_schema.py:464-474 | Without an hour file both loaders import the same |
| `Database.HourFileImportedWhenCorrected` | database_schema.py:447-474 | With the corrected loader the hour file's records are imported first, in file order, then the day and month files as written would load them |
| `Database.LoadersAgreeBeyondHours` | database_schema.py:464-474 | Day and month files give the same records under either loader |
| `Database.Upsert` | database_schema.py:446-462 | One record changes no column of the committed rows except the count. When a committed row has its key, it adds nothing. Otherwise it leaves the rows alone and adds one new row with the record's key and count |
| `Database.Stage` | database_schema.py:446-462 | With unique committed keys, staging the records sets each committed row's count to the last count given for its key, all else unchanged. It queues one new row for every record whose key has no committed row, duplicates included, in file order |
| `Database.ImportCommitsIff` | database_schema.py:447-480 | The import commits exactly when the queued new rows have distinct keys and every integer written fits SQLite's 64 bits: each record's period, each new row's count, and each committed row's last count. It then holds the updated rows followed by the new ones |
| `Database.ImportKeepsKeysUnique` | database_schema.py:447-480 | Committed or rolled back, the import keeps `uq_repo_period` |
| `Database.ImportSetsLastCounts` | database_schema.py:447-462 | After a committed import every key in the files has a row holding the last count given for it |
| `Database.ImportIdempotent` | database_schema.py:447-480 | Importing the same records again after a committed import changes nothing |
| `Database.BrokenFileSkipped` | database_schema.py:464-467 | Under either loader, an hour, day or month file that fails to load leaves the import exactly as if the file were absent |
| `Database.OperationsKeepValid` | database_schema.py:271-483 | The rebuild and the import keep every constraint of the store |
| `Database.ImportThreeFiles` | tests/test_database_schema.py:72-107 | One record per file into an empty summary table gives exactly three rows with the file counts |
| `Database.RepeatedNewKeyRollsBack` | database_schema.py:476-480 | A new key given twice queues two rows with one key, so the commit fails and nothing remains |
| `Database.RepeatedExistingKeyKeepsLast` | database_schema.py:447-462 | An existing key given twice ends with the later count and nothing else changes. Only the period and the later count must fit 64 bits, since the earlier count is never written; otherwise the import rolls back |
| `Database.NewRowFitsIff` | database_schema.py:447-480 | A single record with a new key is imported exactly when its period and its count fit SQLite's 64-bit INTEGER |
| `Database.StatisticsOfThreeRows` | tests/test_database_schema.py:109-128 | Two hour rows and one day row give `{10: 5, 11: 15}`, `{3: 20}`, `{}` and a total of 0 |

## Findings

| source | as written | input that shows it | evidently intended | confidence | as-written member | corrected member |
|---|---|---|---|---|---|---|
| enhanced_plot_scripts.py:46 | The hour file `./Generated Data/commit_counts.txt` (and `./commit_counts.txt` at database_schema.py:471) is validated by `validate_commit_data_file`, which infers the kind from the path. The path contains none of `hour`, `day` or `month` | The content `8 10` under that path fails with "Cannot determine period type from filename" at line 1 | The per-kind file table already fixes the kind, so the hour file loads as hourly records | high, not executed | `CommitData.HourFileNeverLoads` | `CommitData.HourFileLoadsWhenCorrected` |

The charts and the import take the loader as a parameter (`CommitData.Loader`):
`AsWritten` is the source's and `Corrected` passes the caller's kind. As written, the hour
chart is never drawn from data (`Charts.HourChartNeverDraws`), and the hour file is never
imported (`Database.HourFileNeverImported`). Corrected, both happen
(`Charts.HourChartWhenCorrected`, `Database.HourFileImportedWhenCorrected`). For every
other file and chart the two loaders agree (`CommitData.CorrectionAgreesForDayAndMonth`,
`Charts.LoadersAgreeBeyondHours`, `Database.LoadersAgreeBeyondHours`).
`Charts.ChartFromEnv`, the script's entry point, reads its files as written.

## Left out

- Rendering: figures, axes, fonts, `figsize`, `grid_alpha`, saving images, and the
  schema file write after each chart. The model stops at labels, counts and palette.
- File system and process I/O. File contents are parameters, and `None` stands for a
  missing file.
- `json.loads` / `json.dumps` are an abstract decoder parameter. The script tag's
  round trip assumes the JSON text has no edge whitespace and no `</script>`, and
  that no `<` comes before the tag.
- Python's lenient built-ins: `int()` follows Python's grammar for bases 10 and 16
  (whitespace, sign, `0x` prefix, `_` separators), with the default limit of 4300
  decimal digits as a constant (a changed `sys.set_int_max_str_digits` is not
  modelled). Its digits are ASCII only, so other Unicode decimal digits are refused. `isdigit` is ASCII digits only. `lower` maps
  `A`-`Z` only. Whitespace is the ASCII and Latin-1 set. Lines split on `\n` only,
  so `\r` newlines are not modelled.
- Text.IntToString: `str()` of an integer of more than 4300 digits raises in Python,
  while the model renders it. The round trips through it (`Text.IntRoundTrip`,
  `Json.PyStr`, `Charts.BarLabelsReadBack`) say that `int()` refuses such a text.
- CommitData.FormatParseRoundTrip: stated only for records whose numbers have at most
  4300 digits (`CommitData.Writable`), because `str()` cannot write longer ones and
  `int()` refuses to read them. `CommitData.CollectFormatted`,
  `CommitData.RangeNotEnforced`, `CommitData.MalformedSecondLine` and
  `CommitData.HourFileLoadsWhenCorrected` carry the same condition.
- CommitData.LenientTokensParse: stated for a period and a count of at most 4300
  digits each; longer ones are refused as any other over-long number.
- Database.AddCommit: SQLite's 64-bit INTEGER is not modelled here. A file count,
  insertion or deletion figure outside -2^63..2^63-1 makes the source's commit
  raise, while the model appends the row.
- Database.UpdateCommitSummaries: SQLite's 64-bit INTEGER is not modelled here. A
  bucket whose summed insertions or deletions pass 2^63-1 makes the source's commit
  raise and keep the old summaries, while the model writes the sums. The import
  does model the limit (`Database.ImportCommitsIff`); repository ids are assumed to
  fit, being the row count plus one.
- Floats: the palette uses exact rational arithmetic truncated toward zero. The
  source's float ratio can land one off, toward zero, in rare cases.
- `datetime.now()` is a parameter, and the timestamp type has no microseconds or
  time zone. `uuid4()` sample data is not modelled.
- SchemaOrg.DatasetSchema: one `now` fills both `dateCreated` and `dateModified`,
  while the source calls `datetime.now()` once for each (schema_org.py:141-142), so
  the two stamps may differ by the time between the calls.
- Post-construction attribute assignment is not revalidated (environment colours
  and dpi), as in the source. Only construction-time validation is modelled.
- Contact-form values are strings. Non-string values, and the container f-string
  prints, are not modelled.
- `database_schema.py`: `add_chart`, `create_tables`, `initialize_database`, the
  chart and data-file tables, foreign-key enforcement, SQLAlchemy sessions and
  `created_at`/`updated_at` are not modelled. Ids are the row count plus one. A
  `KeyError` for a commit input without a required key is not modelled, because
  the input is a typed record.
- The client-site schema-type files, `enhanced_mcp_server.py`,
  `analyze_integrity_studio.py`, `extract_schema_org.py`, the setup scripts, and the
  TypeScript scraping in `luis_landscaping_data_loader.py:71-118` are not part of
  this model.
- Charts.EnvStyle: its own contract covers the font sizes and the colours. The dpi
  rule is stated by `Charts.EnvDpi`.
- Json.PyStr: a list renders as the placeholder `[...]` and a dict as `{...}`, not as
  Python's `repr` (`['a']`, `{'k': 1}`). The `content` of a `SchemaOrg.MetaTags` tag
  built from a list or dict value differs from the source's for that reason. JSON
  floats are not modelled: no schema value is a float.
- ContactForm.ValidateContactForm: its own contract bounds only the number of
  errors. Membership and order are in `ContactForm.RaisedIff` and
  `ContactForm.ErrorsInOrder`.
- Database.GetCommitStatistics: its own contract covers the unknown id, the name and
  the total. The distributions are stated by `Database.Distribution` and
  `Database.StatisticsAddUp`.

=== FILE: chart_config.dfy ===
/** Chart configuration: the chart kinds, the plot style with its bounded fields and
    colours, the chart configuration with its file-name rule, and the
    per-kind default configuration. Construction either yields a value whose fields are
    exactly the arguments, or the list of field errors in field declaration order. */
module Config {
  import opened Wrappers
  import opened Text

  datatype ChartType = HourBar | DayPie | MonthPie | DayMonthCombined

  /** The enum's string value. */
  function ChartTypeValue(t: ChartType): string {
    match t
    case HourBar => "hour_bar"
    case DayPie => "day_pie"
    case MonthPie => "month_pie"
    case DayMonthCombined => "day_month_combined"
  }

  /** `ChartType(s)`: lookup by value; any other string is refused. */
  function ChartTypeFromValue(s: string): (r: Option<ChartType>)
    ensures r.Some? ==> ChartTypeValue(r.value) == s
  {
    if s == "hour_bar" then Some(HourBar)
    else if s == "day_pie" then Some(DayPie)
    else if s == "month_pie" then Some(MonthPie)
    else if s == "day_month_combined" then Some(DayMonthCombined)
    else None
  }

  /** The lookup inverts the value table: a string names a kind exactly when it is that
      kind's value. */
  lemma ChartTypeValueRoundTrip(t: ChartType, s: string)
    ensures ChartTypeFromValue(ChartTypeValue(t)) == Some(t)
    ensures ChartTypeFromValue(s) == Some(t) <==> ChartTypeValue(t) == s
  {
  }

  // ---------------------------------------------------------------------------
  // Field errors

  datatype Field = Dpi | ColorPrimary | ColorSecondary | FontSize | TitleFontSize | Title | OutputFilename

  datatype Reason =
    | OutOfRange(lo: int, hi: int)
    | NotHexShape        // not `#` followed by six characters
    | NotHexDigits       // the six characters do not read as a base-16 integer
    | Empty
    | ReservedCharacter

  datatype FieldError = FieldError(field: Field, reason: Reason)

  /** The errors that name `f`. */
  predicate Names(errs: seq<FieldError>, f: Field) {
    exists i :: 0 <= i < |errs| && errs[i].field == f
  }

  function CheckRange(f: Field, v: int, lo: int, hi: int): (errs: seq<FieldError>)
    ensures |errs| <= 1
    ensures errs == [] <==> lo <= v <= hi
    ensures forall i :: 0 <= i < |errs| ==> errs[i] == FieldError(f, OutOfRange(lo, hi))
  {
    if lo <= v <= hi then [] else [FieldError(f, OutOfRange(lo, hi))]
  }

  /** `#RRGGBB` as the error message names it: a `#`, then six hexadecimal digits. */
  predicate StrictHexColor(v: string) {
    |v| == 7 && v[0] == '#' && forall i :: 1 <= i < 7 ==> IsHexDigit(v[i])
  }

  /** What the validator lets through: a `#` and six characters that Python's
      `int(..., 16)` reads, which takes more than six hex digits. */
  predicate AcceptedColor(v: string) {
    |v| == 7 && v[0] == '#' && ParseHex(v[1..]).Some?
  }

  /** The colour validator: the shape is checked first, then the digits. */
  function CheckColor(f: Field, v: string): (errs: seq<FieldError>)
    ensures |errs| <= 1
    ensures errs == [] <==> AcceptedColor(v)
    ensures forall i :: 0 <= i < |errs| ==> errs[i].field == f
    ensures errs != [] ==>
      errs[0].reason == if |v| == 7 && v[0] == '#' then NotHexDigits else NotHexShape
  {
    if !(v != [] && v[0] == '#') || |v| != 7 then [FieldError(f, NotHexShape)]
    else if ParseHex(v[1..]).None? then [FieldError(f, NotHexDigits)]
    else []
  }

  /** Every `#RRGGBB` colour is accepted. */
  lemma StrictColorAccepted(v: string)
    requires StrictHexColor(v)
    ensures AcceptedColor(v)
  {
    var t := v[1..];
    assert forall i :: 0 <= i < |t| ==> t[i] == v[i + 1];
    PlainDigits(t, Hexadecimal);
  }

  /** The validator also accepts six characters that are not six hex digits: a sign,
      a `0x` prefix, leading whitespace or an underscore between digits, all of which
      `int(..., 16)` reads. */
  lemma LenientColorsAccepted(d5: string, d4: string, d2: string, d3: string)
    requires |d5| == 5 && AllHex(d5) && |d4| == 4 && AllHex(d4)
    requires |d2| == 2 && AllHex(d2) && |d3| == 3 && AllHex(d3)
    ensures AcceptedColor("#" + "-" + d5) && !StrictHexColor("#" + "-" + d5)
    ensures AcceptedColor("#" + "0x" + d4) && !StrictHexColor("#" + "0x" + d4)
    ensures AcceptedColor("#" + " " + d5) && !StrictHexColor("#" + " " + d5)
    ensures AcceptedColor("#" + d2 + "_" + d3) && !StrictHexColor("#" + d2 + "_" + d3)
  {
    SignedColorAccepted(d5);
    PrefixedColorAccepted(d4);
    PaddedColorAccepted(d5);
    UnderscoreColorAccepted(d2, d3);
  }

  lemma SignedColorAccepted(d5: string)
    requires |d5| == 5 && AllHex(d5)
    ensures AcceptedColor("#" + "-" + d5) && !StrictHexColor("#" + "-" + d5)
  {
    PlainDigitsRead(d5, Hexadecimal);
    ColorOfGrammar([], Minus, NoPrefix, d5, 0);
    assert "#" + "-" + d5 == "#" + ([] + SignText(Minus) + PrefixText(NoPrefix) + d5 + []);
  }

  lemma PrefixedColorAccepted(d4: string)
    requires |d4| == 4 && AllHex(d4)
    ensures AcceptedColor("#" + "0x" + d4) && !StrictHexColor("#" + "0x" + d4)
  {
    PlainDigitsRead(d4, Hexadecimal);
    ColorOfGrammar([], NoSign, ZeroX(false, false), d4, 1);
    assert "#" + "0x" + d4 == "#" + ([] + SignText(NoSign) + PrefixText(ZeroX(false, false)) + d4 + []);
  }

  lemma PaddedColorAccepted(d5: string)
    requires |d5| == 5 && AllHex(d5)
    ensures AcceptedColor("#" + " " + d5) && !StrictHexColor("#" + " " + d5)
  {
    PlainDigitsRead(d5, Hexadecimal);
    ColorOfGrammar(" ", NoSign, NoPrefix, d5, 0);
    assert "#" + " " + d5 == "#" + (" " + SignText(NoSign) + PrefixText(NoPrefix) + d5 + []);
  }

  lemma UnderscoreColorAccepted(d2: string, d3: string)
    requires |d2| == 2 && AllHex(d2) && |d3| == 3 && AllHex(d3)
    ensures AcceptedColor("#" + d2 + "_" + d3) && !StrictHexColor("#" + d2 + "_" + d3)
  {
    var g := d2 + "_" + d3;
    var t := [] + SignText(NoSign) + PrefixText(NoPrefix) + g + [];
    assert AcceptedColor("#" + t) && !StrictHexColor("#" + t) by {
      UnderscoreRead(d2, d3, Hexadecimal);
      assert t[2] == '_';
      ColorOfGrammar([], NoSign, NoPrefix, g, 2);
    }
    assert "#" + d2 + "_" + d3 == "#" + t;
  }

  /** Six characters of the base-16 grammar after a `#` make an accepted colour, and one
      of them that is not a hex digit keeps it from being `#RRGGBB`. */
  lemma ColorOfGrammar(a: string, sign: Sign, prefix: Prefix, g: string, k: nat)
    requires IsBlank(a) && ReadGrouped(g, Hexadecimal).Some?
    requires |a + SignText(sign) + PrefixText(prefix) + g + []| == 6 && k < 6
    requires !IsHexDigit((a + SignText(sign) + PrefixText(prefix) + g + [])[k])
    ensures AcceptedColor("#" + (a + SignText(sign) + PrefixText(prefix) + g + []))
    ensures !StrictHexColor("#" + (a + SignText(sign) + PrefixText(prefix) + g + []))
  {
    var t := a + SignText(sign) + PrefixText(prefix) + g + [];
    PyIntAccepts(a, sign, prefix, g, [], Hexadecimal);
    var v := "#" + t;
    assert v[1..] == t;
    assert v[k + 1] == t[k];
  }

  // ---------------------------------------------------------------------------
  // Plot style

  /** The validated fields of a plot configuration; the float fields (figure size, grid
      transparency) are not part of the model. */
  datatype PlotStyle = PlotStyle(dpi: int, colorPrimary: string, colorSecondary: string,
                                 fontSize: int, titleFontSize: int)

  const DefaultStyle := PlotStyle(300, "#4e79a7", "#2e4977", 12, 16)

  predicate ValidStyle(s: PlotStyle) {
    72 <= s.dpi <= 600
    && AcceptedColor(s.colorPrimary) && AcceptedColor(s.colorSecondary)
    && 8 <= s.fontSize <= 24
    && 10 <= s.titleFontSize <= 32
  }

  /** The field a plot-style error can name is valid exactly when no error names it. */
  predicate StyleFieldValid(s: PlotStyle, f: Field) {
    match f
    case Dpi => 72 <= s.dpi <= 600
    case ColorPrimary => AcceptedColor(s.colorPrimary)
    case ColorSecondary => AcceptedColor(s.colorSecondary)
    case FontSize => 8 <= s.fontSize <= 24
    case TitleFontSize => 10 <= s.titleFontSize <= 32
    case _ => true
  }

  /** `PlotConfig(...)`: every field is checked and all errors are reported together, in
      field declaration order. */
  function MakePlotStyle(s: PlotStyle): (r: Result<PlotStyle, seq<FieldError>>)
    ensures r.Success? <==> ValidStyle(s)
    ensures r.Success? ==> r.value == s
    ensures r.Failure? ==> r.error != [] && forall f :: Names(r.error, f) <==> !StyleFieldValid(s, f)
  {
    var e1 := CheckRange(Dpi, s.dpi, 72, 600);
    var e2 := CheckColor(ColorPrimary, s.colorPrimary);
    var e3 := CheckColor(ColorSecondary, s.colorSecondary);
    var e4 := CheckRange(FontSize, s.fontSize, 8, 24);
    var e5 := CheckRange(TitleFontSize, s.titleFontSize, 10, 32);
    var errs := e1 + e2 + e3 + e4 + e5;
    if errs == [] then Success(s)
    else
      assert forall f :: Names(errs, f) <==> !StyleFieldValid(s, f) by {
        forall f ensures Names(errs, f) <==> !StyleFieldValid(s, f) {
          NamesAppend(e1 + e2 + e3 + e4, e5, f);
          NamesAppend(e1 + e2 + e3, e4, f);
          NamesAppend(e1 + e2, e3, f);
          NamesAppend(e1, e2, f);
          NamesOfOneField(e1, Dpi, f);
          NamesOfOneField(e2, ColorPrimary, f);
          NamesOfOneField(e3, ColorSecondary, f);
          NamesOfOneField(e4, FontSize, f);
          NamesOfOneField(e5, TitleFontSize, f);
        }
      }
      Failure(errs)
  }

  lemma NamesAppend(a: seq<FieldError>, b: seq<FieldError>, f: Field)
    ensures Names(a + b, f) <==> Names(a, f) || Names(b, f)
  {
    if Names(a + b, f) {
      var i :| 0 <= i < |a + b| && (a + b)[i].field == f;
      if i >= |a| {
        assert (a + b)[i] == b[i - |a|];
      }
    }
    if Names(b, f) {
      var i :| 0 <= i < |b| && b[i].field == f;
      assert (a + b)[|a| + i] == b[i];
    }
    if Names(a, f) {
      var i :| 0 <= i < |a| && a[i].field == f;
      assert (a + b)[i] == a[i];
    }
  }

  /** Errors that all name `g` name `f` exactly when there is one and `f` is `g`. */
  lemma NamesOfOneField(errs: seq<FieldError>, g: Field, f: Field)
    requires forall i :: 0 <= i < |errs| ==> errs[i].field == g
    ensures Names(errs, f) <==> errs != [] && f == g
  {
    if errs != [] && f == g {
      assert errs[0].field == f;
    }
  }

  /** The defaults are themselves valid. */
  lemma DefaultStyleValid()
    ensures MakePlotStyle(DefaultStyle) == Success(DefaultStyle)
  {
    assert StrictHexColor("#4e79a7");
    assert StrictHexColor("#2e4977");
    StrictColorAccepted("#4e79a7");
    StrictColorAccepted("#2e4977");
  }

  // ---------------------------------------------------------------------------
  // Chart configuration

  /** The characters an output file name may not contain. */
  const Reserved: string := "/\\:*?\"<>|"

  predicate HasReserved(s: string) {
    exists i :: 0 <= i < |s| && s[i] in Reserved
  }

  datatype ChartConfig = ChartConfig(title: string, outputFilename: string, chartType: ChartType,
                                     repositoryName: Option<string>, style: PlotStyle)

  /** `ChartConfig(...)` around an already-built style: a non-empty title, and a non-empty
      file name free of reserved characters (the reserved-character rule runs only once
      the length rule has passed). */
  function MakeChartConfig(title: string, filename: string, t: ChartType, repo: Option<string>,
                           style: PlotStyle): (r: Result<ChartConfig, seq<FieldError>>)
    ensures r.Success? <==> title != [] && filename != [] && !HasReserved(filename)
    ensures r.Success? ==> r.value == ChartConfig(title, filename, t, repo, style)
    ensures r.Failure? ==> (Names(r.error, Title) <==> title == [])
    ensures r.Failure? ==> (Names(r.error, OutputFilename) <==> filename == [] || HasReserved(filename))
  {
    var e1 := if title == [] then [FieldError(Title, Empty)] else [];
    var e2 := if filename == [] then [FieldError(OutputFilename, Empty)]
              else if HasReserved(filename) then [FieldError(OutputFilename, ReservedCharacter)]
              else [];
    var errs := e1 + e2;
    if errs == [] then Success(ChartConfig(title, filename, t, repo, style))
    else
      assert Names(errs, Title) <==> title == [] by {
        if Names(errs, Title) {
          var i :| 0 <= i < |errs| && errs[i].field == Title;
          assert i < |e1|;
        }
        if title == [] {
          assert errs[0] == e1[0];
        }
      }
      assert Names(errs, OutputFilename) <==> e2 != [] by {
        if Names(errs, OutputFilename) {
          var i :| 0 <= i < |errs| && errs[i].field == OutputFilename;
          assert i >= |e1|;
        }
        if e2 != [] {
          assert errs[|e1|] == e2[0];
        }
      }
      Failure(errs)
  }

  // ---------------------------------------------------------------------------
  // Default configuration

  function TypeTitle(t: ChartType): string {
    match t
    case HourBar => "Commits by Hour"
    case DayPie => "Commits by Day of Week"
    case MonthPie => "Commits by Month"
    case DayMonthCombined => "Commits by Day and Month"
  }

  function TypeStem(t: ChartType): string {
    match t
    case HourBar => "commits_by_hour"
    case DayPie => "commits_by_day"
    case MonthPie => "commits_by_month"
    case DayMonthCombined => "commits_by_day_month"
  }

  /** The repository part of a default file name: lower-cased, spaces and hyphens made
      underscores. */
  function RepoSlug(repo: string): (r: string)
    ensures |r| == |repo|
  {
    ReplaceChar(ReplaceChar(Lower(repo), ' ', '_'), '-', '_')
  }

  /** The title and file name before validation; a missing or empty name adds nothing. */
  function DefaultNames(t: ChartType, repo: Option<string>): (string, string) {
    if repo.Some? && repo.value != [] then
      (TypeTitle(t) + " - " + repo.value, TypeStem(t) + "_" + RepoSlug(repo.value))
    else (TypeTitle(t), TypeStem(t))
  }

  /** `create_default_chart_config`. */
  function DefaultChartConfig(t: ChartType, repo: Option<string>): (r: Result<ChartConfig, seq<FieldError>>)
    ensures r.Success? ==> r.value.chartType == t && r.value.repositoryName == repo
    ensures r.Success? ==> r.value.style == DefaultStyle
  {
    var names := DefaultNames(t, repo);
    MakeChartConfig(names.0, names.1, t, repo, DefaultStyle)
  }

  /** The slug keeps a character reserved exactly when it was reserved. */
  lemma SlugReserved(repo: string)
    ensures HasReserved(RepoSlug(repo)) <==> HasReserved(repo)
  {
    var r := RepoSlug(repo);
    if HasReserved(repo) {
      var i :| 0 <= i < |repo| && repo[i] in Reserved;
      assert r[i] == repo[i];
    }
    if HasReserved(r) {
      var i :| 0 <= i < |r| && r[i] in Reserved;
      assert r[i] == repo[i];
    }
  }

  lemma StemFree(t: ChartType)
    ensures !HasReserved(TypeStem(t))
  {
  }

  lemma AppendReserved(a: string, b: string)
    ensures HasReserved(a + b) <==> HasReserved(a) || HasReserved(b)
  {
    if HasReserved(a + b) {
      var i :| 0 <= i < |a + b| && (a + b)[i] in Reserved;
      if i >= |a| {
        assert (a + b)[i] == b[i - |a|];
      }
    }
    if HasReserved(b) {
      var i :| 0 <= i < |b| && b[i] in Reserved;
      assert (a + b)[|a| + i] == b[i];
    }
    if HasReserved(a) {
      var i :| 0 <= i < |a| && a[i] in Reserved;
      assert (a + b)[i] == a[i];
    }
  }

  /** The default configuration fails exactly when a non-empty repository name holds a
      reserved character; the title can never be the cause. */
  lemma DefaultFailsIffReservedRepo(t: ChartType, repo: Option<string>)
    ensures DefaultChartConfig(t, repo).Failure?
      <==> repo.Some? && repo.value != [] && HasReserved(repo.value)
  {
    StemFree(t);
    if repo.Some? && repo.value != [] {
      SlugReserved(repo.value);
      AppendReserved(TypeStem(t), "_");
      AppendReserved(TypeStem(t) + "_", RepoSlug(repo.value));
    }
  }

  /** With a name the title is `"<title> - <name>"` and the file name is the stem, `_`,
      and the name's slug, which holds no space, hyphen or ASCII capital. */
  lemma DefaultWithRepo(t: ChartType, name: string)
    requires name != [] && !HasReserved(name)
    ensures var r := DefaultChartConfig(t, Some(name));
      r.Success?
      && r.value.title == TypeTitle(t) + " - " + name
      && r.value.outputFilename == TypeStem(t) + "_" + RepoSlug(name)
    ensures forall i :: 0 <= i < |RepoSlug(name)| ==>
      RepoSlug(name)[i] != ' ' && RepoSlug(name)[i] != '-' && !('A' <= RepoSlug(name)[i] <= 'Z')
    ensures forall i :: 0 <= i < |name| ==>
      RepoSlug(name)[i] == (if name[i] == ' ' || name[i] == '-' then '_' else LowerChar(name[i]))
  {
    DefaultFailsIffReservedRepo(t, Some(name));
  }

  /** Without a name, or with an empty one, the table's title and stem are used as they are. */
  lemma DefaultWithoutRepo(t: ChartType, repo: Option<string>)
    requires repo.None? || repo == Some("")
    ensures DefaultChartConfig(t, repo)
      == Success(ChartConfig(TypeTitle(t), TypeStem(t), t, repo, DefaultStyle))
  {
    StemFree(t);
  }
}

=== FILE: charts.dfy ===
/** The chart builders of the plotting script, up to the point where the drawing library
    takes over: the hour bars with their value labels, the day and month pies (zero-filled
    slots, the non-zero slots in slot order, one palette colour per slice), the combined
    day-and-month figure, the dispatch on the chart type, and the configuration read
    from the environment. */
module Charts {
  import opened Wrappers
  import opened Text
  import opened CommitData
  import opened Config
  import opened Palette

  datatype ChartError =
    | DataUnavailable(loadError: LoadError)
    /** `IndexError`: a record's period addresses no slot. */
    | SlotOutOfRange(period: int)
    /** `ValueError("No commit data found for any day/month")`. */
    | NoData(kind: PeriodKind)
    | BadColor(colorError: PaletteError)

  // ---------------------------------------------------------------------------
  // Zero-filled slots

  /** Python's `xs[i]` index on a list of `size` items: negative indices count from the
      end, anything else outside the list is an `IndexError`. */
  function PyIndex(i: int, size: nat): (r: Option<nat>)
    ensures r.Some? <==> -(size as int) <= i < size
    ensures r.Some? ==> r.value < size && (r.value == i || r.value == i + size)
  {
    if 0 <= i < size then Some(i)
    else if -(size as int) <= i < 0 then Some(i + size)
    else None
  }

  /** The record's count is written into slot `k` (its period minus `offset`, as an index). */
  predicate Lands(rec: CommitCount, size: nat, offset: int, k: nat) {
    PyIndex(rec.period - offset, size) == Some(k)
  }

  predicate InSlots(rec: CommitCount, size: nat, offset: int) {
    PyIndex(rec.period - offset, size).Some?
  }

  function ZeroSlots(size: nat): (s: seq<int>)
    ensures |s| == size && forall k :: 0 <= k < size ==> s[k] == 0
  {
    seq(size, k => 0)
  }

  /** `for cc in data: slots[cc.period - offset] = cc.count`, record by record; the last
      record written decides, and the first record without a slot stops the loop. */
  function Fill(slots: seq<int>, recs: seq<CommitCount>, offset: int): (r: Result<seq<int>, ChartError>)
    ensures r.Success? ==> |r.value| == |slots|
    ensures r.Failure? ==> r.error.SlotOutOfRange?
    decreases |recs|
  {
    if recs == [] then Success(slots)
    else
      var done :- Fill(slots, recs[..|recs| - 1], offset);
      var last := recs[|recs| - 1];
      match PyIndex(last.period - offset, |slots|)
      case None => Failure(SlotOutOfRange(last.period))
      case Some(k) => Success(done[k := last.count])
  }

  /** The index of the last record that lands in slot `k`, if any. */
  function LastLanding(recs: seq<CommitCount>, size: nat, offset: int, k: nat): (r: Option<nat>)
    ensures r.Some? ==> (r.value < |recs| && Lands(recs[r.value], size, offset, k)
                         && forall j :: r.value < j < |recs| ==> !Lands(recs[j], size, offset, k))
    ensures r.None? ==> forall j :: 0 <= j < |recs| ==> !Lands(recs[j], size, offset, k)
    decreases |recs|
  {
    if recs == [] then None
    else if Lands(recs[|recs| - 1], size, offset, k) then Some(|recs| - 1)
    else LastLanding(recs[..|recs| - 1], size, offset, k)
  }

  /** Filling succeeds exactly when every record has a slot, and otherwise names the
      period of the first record without one. */
  lemma {:induction false} FillSucceedsIffAllInSlots(slots: seq<int>, recs: seq<CommitCount>, offset: int)
    ensures Fill(slots, recs, offset).Success?
      <==> forall j :: 0 <= j < |recs| ==> InSlots(recs[j], |slots|, offset)
    ensures Fill(slots, recs, offset).Failure? ==>
      exists j :: (0 <= j < |recs|
                   && Fill(slots, recs, offset).error == SlotOutOfRange(recs[j].period)
                   && !InSlots(recs[j], |slots|, offset)
                   && forall i :: 0 <= i < j ==> InSlots(recs[i], |slots|, offset))
    decreases |recs|
  {
    if recs != [] {
      var init := recs[..|recs| - 1];
      FillSucceedsIffAllInSlots(slots, init, offset);
      assert forall j :: 0 <= j < |init| ==> init[j] == recs[j];
    }
  }

  /** Later records overwrite earlier ones: each slot holds the count of the last record
      landing in it, or its initial value when none does. */
  lemma {:induction false} FillLastWriteWins(slots: seq<int>, recs: seq<CommitCount>, offset: int, k: nat)
    requires Fill(slots, recs, offset).Success? && k < |slots|
    ensures Fill(slots, recs, offset).value[k] == match LastLanding(recs, |slots|, offset, k)
      case Some(j) => recs[j].count
      case None => slots[k]
    decreases |recs|
  {
    if recs != [] {
      FillLastWriteWins(slots, recs[..|recs| - 1], offset, k);
    }
  }

  /** A record whose period is in its kind's range lands exactly in the slot the chart
      shows it under: day `d` in slot `d`, month `m` in slot `m - 1`. */
  lemma InRangeLands(rec: CommitCount, k: nat)
    requires rec.kind != Hour && PeriodInRange(rec.kind, rec.period)
    ensures var size, offset := SlotsOf(rec.kind), OffsetOf(rec.kind);
      InSlots(rec, size, offset) && (Lands(rec, size, offset, k) <==> rec.period - offset == k)
  {
  }

  /** A negative period is taken from the end of the list, so day `-1` fills Saturday's
      slot and month `0` fills December's. */
  lemma NegativePeriodsWrap(rec: CommitCount)
    requires rec.kind != Hour && -(SlotsOf(rec.kind) as int) <= rec.period - OffsetOf(rec.kind) < 0
    ensures Lands(rec, SlotsOf(rec.kind), OffsetOf(rec.kind),
                  rec.period - OffsetOf(rec.kind) + SlotsOf(rec.kind))
  {
  }

  // ---------------------------------------------------------------------------
  // Non-zero slots

  /** The slots with a positive count, in ascending order. */
  function Kept(counts: seq<int>): (ks: seq<nat>)
    ensures forall j :: 0 <= j < |ks| ==> ks[j] < |counts| && counts[ks[j]] > 0
    ensures forall j, j' :: 0 <= j < j' < |ks| ==> ks[j] < ks[j']
    ensures forall k :: 0 <= k < |counts| && counts[k] > 0 ==> k in ks
    decreases |counts|
  {
    if counts == [] then []
    else
      var init := Kept(counts[..|counts| - 1]);
      if counts[|counts| - 1] > 0 then init + [|counts| - 1] else init
  }

  /** The filtering loop: each positive slot's name and count, appended in slot order. */
  function FilterNonZero(names: seq<string>, counts: seq<int>): (r: (seq<string>, seq<int>))
    requires |names| == |counts|
    ensures |r.0| == |r.1| == |Kept(counts)|
    ensures forall j :: 0 <= j < |r.1| ==>
      r.0[j] == names[Kept(counts)[j]] && r.1[j] == counts[Kept(counts)[j]]
    decreases |counts|
  {
    if counts == [] then ([], [])
    else
      var n := |counts| - 1;
      var init := FilterNonZero(names[..n], counts[..n]);
      if counts[n] > 0 then (init.0 + [names[n]], init.1 + [counts[n]]) else init
  }

  /** Nothing survives the filter exactly when no slot is positive. */
  lemma KeptEmptyIffNoPositive(counts: seq<int>)
    ensures Kept(counts) == [] <==> forall k :: 0 <= k < |counts| ==> counts[k] <= 0
  {
    if Kept(counts) != [] {
      assert counts[Kept(counts)[0]] > 0;
    }
  }

  // ---------------------------------------------------------------------------
  // Pies

  const DayNames: seq<string> := ["Sunday", "Monday", "Tuesday", "Wednesday", "Thursday", "Friday", "Saturday"]
  const MonthNames: seq<string> := ["January", "February", "March", "April", "May", "June",
                                    "July", "August", "September", "October", "November", "December"]
  const DayShortNames: seq<string> := ["Sun", "Mon", "Tue", "Wed", "Thu", "Fri", "Sat"]
  const MonthShortNames: seq<string> := ["Jan", "Feb", "Mar", "Apr", "May", "Jun",
                                         "Jul", "Aug", "Sep", "Oct", "Nov", "Dec"]

  function SlotsOf(kind: PeriodKind): nat {
    match kind
    case Hour => 24
    case Day => 7
    case Month => 12
  }

  /** Days are stored under their own number, months one below theirs. */
  function OffsetOf(kind: PeriodKind): int {
    if kind == Month then 1 else 0
  }

  /** What a pie hands to the drawing library: one label, value and colour per slice. */
  datatype Slices = Slices(labels: seq<string>, values: seq<int>, colors: seq<string>)

  const NoSlices := Slices([], [], [])

  /** The slices of one pie before the empty check: zero-fill, filter, then one colour
      per surviving slot. An empty filter asks for no colours. */
  function PieSlices(names: seq<string>, kind: PeriodKind, recs: seq<CommitCount>, style: PlotStyle)
    : (r: Result<Slices, ChartError>)
    requires |names| == SlotsOf(kind)
    ensures r.Success? ==> |r.value.labels| == |r.value.values| == |r.value.colors|
    ensures r.Success? ==> forall j :: 0 <= j < |r.value.values| ==> r.value.values[j] > 0
    ensures r.Failure? ==> !r.error.NoData?
  {
    var counts :- Fill(ZeroSlots(SlotsOf(kind)), recs, OffsetOf(kind));
    var kept := FilterNonZero(names, counts);
    if kept.1 == [] then Success(NoSlices)
    else
      match PieColors(|kept.1|, style.colorPrimary, style.colorSecondary)
      case Failure(e) => Failure(BadColor(e))
      case Success(colors) => Success(Slices(kept.0, kept.1, colors))
  }

  /** `create_day_pie_chart` / `create_month_pie_chart`: a pie with no positive slot is an
      error. */
  function Pie(names: seq<string>, kind: PeriodKind, recs: seq<CommitCount>, style: PlotStyle)
    : (r: Result<Slices, ChartError>)
    requires |names| == SlotsOf(kind)
    ensures r.Success? ==> r.value.values != []
    ensures r.Failure? && PieSlices(names, kind, recs, style).Success? ==> r.error == NoData(kind)
  {
    var s :- PieSlices(names, kind, recs, style);
    if s.values == [] then Failure(NoData(kind)) else Success(s)
  }

  /** The slices a pie shows are exactly the slots with a positive count, in slot order,
      each under its own name; a pie fails for lack of data exactly when every slot is
      zero. */
  lemma PieShowsPositiveSlots(names: seq<string>, kind: PeriodKind, recs: seq<CommitCount>, style: PlotStyle)
    requires |names| == SlotsOf(kind)
    requires Fill(ZeroSlots(SlotsOf(kind)), recs, OffsetOf(kind)).Success?
    ensures var counts := Fill(ZeroSlots(SlotsOf(kind)), recs, OffsetOf(kind)).value;
      var r := PieSlices(names, kind, recs, style);
      r.Success? ==>
        |r.value.values| == |Kept(counts)|
        && forall j :: 0 <= j < |Kept(counts)| ==>
             r.value.labels[j] == names[Kept(counts)[j]] && r.value.values[j] == counts[Kept(counts)[j]]
    ensures var counts := Fill(ZeroSlots(SlotsOf(kind)), recs, OffsetOf(kind)).value;
      (Pie(names, kind, recs, style) == Failure(NoData(kind)))
      <==> (forall k :: 0 <= k < |counts| ==> counts[k] <= 0)
  {
    var counts := Fill(ZeroSlots(SlotsOf(kind)), recs, OffsetOf(kind)).value;
    var kept := FilterNonZero(names, counts);
    KeptEmptyIffNoPositive(counts);
    assert kept.1 == [] <==> Kept(counts) == [];
    PieSlicesOfKept(names, kind, recs, style);
  }

  /** The slices are what the filter keeps, and nothing when it keeps nothing. */
  lemma PieSlicesOfKept(names: seq<string>, kind: PeriodKind, recs: seq<CommitCount>, style: PlotStyle)
    requires |names| == SlotsOf(kind)
    requires Fill(ZeroSlots(SlotsOf(kind)), recs, OffsetOf(kind)).Success?
    ensures var kept := FilterNonZero(names, Fill(ZeroSlots(SlotsOf(kind)), recs, OffsetOf(kind)).value);
      var r := PieSlices(names, kind, recs, style);
      && (kept.1 == [] ==> r == Success(NoSlices))
      && (r.Success? ==> r.value.labels == kept.0 && r.value.values == kept.1)
  {
  }

  /** With configured colours of the accepted shape the palette never fails, so a pie
      fails only when a record has no slot or no slot is positive. */
  lemma PieColoursFollowStyle(names: seq<string>, kind: PeriodKind, recs: seq<CommitCount>, style: PlotStyle)
    requires |names| == SlotsOf(kind)
    requires StrictHexColor(style.colorPrimary) && StrictHexColor(style.colorSecondary)
    requires Fill(ZeroSlots(SlotsOf(kind)), recs, OffsetOf(kind)).Success?
    ensures PieSlices(names, kind, recs, style).Success?
  {
    var counts := Fill(ZeroSlots(SlotsOf(kind)), recs, OffsetOf(kind)).value;
    var n := |FilterNonZero(names, counts).1|;
    if n >= 3 {
      GradientEndpoints(n, style.colorPrimary, style.colorSecondary);
    }
  }

  /** One half of the combined figure: the same slices as the single pie, but no
      positive slot leaves the half empty instead of failing. */
  lemma CombinedHalfSkipsEmpty(names: seq<string>, kind: PeriodKind, recs: seq<CommitCount>, style: PlotStyle)
    requires |names| == SlotsOf(kind)
    ensures Pie(names, kind, recs, style) == Failure(NoData(kind))
      ==> PieSlices(names, kind, recs, style) == Success(NoSlices)
    ensures Pie(names, kind, recs, style).Success?
      ==> PieSlices(names, kind, recs, style) == Pie(names, kind, recs, style)
  {
  }

  // ---------------------------------------------------------------------------
  // Hour bars

  /** The bars in record order, and a value label over every bar with a positive count. */
  datatype Bars = Bars(periods: seq<int>, counts: seq<int>, labels: seq<(int, string)>)

  /** The bars with a positive count, in ascending order. */
  function Positive(recs: seq<CommitCount>): (ks: seq<nat>)
    ensures forall j :: 0 <= j < |ks| ==> ks[j] < |recs| && recs[ks[j]].count > 0
    ensures forall j, j' :: 0 <= j < j' < |ks| ==> ks[j] < ks[j']
    ensures forall k :: 0 <= k < |recs| && recs[k].count > 0 ==> k in ks
    decreases |recs|
  {
    if recs == [] then []
    else
      var init := Positive(recs[..|recs| - 1]);
      if recs[|recs| - 1].count > 0 then init + [|recs| - 1] else init
  }

  /** One label per bar with a positive count, in bar order (`BarLabelsAt` states where
      each sits and what it reads). */
  function BarLabels(recs: seq<CommitCount>): (ls: seq<(int, string)>)
    ensures |ls| == |Positive(recs)|
    decreases |recs|
  {
    if recs == [] then []
    else
      var init := BarLabels(recs[..|recs| - 1]);
      var last := recs[|recs| - 1];
      if last.count > 0 then init + [(last.period, IntToString(last.count))] else init
  }

  /** Label `j` sits at the period of the `j`-th bar with a positive count and reads
      `str(count)`. */
  lemma {:induction false} BarLabelsAt(recs: seq<CommitCount>)
    ensures forall j :: 0 <= j < |BarLabels(recs)| ==>
      BarLabels(recs)[j] == (recs[Positive(recs)[j]].period, IntToString(recs[Positive(recs)[j]].count))
    decreases |recs|
  {
    if recs != [] {
      var front, last := recs[..|recs| - 1], recs[|recs| - 1];
      var ls, ks := BarLabels(recs), Positive(recs);
      BarLabelsAt(front);
      forall j | 0 <= j < |ls|
        ensures ls[j] == (recs[ks[j]].period, IntToString(recs[ks[j]].count))
      {
        if j < |BarLabels(front)| {
          assert ls[j] == BarLabels(front)[j] && ks[j] == Positive(front)[j];
          assert recs[ks[j]] == front[Positive(front)[j]];
        } else {
          assert ls[j] == (last.period, IntToString(last.count)) && ks[j] == |recs| - 1;
        }
      }
    }
  }

  /** One bar per record, in file order: the record's hour at its count. */
  function HourBars(recs: seq<CommitCount>): (b: Bars)
    ensures |b.periods| == |b.counts| == |recs|
    ensures forall i :: 0 <= i < |recs| ==>
      b.periods[i] == recs[i].period && b.counts[i] == recs[i].count
  {
    Bars(seq(|recs|, i requires 0 <= i < |recs| => recs[i].period),
         seq(|recs|, i requires 0 <= i < |recs| => recs[i].count),
         BarLabels(recs))
  }

  /** Every label reads back as the count of the bar it sits on. */
  lemma BarLabelsReadBack(recs: seq<CommitCount>)
    ensures forall j :: 0 <= j < |BarLabels(recs)| ==>
      var count := recs[Positive(recs)[j]].count;
      ParseInt(BarLabels(recs)[j].1) == if StrDigitsFit(count) then Some(count) else None
  {
    BarLabelsAt(recs);
    forall j | 0 <= j < |BarLabels(recs)|
      ensures var count := recs[Positive(recs)[j]].count;
        ParseInt(BarLabels(recs)[j].1) == if StrDigitsFit(count) then Some(count) else None
    {
      IntRoundTrip(recs[Positive(recs)[j]].count);
    }
  }

  // ---------------------------------------------------------------------------
  // Dispatch

  /** The contents of the three data files; `None` is a file that does not exist. */
  datatype DataFiles = DataFiles(hour: Option<string>, day: Option<string>, month: Option<string>)

  function Content(files: DataFiles, kind: PeriodKind): Option<string> {
    match kind
    case Hour => files.hour
    case Day => files.day
    case Month => files.month
  }

  /** `validate_commit_data_file` on a kind's plotting path; `AsWritten` is what the
      script does, and there the hour file yields no bar at all. */
  function Load(files: DataFiles, kind: PeriodKind, loader: Loader): (r: Result<seq<CommitCount>, ChartError>)
    ensures Content(files, kind).None? ==> r == Failure(DataUnavailable(FileNotFound(PlotDataPath(kind))))
    ensures r.Success? ==> forall i :: 0 <= i < |r.value| ==> r.value[i].kind == kind
    ensures r.Failure? ==> r.error.DataUnavailable?
    ensures loader == AsWritten && kind == Hour && r.Success? ==> r.value == []
    ensures loader == AsWritten && kind == Hour && Content(files, kind).Some? ==>
      (r.Success? <==> AllBlankLines(Lines(Content(files, kind).value)))
  {
    PlotPathKind(kind);
    NoKindLoadsNothing(PlotDataPath(kind), Content(files, kind));
    match LoadWith(loader, PlotDataPath(kind), kind, Content(files, kind))
    case Success(recs) => Success(recs)
    case Failure(e) => Failure(DataUnavailable(e))
  }

  datatype Drawing =
    | BarChart(bars: Bars)
    | PieChart(pie: Slices)
    | CombinedChart(days: Slices, months: Slices)

  /** A built chart: the image path, the chart key its structured data is filed under,
      the path of that structured data, and what is drawn. */
  datatype Chart = Chart(outputPath: string, schemaKey: string, schemaPath: string, drawing: Drawing)

  function OutputPath(filename: string): string {
    "./Generated Data/" + filename + ".png"
  }

  function SchemaPath(filename: string): string {
    "./Generated Data/schemas/" + filename + "_schema.jsonld"
  }

  /** `create_hour_bar_chart` once its file is loaded. */
  function DrawBars(loaded: Result<seq<CommitCount>, ChartError>): (r: Result<Drawing, ChartError>)
    ensures r.Success? ==> r.value.BarChart?
    ensures loaded.Failure? ==> r == Failure(loaded.error)
    ensures loaded.Success? ==>
      && r.Success?
      && |r.value.bars.periods| == |r.value.bars.counts| == |loaded.value|
      && (forall i :: 0 <= i < |loaded.value| ==>
            r.value.bars.periods[i] == loaded.value[i].period && r.value.bars.counts[i] == loaded.value[i].count)
  {
    var recs :- loaded;
    Success(BarChart(HourBars(recs)))
  }

  /** `create_day_pie_chart` or `create_month_pie_chart` once its file is loaded. */
  function DrawPie(names: seq<string>, kind: PeriodKind, loaded: Result<seq<CommitCount>, ChartError>,
                   style: PlotStyle): (r: Result<Drawing, ChartError>)
    requires |names| == SlotsOf(kind)
    ensures r.Success? ==> r.value.PieChart? && r.value.pie.values != []
    ensures loaded.Failure? ==> r == Failure(loaded.error)
  {
    var recs :- loaded;
    var s :- Pie(names, kind, recs, style);
    Success(PieChart(s))
  }

  /** `create_combined_day_month_chart` once both files are loaded (the day file first). */
  function DrawCombined(days: Result<seq<CommitCount>, ChartError>, months: Result<seq<CommitCount>, ChartError>,
                        style: PlotStyle): (r: Result<Drawing, ChartError>)
    ensures r.Success? ==> r.value.CombinedChart?
    ensures days.Failure? ==> r == Failure(days.error)
    ensures days.Success? && months.Failure? ==> r == Failure(months.error)
    ensures r.Failure? && days.Success? && months.Success? ==> !r.error.NoData?
  {
    var ds :- days;
    var ms :- months;
    var d :- PieSlices(DayShortNames, Day, ds, style);
    var m :- PieSlices(MonthShortNames, Month, ms, style);
    Success(CombinedChart(d, m))
  }

  function Draw(config: ChartConfig, files: DataFiles, loader: Loader): Result<Drawing, ChartError> {
    match config.chartType
    case HourBar => DrawBars(Load(files, Hour, loader))
    case DayPie => DrawPie(DayNames, Day, Load(files, Day, loader), config.style)
    case MonthPie => DrawPie(MonthNames, Month, Load(files, Month, loader), config.style)
    case DayMonthCombined => DrawCombined(Load(files, Day, loader), Load(files, Month, loader), config.style)
  }

  /** The kinds of data file a chart type reads, in the order it reads them. */
  function KindsRead(t: ChartType): seq<PeriodKind> {
    match t
    case HourBar => [Hour]
    case DayPie => [Day]
    case MonthPie => [Month]
    case DayMonthCombined => [Day, Month]
  }

  /** `create_chart_from_config`: each chart type goes to its own builder; the image and
      its structured data are named after the configured file name. Saving the
      structured data swallows its own errors, so it never changes the result. The
      source reads its files `AsWritten`. */
  function CreateChart(config: ChartConfig, files: DataFiles, loader: Loader): (r: Result<Chart, ChartError>)
    ensures r.Success? ==> (r.value.outputPath == OutputPath(config.outputFilename)
                            && r.value.schemaPath == SchemaPath(config.outputFilename)
                            && r.value.schemaKey == ChartTypeValue(config.chartType))
    ensures r.Success? ==> match config.chartType
      case HourBar => r.value.drawing.BarChart?
      case DayPie => r.value.drawing.PieChart? && r.value.drawing.pie.values != []
      case MonthPie => r.value.drawing.PieChart? && r.value.drawing.pie.values != []
      case DayMonthCombined => r.value.drawing.CombinedChart?
  {
    var d :- Draw(config, files, loader);
    Success(Chart(OutputPath(config.outputFilename), ChartTypeValue(config.chartType),
                  SchemaPath(config.outputFilename), d))
  }

  /** A chart depends only on the files its type reads. */
  lemma ChartReadsOnlyItsKinds(config: ChartConfig, f1: DataFiles, f2: DataFiles, loader: Loader)
    requires forall k :: k in KindsRead(config.chartType) ==> Content(f1, k) == Content(f2, k)
    ensures CreateChart(config, f1, loader) == CreateChart(config, f2, loader)
  {
    forall k | k in KindsRead(config.chartType)
      ensures Load(f1, k, loader) == Load(f2, k, loader)
    {
    }
  }

  /** A missing file the chart reads is reported when every file read before it loaded. */
  lemma MissingFileReported(config: ChartConfig, files: DataFiles, loader: Loader, i: nat)
    requires i < |KindsRead(config.chartType)|
    requires Content(files, KindsRead(config.chartType)[i]).None?
    requires forall j :: 0 <= j < i ==> Load(files, KindsRead(config.chartType)[j], loader).Success?
    ensures CreateChart(config, files, loader)
      == Failure(DataUnavailable(FileNotFound(PlotDataPath(KindsRead(config.chartType)[i]))))
  {
    var k := KindsRead(config.chartType)[i];
    assert Load(files, k, loader) == Failure(DataUnavailable(FileNotFound(PlotDataPath(k))));
    if config.chartType == DayMonthCombined && i == 1 {
      assert KindsRead(config.chartType)[0] == Day;
    }
  }

  /** The combined figure never fails for lack of data: two empty halves still make a
      chart. */
  lemma CombinedNeverFailsForNoData(config: ChartConfig, files: DataFiles, loader: Loader)
    requires config.chartType == DayMonthCombined
    ensures CreateChart(config, files, loader).Failure? ==> !CreateChart(config, files, loader).error.NoData?
  {
  }

  /** As written, the hour chart is never drawn from data: an hour file with any
      non-blank line is refused as malformed, and one that loads has no bar. */
  lemma HourChartNeverDraws(config: ChartConfig, files: DataFiles)
    requires config.chartType == HourBar
    ensures files.hour.Some? && !AllBlankLines(Lines(files.hour.value)) ==>
      CreateChart(config, files, AsWritten).Failure?
      && CreateChart(config, files, AsWritten).error.DataUnavailable?
      && CreateChart(config, files, AsWritten).error.loadError.Malformed?
    ensures CreateChart(config, files, AsWritten).Success? ==>
      CreateChart(config, files, AsWritten).value.drawing == BarChart(HourBars([]))
  {
  }

  /** With the corrected loader, the hour chart draws the hour file's records bar for
      bar. */
  lemma HourChartWhenCorrected(config: ChartConfig, files: DataFiles, recs: seq<CommitCount>)
    requires config.chartType == HourBar
    requires LoadCommitData(PlotDataPath(Hour), Hour, files.hour) == Success(recs)
    ensures CreateChart(config, files, Corrected)
      == Success(Chart(OutputPath(config.outputFilename), ChartTypeValue(HourBar),
                       SchemaPath(config.outputFilename), BarChart(HourBars(recs))))
  {
  }

  /** Every chart that reads no hour file comes out the same under either loader. */
  lemma LoadersAgreeBeyondHours(config: ChartConfig, files: DataFiles)
    requires config.chartType != HourBar
    ensures CreateChart(config, files, AsWritten) == CreateChart(config, files, Corrected)
  {
    CorrectionAgreesForDayAndMonth(Day, files.day);
    CorrectionAgreesForDayAndMonth(Month, files.month);
    assert Load(files, Day, AsWritten) == Load(files, Day, Corrected);
    assert Load(files, Month, AsWritten) == Load(files, Month, Corrected);
    assert Draw(config, files, AsWritten) == Draw(config, files, Corrected);
  }

  // ---------------------------------------------------------------------------
  // Configuration from the environment

  function EnvOr(env: map<string, string>, key: string, default: string): string {
    if key in env then env[key] else default
  }

  /** A variable that is set to a non-empty value. */
  predicate EnvSet(env: map<string, string>, key: string) {
    key in env && env[key] != []
  }

  /** The style: the defaults, a `DPI` that reads as an integer, and any non-empty
      colour. The assignments happen after the style is built and are not validated. */
  function EnvStyle(env: map<string, string>): (s: PlotStyle)
    ensures s.fontSize == DefaultStyle.fontSize && s.titleFontSize == DefaultStyle.titleFontSize
    ensures EnvSet(env, "COLOR_PRIMARY") ==> s.colorPrimary == env["COLOR_PRIMARY"]
    ensures !EnvSet(env, "COLOR_PRIMARY") ==> s.colorPrimary == DefaultStyle.colorPrimary
    ensures EnvSet(env, "COLOR_SECONDARY") ==> s.colorSecondary == env["COLOR_SECONDARY"]
    ensures !EnvSet(env, "COLOR_SECONDARY") ==> s.colorSecondary == DefaultStyle.colorSecondary
  {
    var dpi := if EnvSet(env, "DPI") && ParseInt(env["DPI"]).Some? then ParseInt(env["DPI"]).value
               else DefaultStyle.dpi;
    var primary := if EnvSet(env, "COLOR_PRIMARY") then env["COLOR_PRIMARY"] else DefaultStyle.colorPrimary;
    var secondary := if EnvSet(env, "COLOR_SECONDARY") then env["COLOR_SECONDARY"] else DefaultStyle.colorSecondary;
    PlotStyle(dpi, primary, secondary, DefaultStyle.fontSize, DefaultStyle.titleFontSize)
  }

  /** The configuration `create_chart_from_env` builds. An unknown `CHART_TYPE` becomes
      the hour chart; the title and file name keep whatever the environment says, empty
      included, and go through the chart configuration's checks. */
  function EnvConfig(env: map<string, string>): (r: Result<ChartConfig, seq<FieldError>>)
    ensures r.Success? ==> (r.value.title == EnvOr(env, "CHART_TITLE", "Git Commit Analysis")
                            && r.value.outputFilename == EnvOr(env, "OUTPUT_FILENAME", "commit_chart"))
    ensures r.Success? ==> (r.value.style == EnvStyle(env)
                            && r.value.repositoryName
                               == if "REPOSITORY_NAME" in env then Some(env["REPOSITORY_NAME"]) else None)
  {
    var typeName := EnvOr(env, "CHART_TYPE", "hour_bar");
    var t := ChartTypeFromValue(typeName).GetOr(HourBar);
    var title := EnvOr(env, "CHART_TITLE", "Git Commit Analysis");
    var filename := EnvOr(env, "OUTPUT_FILENAME", "commit_chart");
    var repo := if "REPOSITORY_NAME" in env then Some(env["REPOSITORY_NAME"]) else None;
    MakeChartConfig(title, filename, t, repo, EnvStyle(env))
  }

  datatype EnvError =
    /** The pydantic `ValidationError` of the configuration built from the environment. */
    | InvalidConfig(errors: seq<FieldError>)
    | ChartFailed(chartError: ChartError)

  /** `create_chart_from_env`: the configuration's validation errors, or the chart it
      dispatches to, written under the file name the environment gives. */
  function ChartFromEnv(env: map<string, string>, files: DataFiles): (r: Result<Chart, EnvError>)
    ensures (r.Failure? && r.error.InvalidConfig?) <==> EnvConfig(env).Failure?
    ensures r.Success? ==> r.value.outputPath == OutputPath(EnvOr(env, "OUTPUT_FILENAME", "commit_chart"))
  {
    match EnvConfig(env)
    case Failure(errs) => Failure(InvalidConfig(errs))
    case Success(config) =>
      match CreateChart(config, files, AsWritten)
      case Failure(e) => Failure(ChartFailed(e))
      case Success(chart) => Success(chart)
  }

  /** The chart type is the one `CHART_TYPE` names, and the hour chart when it names none
      or is unset. */
  lemma EnvChartType(env: map<string, string>)
    requires EnvConfig(env).Success?
    ensures var t := EnvConfig(env).value.chartType;
      if "CHART_TYPE" in env && ChartTypeFromValue(env["CHART_TYPE"]).Some?
      then ChartTypeValue(t) == env["CHART_TYPE"]
      else t == HourBar
  {
  }

  /** `DPI` is used when it reads as an integer, whatever its value, and ignored otherwise;
      the font sizes always keep their defaults. */
  lemma EnvDpi(env: map<string, string>)
    ensures EnvSet(env, "DPI") && ParseInt(env["DPI"]).Some?
      ==> EnvStyle(env).dpi == ParseInt(env["DPI"]).value
    ensures !(EnvSet(env, "DPI") && ParseInt(env["DPI"]).Some?) ==> EnvStyle(env).dpi == 300
  {
  }

  /** An empty environment gives the default hour chart named `commit_chart`. */
  lemma EmptyEnvDefaults()
    ensures EnvConfig(map[]) == Success(ChartConfig("Git Commit Analysis", "commit_chart", HourBar,
                                                    None, DefaultStyle))
  {
    DefaultFilenameFree();
  }

  lemma DefaultFilenameFree()
    ensures !HasReserved("commit_chart")
  {
  }

  /** The environment's configuration is refused exactly when the title or the file name
      is: set but empty, or a file name holding a reserved character. */
  lemma EnvConfigFailsIff(env: map<string, string>)
    ensures EnvConfig(env).Failure? <==>
      ("CHART_TITLE" in env && env["CHART_TITLE"] == [])
      || ("OUTPUT_FILENAME" in env && (env["OUTPUT_FILENAME"] == [] || HasReserved(env["OUTPUT_FILENAME"])))
  {
    DefaultFilenameFree();
  }
}

=== FILE: commit_data.dfy ===
/** The commit-count data files: `period count` lines parsed into typed records,
    with the period kind taken from the file's path. */
module CommitData {
  import opened Wrappers
  import opened Text

  datatype PeriodKind = Hour | Day | Month

  /** The enum's string value, stored in the `period_type` column. */
  function KindValue(k: PeriodKind): string {
    match k
    case Hour => "hour"
    case Day => "day"
    case Month => "month"
  }

  /** One aggregated count. The period is NOT range-checked on construction (see
      `PeriodInRange`), so any integer can appear here; the count is never negative. */
  datatype CommitCount = CommitCount(period: int, count: int, kind: PeriodKind)

  /** The range the period validator would enforce for each kind. The validator reads
      `period_type` before that field has been validated, finds nothing and accepts
      every period, so no operation of the model enforces this predicate. */
  predicate PeriodInRange(kind: PeriodKind, p: int) {
    match kind
    case Hour => 0 <= p <= 23
    case Day => 0 <= p <= 6
    case Month => 1 <= p <= 12
  }

  /** The kind named by the path: `hour`, then `day`, then `month`, case-sensitively,
      anywhere in the whole path string. */
  /** The word of each kind the path is searched for. */
  function KindWord(k: PeriodKind): string {
    match k
    case Hour => "hour"
    case Day => "day"
    case Month => "month"
  }

  /** The inferred kind's word occurs in the path; there is no kind exactly when none of
      the three words occurs; `hour` takes precedence over `day` and `month`, and `day`
      over `month`. */
  function InferKind(path: string): (r: Option<PeriodKind>)
    ensures r.Some? ==> Contains(path, KindWord(r.value))
    ensures r.None? <==> !Contains(path, KindWord(Hour)) && !Contains(path, KindWord(Day))
                         && !Contains(path, KindWord(Month))
    ensures r == Some(Day) ==> !Contains(path, KindWord(Hour))
    ensures r == Some(Month) ==> !Contains(path, KindWord(Hour)) && !Contains(path, KindWord(Day))
  {
    if Contains(path, "hour") then Some(Hour)
    else if Contains(path, "day") then Some(Day)
    else if Contains(path, "month") then Some(Month)
    else None
  }

  /** Why one line was refused. */
  datatype LineError =
    | WrongTokenCount(found: nat)
    | NotAnInteger(token: string)
    | KindUndeterminable
    | NegativeCount(count: int)

  /** `Error parsing line N: ...`, with N counted from 1 over every line, blank or not. */
  datatype ParseError = ParseError(line: nat, cause: LineError)

  datatype LoadError =
    | FileNotFound(path: string)
    | Malformed(error: ParseError)

  datatype LineOutcome = Blank | Parsed(rec: CommitCount) | Rejected(cause: LineError)

  /** One line of a data file. The source strips the line, skips it when nothing is left
      and splits the rest on whitespace; splitting ignores the edges anyway
      (`Text.WordsOfStrip`), so the model splits the raw line. The checks run in the
      source's order: token count, both integers, then the kind, then the count's
      lower bound. */
  function ParseLine(line: string, kind: Option<PeriodKind>): (o: LineOutcome)
    ensures o.Blank? <==> IsBlank(line)
    ensures o.Parsed? ==> o.rec.count >= 0 && kind == Some(o.rec.kind)
    ensures kind.None? ==> !o.Parsed?
  {
    WordsEmptyIffBlank(line);
    var parts := Words(line);
    if parts == [] then Blank
    else if |parts| != 2 then Rejected(WrongTokenCount(|parts|))
    else
      match (ParseInt(parts[0]), ParseInt(parts[1]))
      case (None, _) => Rejected(NotAnInteger(parts[0]))
      case (Some(_), None) => Rejected(NotAnInteger(parts[1]))
      case (Some(p), Some(c)) =>
        if kind.None? then Rejected(KindUndeterminable)
        else if c < 0 then Rejected(NegativeCount(c))
        else Parsed(CommitCount(p, c, kind.value))
  }

  /** The outcome of every line of a file, in file order. */
  function Outcomes(lines: seq<string>, kind: Option<PeriodKind>): (os: seq<LineOutcome>)
    ensures |os| == |lines|
    ensures forall i :: 0 <= i < |os| && os[i].Parsed? ==>
      os[i].rec.count >= 0 && kind == Some(os[i].rec.kind)
    decreases |lines|
  {
    if lines == [] then [] else [ParseLine(lines[0], kind)] + Outcomes(lines[1..], kind)
  }

  lemma {:induction false} OutcomeAt(lines: seq<string>, kind: Option<PeriodKind>, i: nat)
    requires i < |lines|
    ensures Outcomes(lines, kind)[i] == ParseLine(lines[i], kind)
    decreases i
  {
    if i > 0 {
      OutcomeAt(lines[1..], kind, i - 1);
    }
  }

  lemma OutcomesCons(line: string, lines: seq<string>, kind: Option<PeriodKind>)
    ensures Outcomes([line] + lines, kind) == [ParseLine(line, kind)] + Outcomes(lines, kind)
  {
    assert ([line] + lines)[1..] == lines;
  }

  /** Every outcome of a line in the terms the source uses: `line.strip().split()`, then
      `int` of each token. The first check that fails names the cause: no word at all,
      a token count other than two, the first token, the second token, an unknown kind,
      a negative count; a line passing all of them is the record of its two integers. */
  lemma ParseLineChecks(line: string, kind: Option<PeriodKind>)
    ensures Words(Strip(line)) == [] ==> ParseLine(line, kind) == Blank
    ensures Words(Strip(line)) != [] && |Words(Strip(line))| != 2
      ==> ParseLine(line, kind) == Rejected(WrongTokenCount(|Words(Strip(line))|))
    ensures |Words(Strip(line))| == 2 && ParseInt(Words(Strip(line))[0]).None?
      ==> ParseLine(line, kind) == Rejected(NotAnInteger(Words(Strip(line))[0]))
    ensures |Words(Strip(line))| == 2 && ParseInt(Words(Strip(line))[0]).Some?
      && ParseInt(Words(Strip(line))[1]).None?
      ==> ParseLine(line, kind) == Rejected(NotAnInteger(Words(Strip(line))[1]))
    ensures |Words(Strip(line))| == 2 && ParseInt(Words(Strip(line))[0]).Some?
      && ParseInt(Words(Strip(line))[1]).Some? && kind.None?
      ==> ParseLine(line, kind) == Rejected(KindUndeterminable)
    ensures |Words(Strip(line))| == 2 && ParseInt(Words(Strip(line))[0]).Some?
      && ParseInt(Words(Strip(line))[1]).Some? && kind.Some? && ParseInt(Words(Strip(line))[1]).value < 0
      ==> ParseLine(line, kind) == Rejected(NegativeCount(ParseInt(Words(Strip(line))[1]).value))
    ensures |Words(Strip(line))| == 2 && ParseInt(Words(Strip(line))[0]).Some?
      && ParseInt(Words(Strip(line))[1]).Some? && kind.Some? && ParseInt(Words(Strip(line))[1]).value >= 0
      ==> ParseLine(line, kind)
          == Parsed(CommitCount(ParseInt(Words(Strip(line))[0]).value, ParseInt(Words(Strip(line))[1]).value, kind.value))
  {
    WordsOfStrip(line);
  }

  /** `int()` is lenient, and so is the loader: a `+` before the period and an underscore
      between the count's digits still make an ordinary record. */
  lemma LenientTokensParse(p: string, c1: string, c2: string, kind: PeriodKind)
    requires p != [] && AllDigits(p) && c1 != [] && AllDigits(c1) && c2 != [] && AllDigits(c2)
    ensures AllDigits(c1 + c2)
    ensures |p| <= MaxStrDigits && |c1 + c2| <= MaxStrDigits ==>
      ParseLine("+" + p + " " + (c1 + "_" + c2), Some(kind))
        == Parsed(CommitCount(DigitsValue(p), DigitsValue(c1 + c2), kind))
  {
    var period, count := "+" + p, c1 + "_" + c2;
    assert NoSpace(period) by {
      forall i | 0 <= i < |period| ensures !IsSpace(period[i]) {
        if i > 0 {
          assert period[i] == p[i - 1];
        }
      }
    }
    assert NoSpace(count) by {
      forall i | 0 <= i < |count| ensures !IsSpace(count[i]) {
        if i < |c1| {
          assert count[i] == c1[i];
        } else if i > |c1| {
          assert count[i] == c2[i - |c1| - 1];
        }
      }
    }
    WordsOfPair(period, count);
    SignedPeriod(p);
    GroupedCount(c1, c2);
  }

  lemma SignedPeriod(p: string)
    requires p != [] && AllDigits(p)
    ensures ParseInt("+" + p) == if |p| > MaxStrDigits then None else Some(DigitsValue(p))
  {
    SignedDecimal(Plus, p);
    assert SignText(Plus) + p == "+" + p;
  }

  lemma GroupedCount(c1: string, c2: string)
    requires c1 != [] && AllDigits(c1) && c2 != [] && AllDigits(c2)
    ensures AllDigits(c1 + c2)
    ensures ParseInt(c1 + "_" + c2)
      == if |c1 + c2| > MaxStrDigits then None else Some(DigitsValue(c1 + c2))
  {
    var g := c1 + "_" + c2;
    UnderscoreRead(c1, c2, Decimal);
    JoinedDigitsCount(c1, c2);
    PyIntAccepts([], NoSign, NoPrefix, g, [], Decimal);
    assert [] + SignText(NoSign) + PrefixText(NoPrefix) + g + [] == g;
  }

  /** All-or-nothing collection of line outcomes, the first of which is line `first`:
      the first refused line aborts the whole parse. */
  function Collect(outs: seq<LineOutcome>, first: nat): (r: Result<seq<CommitCount>, ParseError>)
    ensures r.Success? ==> |r.value| <= |outs|
    ensures r.Success? ==> forall i :: 0 <= i < |r.value| ==> Parsed(r.value[i]) in outs
    ensures r.Failure? ==> first <= r.error.line < first + |outs|
    decreases |outs|
  {
    if outs == [] then Success([])
    else
      match outs[0]
      case Blank => Collect(outs[1..], first + 1)
      case Rejected(cause) => Failure(ParseError(first, cause))
      case Parsed(rec) =>
        match Collect(outs[1..], first + 1)
        case Success(recs) => Success([rec] + recs)
        case Failure(e) => Failure(e)
  }

  /** The records of a file's text for a known (or unknown) kind. */
  function ParseCommitCounts(kind: Option<PeriodKind>, content: string)
    : (r: Result<seq<CommitCount>, ParseError>)
    ensures r.Success? ==> forall i :: 0 <= i < |r.value| ==>
      r.value[i].count >= 0 && kind == Some(r.value[i].kind)
    ensures r.Failure? ==> 1 <= r.error.line <= |Lines(content)|
  {
    var outs := Outcomes(Lines(content), kind);
    var r := Collect(outs, 1);
    assert r.Success? ==> forall i :: 0 <= i < |r.value| ==> Parsed(r.value[i]) in outs;
    r
  }

  /** `validate_commit_data_file`: a missing file (`None`) is reported by path; otherwise
      the kind comes from the path and the text is parsed. */
  function ValidateCommitDataFile(path: string, content: Option<string>)
    : (r: Result<seq<CommitCount>, LoadError>)
    ensures content.None? ==> r == Failure(FileNotFound(path))
    ensures r.Success? ==> forall i :: 0 <= i < |r.value| ==>
      r.value[i].count >= 0 && InferKind(path) == Some(r.value[i].kind)
  {
    match content
    case None => Failure(FileNotFound(path))
    case Some(text) =>
      match ParseCommitCounts(InferKind(path), text)
      case Success(recs) => Success(recs)
      case Failure(e) => Failure(Malformed(e))
  }

  // ---------------------------------------------------------------------------
  // Reference definitions

  /** The records carried by the outcomes, in order. */
  function RecordsOf(outs: seq<LineOutcome>): (rs: seq<CommitCount>)
    ensures |rs| <= |outs|
    decreases |outs|
  {
    if outs == [] then []
    else (if outs[0].Parsed? then [outs[0].rec] else []) + RecordsOf(outs[1..])
  }

  predicate NoRejected(outs: seq<LineOutcome>) {
    forall i :: 0 <= i < |outs| ==> !outs[i].Rejected?
  }

  predicate AllBlank(outs: seq<LineOutcome>) {
    forall i :: 0 <= i < |outs| ==> outs[i].Blank?
  }

  /** The text a list of records is written as: one `period count` line per record. */
  function FormatLine(r: CommitCount): string {
    IntToString(r.period) + " " + IntToString(r.count)
  }

  /** A record `str()` can write: neither number has more than `MaxStrDigits` digits. */
  predicate Writable(r: CommitCount) {
    StrDigitsFit(r.period) && StrDigitsFit(r.count)
  }

  function Format(recs: seq<CommitCount>): string
    decreases |recs|
  {
    if recs == [] then "" else FormatLine(recs[0]) + "\n" + Format(recs[1..])
  }

  // ---------------------------------------------------------------------------
  // Properties of the all-or-nothing collection

  lemma {:induction false} CollectSucceedsIffNoRejected(outs: seq<LineOutcome>, first: nat)
    ensures Collect(outs, first).Success? <==> NoRejected(outs)
    ensures Collect(outs, first).Success? ==> Collect(outs, first).value == RecordsOf(outs)
    decreases |outs|
  {
    if outs != [] {
      CollectSucceedsIffNoRejected(outs[1..], first + 1);
      if NoRejected(outs[1..]) && !outs[0].Rejected? {
        forall i | 0 <= i < |outs| ensures !outs[i].Rejected? {
          if i > 0 {
            assert outs[i] == outs[1..][i - 1];
          }
        }
      }
      if !NoRejected(outs[1..]) {
        var j :| 0 <= j < |outs[1..]| && outs[1..][j].Rejected?;
        assert outs[j + 1] == outs[1..][j];
      }
    }
  }

  lemma {:induction false} CollectFailsAtFirstRejected(outs: seq<LineOutcome>, first: nat)
    requires Collect(outs, first).Failure?
    ensures var e := Collect(outs, first).error;
      var i := e.line - first;
      0 <= i < |outs|
      && outs[i] == Rejected(e.cause)
      && forall j :: 0 <= j < i ==> !outs[j].Rejected?
    decreases |outs|
  {
    if !outs[0].Rejected? {
      CollectFailsAtFirstRejected(outs[1..], first + 1);
      var e := Collect(outs, first).error;
      assert e == Collect(outs[1..], first + 1).error;
      var i := e.line - first;
      assert outs[i] == outs[1..][i - 1];
      forall j | 0 <= j < i ensures !outs[j].Rejected? {
        if j > 0 {
          assert outs[j] == outs[1..][j - 1];
        }
      }
    }
  }

  lemma {:induction false} CollectShift(outs: seq<LineOutcome>, first: nat)
    ensures var a := Collect(outs, first);
      var b := Collect(outs, first + 1);
      (a.Success? <==> b.Success?)
      && (a.Success? ==> b.value == a.value)
      && (a.Failure? ==> b.error == ParseError(a.error.line + 1, a.error.cause))
    decreases |outs|
  {
    if outs != [] {
      CollectShift(outs[1..], first + 1);
    }
  }

  lemma {:induction false} CollectWithoutRecords(outs: seq<LineOutcome>, first: nat)
    requires forall i :: 0 <= i < |outs| ==> !outs[i].Parsed?
    ensures Collect(outs, first).Success? <==> AllBlank(outs)
    ensures Collect(outs, first).Success? ==> Collect(outs, first).value == []
    decreases |outs|
  {
    if outs != [] {
      CollectWithoutRecords(outs[1..], first + 1);
      if AllBlank(outs[1..]) {
        if outs[0].Blank? {
          forall i | 0 <= i < |outs| ensures outs[i].Blank? {
            if i > 0 {
              assert outs[i] == outs[1..][i - 1];
            }
          }
        }
      } else {
        var j :| 0 <= j < |outs[1..]| && !outs[1..][j].Blank?;
        assert outs[j + 1] == outs[1..][j];
      }
    }
  }


  // ---------------------------------------------------------------------------
  // Properties of the parser

  /** No line of the file is refused. */
  predicate NoRejectedLine(lines: seq<string>, kind: Option<PeriodKind>) {
    forall i :: 0 <= i < |lines| ==> !ParseLine(lines[i], kind).Rejected?
  }

  lemma OutcomesNoRejected(lines: seq<string>, kind: Option<PeriodKind>)
    ensures NoRejected(Outcomes(lines, kind)) <==> NoRejectedLine(lines, kind)
  {
    forall i | 0 <= i < |lines| ensures Outcomes(lines, kind)[i] == ParseLine(lines[i], kind) {
      OutcomeAt(lines, kind, i);
    }
  }

  /** The parse succeeds exactly when no line is refused, and then it returns the
      records of the well-formed lines in file order. */
  lemma ParseSucceedsIffNoRejectedLine(kind: Option<PeriodKind>, content: string)
    ensures ParseCommitCounts(kind, content).Success? <==> NoRejectedLine(Lines(content), kind)
    ensures ParseCommitCounts(kind, content).Success? ==>
      ParseCommitCounts(kind, content).value == RecordsOf(Outcomes(Lines(content), kind))
  {
    CollectSucceedsIffNoRejected(Outcomes(Lines(content), kind), 1);
    OutcomesNoRejected(Lines(content), kind);
  }

  /** A failed parse names, counting from 1, the first refused line and its cause; every
      line before it was blank or well-formed. No partial list is returned. */
  lemma ParseFailsAtFirstRejectedLine(kind: Option<PeriodKind>, content: string)
    requires ParseCommitCounts(kind, content).Failure?
    ensures 1 <= ParseCommitCounts(kind, content).error.line <= |Lines(content)|
    ensures var e := ParseCommitCounts(kind, content).error;
      ParseLine(Lines(content)[e.line - 1], kind) == Rejected(e.cause)
    ensures var e := ParseCommitCounts(kind, content).error;
      NoRejectedLine(Lines(content)[..e.line - 1], kind)
  {
    var lines := Lines(content);
    var outs := Outcomes(lines, kind);
    CollectFailsAtFirstRejected(outs, 1);
    var e := ParseCommitCounts(kind, content).error;
    OutcomeAt(lines, kind, e.line - 1);
    var pre := lines[..e.line - 1];
    forall j | 0 <= j < |pre| ensures !ParseLine(pre[j], kind).Rejected? {
      OutcomeAt(lines, kind, j);
    }
  }

  /** Blank lines produce nothing but still count toward line numbers: a blank line put in
      front of the text keeps the records and moves a reported error down by one. */
  lemma BlankLineShiftsLineNumbers(kind: Option<PeriodKind>, blank: string, content: string)
    requires IsBlank(blank) && '\n' !in blank
    ensures var before := ParseCommitCounts(kind, content);
      var after := ParseCommitCounts(kind, blank + "\n" + content);
      (before.Success? <==> after.Success?)
      && (before.Success? ==> after.value == before.value)
      && (before.Failure? ==> after.error == ParseError(before.error.line + 1, before.error.cause))
  {
    LinesCons(blank, content);
    var lines := [blank] + Lines(content);
    assert lines[1..] == Lines(content);
    assert Outcomes(lines, kind) == [Blank] + Outcomes(Lines(content), kind);
    CollectShift(Outcomes(Lines(content), kind), 1);
  }

  /** Every line of the file is blank. */
  predicate AllBlankLines(lines: seq<string>) {
    forall i :: 0 <= i < |lines| ==> IsBlank(lines[i])
  }

  lemma OutcomesWithoutKind(lines: seq<string>)
    ensures var outs := Outcomes(lines, None);
      (forall i :: 0 <= i < |outs| ==> !outs[i].Parsed?)
      && (AllBlank(outs) <==> AllBlankLines(lines))
  {
    var outs := Outcomes(lines, None);
    forall i | 0 <= i < |outs| ensures !outs[i].Parsed? && (outs[i].Blank? <==> IsBlank(lines[i])) {
      OutcomeAt(lines, None, i);
    }
  }

  lemma OutcomesAllBlank(lines: seq<string>, kind: Option<PeriodKind>)
    requires AllBlankLines(lines)
    ensures forall i :: 0 <= i < |Outcomes(lines, kind)| ==> Outcomes(lines, kind)[i] == Blank
  {
    var outs := Outcomes(lines, kind);
    forall i | 0 <= i < |outs| ensures outs[i] == Blank {
      OutcomeAt(lines, kind, i);
    }
  }

  /** A file with no non-blank line yields no records and no error, whatever its name. */
  lemma AllBlankFileIsEmpty(path: string, content: string)
    requires AllBlankLines(Lines(content))
    ensures ValidateCommitDataFile(path, Some(content)) == Success([])
  {
    var outs := Outcomes(Lines(content), InferKind(path));
    OutcomesAllBlank(Lines(content), InferKind(path));
    CollectWithoutRecords(outs, 1);
  }

  /** When the path names no kind, the parse succeeds only for a file with no non-blank
      line, and then with no records. */
  lemma NoKindOnlyBlankFiles(content: string)
    ensures ParseCommitCounts(None, content).Success? <==> AllBlankLines(Lines(content))
    ensures ParseCommitCounts(None, content).Success? ==> ParseCommitCounts(None, content).value == []
  {
    var outs := Outcomes(Lines(content), None);
    OutcomesWithoutKind(Lines(content));
    CollectWithoutRecords(outs, 1);
  }

  lemma NoNewlineInWord(w: string)
    requires NoSpace(w)
    ensures '\n' !in w
  {
    forall i | 0 <= i < |w| ensures w[i] != '\n' {
      assert !IsSpace(w[i]);
    }
  }

  /** A record's own line parses back to it. */
  lemma FormatLineParses(r: CommitCount, kind: PeriodKind)
    requires r.count >= 0 && r.kind == kind && Writable(r)
    ensures ParseLine(FormatLine(r), Some(kind)) == Parsed(r)
  {
    WordsOfPair(IntToString(r.period), IntToString(r.count));
    IntRoundTrip(r.period);
    IntRoundTrip(r.count);
  }


  /** The first record's line is the first line of the written text. */
  lemma FormatLines(recs: seq<CommitCount>)
    requires recs != []
    ensures Lines(Format(recs)) == [FormatLine(recs[0])] + Lines(Format(recs[1..]))
  {
    NoNewlineInWord(IntToString(recs[0].period));
    NoNewlineInWord(IntToString(recs[0].count));
    LinesCons(FormatLine(recs[0]), Format(recs[1..]));
  }

  /** A parsed first line puts its record in front of the rest's records. */
  lemma CollectParsedCons(line: string, lines: seq<string>, kind: Option<PeriodKind>,
                          rec: CommitCount, rest: seq<CommitCount>, first: nat)
    requires ParseLine(line, kind) == Parsed(rec)
    requires Collect(Outcomes(lines, kind), first + 1) == Success(rest)
    ensures Collect(Outcomes([line] + lines, kind), first) == Success([rec] + rest)
  {
    OutcomesCons(line, lines, kind);
    var outs := Outcomes([line] + lines, kind);
    assert outs[1..] == Outcomes(lines, kind);
  }

  lemma {:induction false} CollectFormatted(kind: PeriodKind, recs: seq<CommitCount>, first: nat)
    requires forall i :: 0 <= i < |recs| ==> recs[i].count >= 0 && recs[i].kind == kind && Writable(recs[i])
    ensures Collect(Outcomes(Lines(Format(recs)), Some(kind)), first) == Success(recs)
    decreases |recs|
  {
    if recs == [] {
      assert Lines("") == [""];
    } else {
      FormatLines(recs);
      FormatLineParses(recs[0], kind);
      CollectFormatted(kind, recs[1..], first + 1);
      CollectParsedCons(FormatLine(recs[0]), Lines(Format(recs[1..])), Some(kind),
                        recs[0], recs[1..], first);
      assert [recs[0]] + recs[1..] == recs;
    }
  }

  lemma ParseFormatted(kind: PeriodKind, recs: seq<CommitCount>)
    requires forall i :: 0 <= i < |recs| ==> recs[i].count >= 0 && recs[i].kind == kind && Writable(recs[i])
    ensures ParseCommitCounts(Some(kind), Format(recs)) == Success(recs)
  {
    CollectFormatted(kind, recs, 1);
  }

  /** Writing records as `period count` lines and parsing the text back under a path that
      names their kind gives the same records, in the same order. */
  lemma FormatParseRoundTrip(path: string, recs: seq<CommitCount>)
    requires InferKind(path).Some?
    requires forall i :: 0 <= i < |recs| ==> recs[i].count >= 0 && recs[i].kind == InferKind(path).value
    requires forall i :: 0 <= i < |recs| ==> Writable(recs[i])
    ensures ValidateCommitDataFile(path, Some(Format(recs))) == Success(recs)
  {
    ParseFormatted(InferKind(path).value, recs);
  }

  // ---------------------------------------------------------------------------
  // Worked cases

  /** A character the text lacks rules out every occurrence of a pattern holding it. */
  lemma NotOccursAt(s: string, pat: string, c: char, i: int)
    requires c in pat && c !in s
    ensures !OccursAt(s, pat, i)
  {
    if 0 <= i && i + |pat| <= |s| {
      var k :| 0 <= k < |pat| && pat[k] == c;
      assert s[i..i + |pat|][k] == s[i + k];
    }
  }

  /** A pattern with a character the text lacks does not occur in it. */
  lemma AbsentChar(s: string, pat: string, c: char)
    requires c in pat && c !in s
    ensures !Contains(s, pat)
  {
    NotOccursAt(s, pat, c, Find(s, pat, 0));
  }

  /** The kind priority: a path naming both months and hours is an hour file. */
  lemma HourBeforeMonth()
    ensures InferKind("monthly_hours.txt") == Some(Hour)
  {
    assert OccursAt("monthly_hours.txt", "hour", 8);
  }

  /** The match is case-sensitive: upper-case names are no kind at all. */
  lemma KindIsCaseSensitive()
    ensures InferKind("HOURLY_DAY.txt") == None
  {
    UpperHasNoKindWord(Hour);
    UpperHasNoKindWord(Day);
    UpperHasNoKindWord(Month);
  }

  lemma UpperHasNoKindWord(k: PeriodKind)
    ensures !Contains("HOURLY_DAY.txt", KindWord(k))
  {
    NoKindWord("HOURLY_DAY.txt", k);
  }

  /** A text with neither an `h` nor a `y` names no kind: every kind word holds one. */
  lemma NoKindWord(s: string, k: PeriodKind)
    requires 'h' !in s && 'y' !in s
    ensures !Contains(s, KindWord(k))
  {
    match k
    case Hour => AbsentChar(s, "hour", 'h');
    case Day => AbsentChar(s, "day", 'y');
    case Month => AbsentChar(s, "month", 'h');
  }

  /** A line of four words is refused for its token count, whatever the kind. */
  lemma FourWordsRejected(w1: string, w2: string, w3: string, w4: string, kind: Option<PeriodKind>)
    requires w1 != [] && NoSpace(w1) && w2 != [] && NoSpace(w2)
    requires w3 != [] && NoSpace(w3) && w4 != [] && NoSpace(w4)
    ensures ParseLine(w1 + " " + (w2 + " " + (w3 + " " + w4)), kind) == Rejected(WrongTokenCount(4))
  {
    WordsOfPair(w3, w4);
    WordsConsSpace(w2, w3 + " " + w4);
    WordsConsSpace(w1, w2 + " " + (w3 + " " + w4));
  }

  /** A refused second line aborts the parse after a well-formed first one. */
  lemma CollectParsedThenRejected(rec: CommitCount, cause: LineError, rest: seq<LineOutcome>, first: nat)
    ensures Collect([Parsed(rec)] + ([Rejected(cause)] + rest), first) == Failure(ParseError(first + 1, cause))
  {
    var outs := [Parsed(rec)] + ([Rejected(cause)] + rest);
    assert outs[1..] == [Rejected(cause)] + rest;
  }

  /** A file whose second line has four words fails naming line 2, with no partial list,
      although its first line is well-formed and whatever follows. */
  lemma MalformedSecondLine(x: CommitCount, w1: string, w2: string, w3: string, w4: string, rest: string)
    requires x.count >= 0 && Writable(x)
    requires w1 != [] && NoSpace(w1) && w2 != [] && NoSpace(w2)
    requires w3 != [] && NoSpace(w3) && w4 != [] && NoSpace(w4)
    ensures var bad := w1 + " " + (w2 + " " + (w3 + " " + w4));
      ParseCommitCounts(Some(x.kind), FormatLine(x) + "\n" + (bad + "\n" + rest))
        == Failure(ParseError(2, WrongTokenCount(4)))
  {
    var bad := w1 + " " + (w2 + " " + (w3 + " " + w4));
    var k := Some(x.kind);
    assert '\n' !in bad by {
      NoNewlineInWord(w1);
      NoNewlineInWord(w2);
      NoNewlineInWord(w3);
      NoNewlineInWord(w4);
    }
    assert '\n' !in FormatLine(x) by {
      NoNewlineInWord(IntToString(x.period));
      NoNewlineInWord(IntToString(x.count));
    }
    LinesCons(bad, rest);
    LinesCons(FormatLine(x), bad + "\n" + rest);
    OutcomesCons(FormatLine(x), [bad] + Lines(rest), k);
    OutcomesCons(bad, Lines(rest), k);
    FormatLineParses(x, x.kind);
    FourWordsRejected(w1, w2, w3, w4, k);
    CollectParsedThenRejected(x, WrongTokenCount(4), Outcomes(Lines(rest), k), 1);
  }

  /** The range rule is not enforced: a record with any period, hour 24 included,
      comes back from its own line. */
  lemma RangeNotEnforced(p: int, c: nat, kind: PeriodKind)
    requires Writable(CommitCount(p, c, kind))
    ensures !PeriodInRange(Hour, 24)
    ensures ParseCommitCounts(Some(kind), Format([CommitCount(p, c, kind)]))
      == Success([CommitCount(p, c, kind)])
  {
    ParseFormatted(kind, [CommitCount(p, c, kind)]);
  }

  // ---------------------------------------------------------------------------
  // The data paths of the plotting script and of the database import

  /** `load_commit_data`'s file for each kind. */
  function PlotDataPath(k: PeriodKind): string {
    match k
    case Hour => "./Generated Data/commit_counts.txt"
    case Day => "./Generated Data/commit_counts_day.txt"
    case Month => "./Generated Data/commit_counts_month.txt"
  }

  /** `import_commit_data_from_files`'s file for each kind. */
  function ImportDataPath(k: PeriodKind): string {
    match k
    case Hour => "./commit_counts.txt"
    case Day => "./commit_counts_day.txt"
    case Month => "./commit_counts_month.txt"
  }

  /** Loading a kind's file with the kind the caller already knows, which is what the
      per-kind file tables evidently intend. */
  function LoadCommitData(path: string, kind: PeriodKind, content: Option<string>)
    : (r: Result<seq<CommitCount>, LoadError>)
    ensures content.None? ==> r == Failure(FileNotFound(path))
    ensures r.Success? ==> forall i :: 0 <= i < |r.value| ==>
      r.value[i].count >= 0 && r.value[i].kind == kind
  {
    match content
    case None => Failure(FileNotFound(path))
    case Some(text) =>
      match ParseCommitCounts(Some(kind), text)
      case Success(recs) => Success(recs)
      case Failure(e) => Failure(Malformed(e))
  }

  lemma NotOccursAtPair(s: string, pat: string, i: int)
    requires |pat| >= 2
    requires forall j :: 0 <= j < |s| - 1 && s[j] == pat[0] ==> s[j + 1] != pat[1]
    ensures !OccursAt(s, pat, i)
  {
    if 0 <= i && i + |pat| <= |s| {
      assert s[i..i + |pat|][0] == s[i] && s[i..i + |pat|][1] == s[i + 1];
    }
  }

  /** A pattern whose first two characters never stand side by side in the text does
      not occur in it. */
  lemma AbsentPair(s: string, pat: string)
    requires |pat| >= 2
    requires forall j :: 0 <= j < |s| - 1 && s[j] == pat[0] ==> s[j + 1] != pat[1]
    ensures !Contains(s, pat)
  {
    NotOccursAtPair(s, pat, Find(s, pat, 0));
  }

  // One fact about one literal path per lemma keeps each proof small.

  lemma PlotHourLacksKindWord(k: PeriodKind)
    ensures !Contains(PlotDataPath(Hour), KindWord(k))
  {
    NoKindWord(PlotDataPath(Hour), k);
  }

  lemma PlotDayLacksHour()
    ensures !Contains(PlotDataPath(Day), "hour")
  {
    AbsentChar(PlotDataPath(Day), "hour", 'h');
  }

  lemma PlotDayHasDay()
    ensures Contains(PlotDataPath(Day), "day")
  {
    assert OccursAt(PlotDataPath(Day), "day", 31);
  }

  lemma PlotMonthLacksHour()
    ensures !Contains(PlotDataPath(Month), "hour")
  {
    AbsentPair(PlotDataPath(Month), "hour");
  }

  lemma PlotMonthLacksDay()
    ensures !Contains(PlotDataPath(Month), "day")
  {
    AbsentChar(PlotDataPath(Month), "day", 'y');
  }

  lemma PlotMonthHasMonth()
    ensures Contains(PlotDataPath(Month), "month")
  {
    assert OccursAt(PlotDataPath(Month), "month", 31);
  }

  lemma ImportHourLacksKindWord(k: PeriodKind)
    ensures !Contains(ImportDataPath(Hour), KindWord(k))
  {
    NoKindWord(ImportDataPath(Hour), k);
  }

  lemma ImportDayLacksHour()
    ensures !Contains(ImportDataPath(Day), "hour")
  {
    AbsentChar(ImportDataPath(Day), "hour", 'h');
  }

  lemma ImportDayHasDay()
    ensures Contains(ImportDataPath(Day), "day")
  {
    assert OccursAt(ImportDataPath(Day), "day", 16);
  }

  lemma ImportMonthLacksHour()
    ensures !Contains(ImportDataPath(Month), "hour")
  {
    AbsentPair(ImportDataPath(Month), "hour");
  }

  lemma ImportMonthLacksDay()
    ensures !Contains(ImportDataPath(Month), "day")
  {
    AbsentChar(ImportDataPath(Month), "day", 'y');
  }

  lemma ImportMonthHasMonth()
    ensures Contains(ImportDataPath(Month), "month")
  {
    assert OccursAt(ImportDataPath(Month), "month", 16);
  }

  /** Neither hour path names a kind. */
  lemma PlotHourPathNamesNoKind()
    ensures InferKind(PlotDataPath(Hour)) == None
  {
    PlotHourLacksKindWord(Hour);
    PlotHourLacksKindWord(Day);
    PlotHourLacksKindWord(Month);
  }

  lemma ImportHourPathNamesNoKind()
    ensures InferKind(ImportDataPath(Hour)) == None
  {
    ImportHourLacksKindWord(Hour);
    ImportHourLacksKindWord(Day);
    ImportHourLacksKindWord(Month);
  }

  /** The day and month paths name their own kinds. */
  lemma PlotDayPathNamesDay()
    ensures InferKind(PlotDataPath(Day)) == Some(Day)
  {
    PlotDayLacksHour();
    PlotDayHasDay();
  }

  lemma ImportDayPathNamesDay()
    ensures InferKind(ImportDataPath(Day)) == Some(Day)
  {
    ImportDayLacksHour();
    ImportDayHasDay();
  }

  lemma PlotMonthPathNamesMonth()
    ensures InferKind(PlotDataPath(Month)) == Some(Month)
  {
    PlotMonthLacksHour();
    PlotMonthLacksDay();
    PlotMonthHasMonth();
  }

  lemma ImportMonthPathNamesMonth()
    ensures InferKind(ImportDataPath(Month)) == Some(Month)
  {
    ImportMonthLacksHour();
    ImportMonthLacksDay();
    ImportMonthHasMonth();
  }

  /** As written, an hour file with any non-blank line is refused: the path names no
      kind, so every well-formed line fails the kind check. */
  lemma HourFileNeverLoads(path: string, content: string)
    requires path == PlotDataPath(Hour) || path == ImportDataPath(Hour)
    requires !AllBlankLines(Lines(content))
    ensures ValidateCommitDataFile(path, Some(content)).Failure?
  {
    PlotHourPathNamesNoKind();
    ImportHourPathNamesNoKind();
    NoKindOnlyBlankFiles(content);
  }

  /** The loader a consumer reads its data files with: the source's, or the corrected
      one of the hour-file finding. */
  datatype Loader = AsWritten | Corrected

  /** Either loader reports a missing file by its path and returns non-negative counts.
      The records carry the caller's kind when the loader is corrected or the path names
      that kind; through a path naming no kind the source's loader yields no record. */
  function LoadWith(loader: Loader, path: string, kind: PeriodKind, content: Option<string>)
    : (r: Result<seq<CommitCount>, LoadError>)
    ensures content.None? ==> r == Failure(FileNotFound(path))
    ensures r.Success? ==> forall i :: 0 <= i < |r.value| ==> r.value[i].count >= 0
    ensures r.Success? && (loader == Corrected || InferKind(path) == Some(kind)) ==>
      forall i :: 0 <= i < |r.value| ==> r.value[i].kind == kind
    ensures r.Success? && loader == AsWritten && InferKind(path).None? ==> r.value == []
  {
    NoKindLoadsNothing(path, content);
    match loader
    case AsWritten => ValidateCommitDataFile(path, content)
    case Corrected => LoadCommitData(path, kind, content)
  }

  /** The kind each plotting path names: none for hours. */
  lemma PlotPathKind(k: PeriodKind)
    ensures InferKind(PlotDataPath(k)) == if k == Hour then None else Some(k)
  {
    match k
    case Hour => PlotHourPathNamesNoKind();
    case Day => PlotDayPathNamesDay();
    case Month => PlotMonthPathNamesMonth();
  }

  /** The kind each import path names: none for hours. */
  lemma ImportPathKind(k: PeriodKind)
    ensures InferKind(ImportDataPath(k)) == if k == Hour then None else Some(k)
  {
    match k
    case Hour => ImportHourPathNamesNoKind();
    case Day => ImportDayPathNamesDay();
    case Month => ImportMonthPathNamesMonth();
  }

  /** Through a path that names no kind the source's load yields no record at all: it
      succeeds, with an empty list, exactly when every line is blank. */
  lemma NoKindLoadsNothing(path: string, content: Option<string>)
    ensures InferKind(path).None? && ValidateCommitDataFile(path, content).Success? ==>
      ValidateCommitDataFile(path, content).value == []
    ensures InferKind(path).None? && content.Some? ==>
      (ValidateCommitDataFile(path, content).Success? <==> AllBlankLines(Lines(content.value)))
  {
    if InferKind(path).None? && content.Some? {
      NoKindOnlyBlankFiles(content.value);
    }
  }

  /** The corrected load accepts every well-formed hour file from the same path. */
  lemma HourFileLoadsWhenCorrected(path: string, recs: seq<CommitCount>)
    requires forall i :: 0 <= i < |recs| ==> recs[i].count >= 0 && recs[i].kind == Hour && Writable(recs[i])
    ensures LoadCommitData(path, Hour, Some(Format(recs))) == Success(recs)
  {
    ParseFormatted(Hour, recs);
    LoadParses(path, Hour, Format(recs), recs);
  }

  /** The corrected load returns whatever parsing the text under the caller's kind
      gives. */
  lemma LoadParses(path: string, kind: PeriodKind, text: string, recs: seq<CommitCount>)
    requires ParseCommitCounts(Some(kind), text) == Success(recs)
    ensures LoadCommitData(path, kind, Some(text)) == Success(recs)
  {
  }

  /** Wherever the path names the kind the caller means, the correction changes
      nothing. */
  lemma CorrectionAgrees(path: string, kind: PeriodKind, content: Option<string>)
    requires InferKind(path) == Some(kind)
    ensures ValidateCommitDataFile(path, content) == LoadCommitData(path, kind, content)
  {
  }

  /** So for days and months the correction changes nothing. */
  lemma CorrectionAgreesForDayAndMonth(kind: PeriodKind, content: Option<string>)
    requires kind != Hour
    ensures ValidateCommitDataFile(PlotDataPath(kind), content) == LoadCommitData(PlotDataPath(kind), kind, content)
    ensures ValidateCommitDataFile(ImportDataPath(kind), content) == LoadCommitData(ImportDataPath(kind), kind, content)
  {
    if kind == Day {
      PlotDayPathNamesDay();
      ImportDayPathNamesDay();
    } else {
      PlotMonthPathNamesMonth();
      ImportMonthPathNamesMonth();
    }
    CorrectionAgrees(PlotDataPath(kind), kind, content);
    CorrectionAgrees(ImportDataPath(kind), kind, content);
  }
}

=== FILE: contact_form.dfy ===
/** The landscaping site's contact form: the validator that lists what is wrong with a
    submitted form, and the sample submissions the data loader generates. */
module ContactForm {
  import opened Text

  datatype Field = Name | Email | Phone | Message

  /** A submitted form: the text under each of the four field names that is present.
      The validator reads no other key. */
  type Form = map<Field, string>

  function FieldName(f: Field): string {
    match f
    case Name => "name"
    case Email => "email"
    case Phone => "phone"
    case Message => "message"
  }

  /** One entry of the validator's result. */
  datatype FormError = Required(field: Field) | InvalidEmail | InvalidPhone

  /** The `field` and `message` of the entry as the validator writes them. */
  function ErrorField(e: FormError): string {
    FieldName(FieldOf(e))
  }

  function FieldOf(e: FormError): Field {
    match e
    case Required(f) => f
    case InvalidEmail => Email
    case InvalidPhone => Phone
  }

  function ErrorMessage(e: FormError): string {
    match e
    case Required(f) => Capitalize(FieldName(f)) + " is required"
    case InvalidEmail => "Invalid email format"
    case InvalidPhone => "Invalid phone number"
  }

  /** `str.capitalize()` on ASCII: the first letter upper-cased, the rest lower-cased. */
  function Capitalize(s: string): (r: string)
    ensures |r| == |s|
  {
    if s == [] then []
    else [if 'a' <= s[0] <= 'z' then (s[0] as int - 32) as char else s[0]] + Lower(s[1..])
  }

  /** `field in form_data and form_data[field]`: present and non-empty. */
  predicate Present(form: Form, f: Field) {
    f in form && form[f] != []
  }

  predicate IsSeparator(c: char) {
    c == '-' || c == ' ' || c == '(' || c == ')'
  }

  /** The phone number without its separators. */
  function CleanPhone(p: string): (r: string)
    ensures forall k :: 0 <= k < |r| ==> !IsSeparator(r[k])
    decreases |p|
  {
    if p == [] then []
    else (if IsSeparator(p[0]) then [] else [p[0]]) + CleanPhone(p[1..])
  }

  /** `cleaned.isdigit() and len(cleaned) >= 10` (an empty string is not all digits). */
  predicate PhoneOk(p: string) {
    var c := CleanPhone(p);
    c != [] && AllDigits(c) && |c| >= 10
  }

  function RequiredError(form: Form, f: Field): (errs: seq<FormError>)
    ensures errs == [] <==> Present(form, f)
  {
    if Present(form, f) then [] else [Required(f)]
  }

  /** The loop over `name`, `email`, `phone`, `message`: one "is required" error per
      absent or empty field, in that order. */
  function RequiredErrors(form: Form): (errs: seq<FormError>)
    ensures |errs| <= 4
  {
    RequiredError(form, Name) + RequiredError(form, Email) + RequiredError(form, Phone)
      + RequiredError(form, Message)
  }

  function EmailErrors(form: Form): seq<FormError> {
    if Present(form, Email) && !Contains(form[Email], "@") then [InvalidEmail] else []
  }

  function PhoneErrors(form: Form): seq<FormError> {
    if Present(form, Phone) && !PhoneOk(form[Phone]) then [InvalidPhone] else []
  }

  /** `validate_contact_form`: the required-field errors, then the e-mail check, then the
      phone check; the format checks look only at present, non-empty values. */
  function ValidateContactForm(form: Form): (errs: seq<FormError>)
    ensures |errs| <= 6
  {
    RequiredErrors(form) + EmailErrors(form) + PhoneErrors(form)
  }

  /** What an accepted form looks like: all four fields filled in, an `@` in the
      e-mail, and a phone number that passes. */
  predicate AcceptableForm(form: Form) {
    Present(form, Name) && Present(form, Email) && Present(form, Phone) && Present(form, Message)
    && Contains(form[Email], "@") && PhoneOk(form[Phone])
  }

  /** The position of an error in the validator's fixed order. */
  function Rank(e: FormError): nat {
    match e
    case Required(Name) => 0
    case Required(Email) => 1
    case Required(Phone) => 2
    case Required(Message) => 3
    case InvalidEmail => 4
    case InvalidPhone => 5
  }

  lemma NoErrorsIffAcceptable(form: Form)
    ensures ValidateContactForm(form) == [] <==> AcceptableForm(form)
  {
  }

  /** When the validator raises an error, stated error by error. */
  predicate Raised(form: Form, e: FormError) {
    match e
    case Required(f) => !Present(form, f)
    case InvalidEmail => Present(form, Email) && !Contains(form[Email], "@")
    case InvalidPhone => Present(form, Phone) && !PhoneOk(form[Phone])
  }

  /** An error is in the validator's list exactly when its condition holds. */
  lemma RaisedIff(form: Form, e: FormError)
    ensures e in ValidateContactForm(form) <==> Raised(form, e)
  {
    var req := RequiredErrors(form);
    assert ValidateContactForm(form) == req + EmailErrors(form) + PhoneErrors(form);
    InRequiredError(form, Name, e);
    InRequiredError(form, Email, e);
    InRequiredError(form, Phone, e);
    InRequiredError(form, Message, e);
    assert req == RequiredError(form, Name) + RequiredError(form, Email)
      + RequiredError(form, Phone) + RequiredError(form, Message);
    match e
    case Required(f) =>
      assert f == Name || f == Email || f == Phone || f == Message;
    case InvalidEmail =>
      assert e !in req && e !in PhoneErrors(form);
    case InvalidPhone =>
      assert e !in req && e !in EmailErrors(form);
  }

  lemma InRequiredError(form: Form, g: Field, e: FormError)
    ensures e in RequiredError(form, g) <==> e == Required(g) && !Present(form, g)
  {
  }

  /** A field is reported as required exactly when it is absent or empty, and such a field
      gets no format error. */
  lemma RequiredIffMissing(form: Form, f: Field)
    ensures Required(f) in ValidateContactForm(form) <==> !Present(form, f)
    ensures !Present(form, f) ==>
      forall e :: (e in ValidateContactForm(form) && FieldOf(e) == f) ==> e == Required(f)
  {
    RaisedIff(form, Required(f));
    forall e | e in ValidateContactForm(form) && FieldOf(e) == f && !Present(form, f)
      ensures e == Required(f)
    {
      RaisedIff(form, e);
    }
  }

  /** A filled-in e-mail without `@` yields exactly one format error, and it is the only
      error about the e-mail. */
  lemma EmailWithoutAt(form: Form)
    requires Present(form, Email) && !Contains(form[Email], "@")
    ensures InvalidEmail in ValidateContactForm(form)
    ensures forall e :: (e in ValidateContactForm(form) && FieldOf(e) == Email) ==> e == InvalidEmail
  {
  }

  /** The errors come in the validator's fixed order, each at most once. */
  lemma ErrorsInOrder(form: Form)
    ensures var errs := ValidateContactForm(form);
      forall j, j' :: 0 <= j < j' < |errs| ==> Rank(errs[j]) < Rank(errs[j'])
  {
    var r0, r1 := RequiredError(form, Name), RequiredError(form, Email);
    var r2, r3 := RequiredError(form, Phone), RequiredError(form, Message);
    var em, ph := EmailErrors(form), PhoneErrors(form);
    InOrderAppend(r0, r1, 1);
    InOrderAppend(r0 + r1, r2, 2);
    InOrderAppend(r0 + r1 + r2, r3, 3);
    InOrderAppend(r0 + r1 + r2 + r3, em, 4);
    InOrderAppend(r0 + r1 + r2 + r3 + em, ph, 5);
  }

  predicate InOrder(errs: seq<FormError>) {
    forall j, j' :: 0 <= j < j' < |errs| ==> Rank(errs[j]) < Rank(errs[j'])
  }

  /** Two runs in order, every rank of the first below `k` and every rank of the second
      at least `k`, are in order together. */
  lemma InOrderAppend(a: seq<FormError>, b: seq<FormError>, k: nat)
    requires InOrder(a) && InOrder(b)
    requires forall x :: x in a ==> Rank(x) < k
    requires forall y :: y in b ==> Rank(y) >= k
    ensures InOrder(a + b)
  {
    var s := a + b;
    forall j, j' | 0 <= j < j' < |s| ensures Rank(s[j]) < Rank(s[j']) {
      if j' < |a| {
        assert s[j] == a[j] && s[j'] == a[j'];
      } else if j >= |a| {
        assert s[j] == b[j - |a|] && s[j'] == b[j' - |a|];
      } else {
        assert s[j] == a[j] && s[j'] == b[j' - |a|];
        assert s[j] in a && s[j'] in b;
      }
    }
  }

  // ---------------------------------------------------------------------------
  // The phone separators

  /** The validator's chain of `replace` calls. */
  function ChainedReplace(p: string): string {
    RemoveChar(RemoveChar(RemoveChar(RemoveChar(p, '-'), ' '), '('), ')')
  }

  lemma ChainedReplaceAppend(s: string, t: string)
    ensures ChainedReplace(s + t) == ChainedReplace(s) + ChainedReplace(t)
  {
    RemoveCharAppend(s, t, '-');
    RemoveCharAppend(RemoveChar(s, '-'), RemoveChar(t, '-'), ' ');
    RemoveCharAppend(RemoveChar(RemoveChar(s, '-'), ' '), RemoveChar(RemoveChar(t, '-'), ' '), '(');
    RemoveCharAppend(RemoveChar(RemoveChar(RemoveChar(s, '-'), ' '), '('),
                     RemoveChar(RemoveChar(RemoveChar(t, '-'), ' '), '('), ')');
  }

  /** Removing the four separators one after another, as the validator does, leaves the
      same string as removing them in one pass. */
  lemma {:induction false} CleanPhoneIsChainedReplace(p: string)
    ensures CleanPhone(p) == ChainedReplace(p)
    decreases |p|
  {
    if p != [] {
      var h, t := [p[0]], p[1..];
      assert p == h + t;
      CleanPhoneIsChainedReplace(t);
      ChainedReplaceAppend(h, t);
      assert ChainedReplace(h) == (if IsSeparator(p[0]) then [] else h);
    }
  }

  lemma {:induction false} CleanPhoneAppend(s: string, t: string)
    ensures CleanPhone(s + t) == CleanPhone(s) + CleanPhone(t)
    decreases |s|
  {
    if s != [] {
      assert (s + t)[1..] == s[1..] + t;
      CleanPhoneAppend(s[1..], t);
    } else {
      assert s + t == t;
    }
  }

  lemma {:induction false} CleanPhoneOfDigits(s: string)
    requires AllDigits(s)
    ensures CleanPhone(s) == s
    decreases |s|
  {
    if s != [] {
      CleanPhoneOfDigits(s[1..]);
    }
  }

  // ---------------------------------------------------------------------------
  // Sample data

  datatype ContactType = GeneralInquiry | ServiceRequest | QuoteRequest | Feedback

  const ContactTypes: seq<ContactType> := [GeneralInquiry, ServiceRequest, QuoteRequest, Feedback]

  /** The fields of sample form `i` (counted from 0), as a form map. */
  function SampleForm(i: nat): Form {
    map[Name := "Sample Customer " + NatToString(i + 1),
        Email := SampleEmail(i),
        Phone := SamplePhone(i),
        Message := "Sample inquiry #" + NatToString(i + 1) + " about landscaping services"]
  }

  function SampleEmail(i: nat): string {
    "customer" + NatToString(i + 1) + "@example.com"
  }

  const AreaCode := "512"
  const Exchange := "555"

  /** `f"(512) 555-{1000 + i:04d}"`: the number already has at least four digits, so the
      padding never applies. */
  function SamplePhone(i: nat): string {
    PhoneShape(AreaCode, Exchange, NatToString(1000 + i))
  }

  /** `(AAA) BBB-` followed by the line number. */
  function PhoneShape(area: string, exchange: string, line: string): string {
    "(" + area + ") " + exchange + "-" + line
  }

  /** Sample form `i` has contact type `i mod 4`, so the types cycle through all four. */
  function SampleContactType(i: nat): (t: ContactType)
    ensures SampleContactTypeCycles(i, t)
  {
    ContactTypes[i % 4]
  }

  predicate SampleContactTypeCycles(i: nat, t: ContactType) {
    (i % 4 == 0 <==> t == GeneralInquiry) && (i % 4 == 1 <==> t == ServiceRequest)
    && (i % 4 == 2 <==> t == QuoteRequest) && (i % 4 == 3 <==> t == Feedback)
  }

  lemma FourDigits(n: nat)
    requires n >= 1000
    ensures |NatToString(n)| >= 4
  {
    assert |NatToString(n)| == |NatToString(n / 10)| + 1;
    assert |NatToString(n / 10)| == |NatToString(n / 100)| + 1;
    assert |NatToString(n / 100)| == |NatToString(n / 1000)| + 1;
  }

  lemma AllDigitsAppend(a: string, b: string)
    requires AllDigits(a) && AllDigits(b)
    ensures AllDigits(a + b)
  {
    forall k | 0 <= k < |a + b|
      ensures IsDigit((a + b)[k])
    {
      if k >= |a| {
        assert (a + b)[k] == b[k - |a|];
      }
    }
  }

  /** Appending separators adds nothing to the cleaned number; appending digits adds
      them unchanged. */
  lemma CleanAppendSeparators(s: string, t: string)
    requires forall k :: 0 <= k < |t| ==> IsSeparator(t[k])
    ensures CleanPhone(s + t) == CleanPhone(s)
  {
    CleanPhoneAppend(s, t);
    CleanSeparatorsOnly(t);
  }

  lemma {:induction false} CleanSeparatorsOnly(t: string)
    requires forall k :: 0 <= k < |t| ==> IsSeparator(t[k])
    ensures CleanPhone(t) == []
    decreases |t|
  {
    if t != [] {
      CleanSeparatorsOnly(t[1..]);
    }
  }

  lemma CleanAppendDigits(s: string, t: string)
    requires AllDigits(t)
    ensures CleanPhone(s + t) == CleanPhone(s) + t
  {
    CleanPhoneAppend(s, t);
    CleanPhoneOfDigits(t);
  }

  /** A number written as `(AAA) BBB-` and a line number cleans to its digits alone. */
  lemma CleanPhoneShape(area: string, exchange: string, line: string)
    requires AllDigits(area) && AllDigits(exchange) && AllDigits(line)
    ensures CleanPhone(PhoneShape(area, exchange, line)) == area + exchange + line
  {
    var s1 := "(" + area;
    var s2 := s1 + ") ";
    var s3 := s2 + exchange;
    var s4 := s3 + "-";
    assert CleanPhone(s1) == area by {
      CleanAppendDigits("(", area);
      assert CleanPhone("(") == [];
    }
    CleanAppendSeparators(s1, ") ");
    CleanAppendDigits(s2, exchange);
    CleanAppendSeparators(s3, "-");
    CleanAppendDigits(s4, line);
  }

  /** Every sample phone number passes the phone rule: cleaned, it is `512555` followed
      by the number's digits. */
  lemma SamplePhoneValid(i: nat)
    ensures CleanPhone(SamplePhone(i)) == AreaCode + Exchange + NatToString(1000 + i)
    ensures PhoneOk(SamplePhone(i))
  {
    var ds := NatToString(1000 + i);
    assert AllDigits(AreaCode) && AllDigits(Exchange);
    CleanPhoneShape(AreaCode, Exchange, ds);
    FourDigits(1000 + i);
    AllDigitsAppend(AreaCode, Exchange);
    AllDigitsAppend(AreaCode + Exchange, ds);
  }

  /** Every generated sample form passes the validator. */
  lemma SampleFormsValid(i: nat)
    ensures ValidateContactForm(SampleForm(i)) == []
  {
    var form := SampleForm(i);
    var pre := "customer" + NatToString(i + 1);
    assert OccursAt(SampleEmail(i), "@", |pre|) by {
      assert SampleEmail(i)[|pre|..|pre| + 1] == "@";
    }
    ContainsAt(SampleEmail(i), "@", |pre|);
    SamplePhoneValid(i);
    NoErrorsIffAcceptable(form);
  }

  /** The form the loader's demonstration validates; its phone number, `(512) 555-1234`,
      is sample number 234's (`DemonstrationPhone`). */
  lemma DemonstrationFormValid()
    ensures ValidateContactForm(map[Name := "John Doe", Email := "john@example.com",
                                    Phone := SamplePhone(234),
                                    Message := "I need landscaping services"]) == []
  {
    var form := map[Name := "John Doe", Email := "john@example.com",
                    Phone := SamplePhone(234), Message := "I need landscaping services"];
    assert OccursAt("john@example.com", "@", 4);
    ContainsAt("john@example.com", "@", 4);
    SamplePhoneValid(234);
    NoErrorsIffAcceptable(form);
  }

  lemma DemonstrationPhone()
    ensures SamplePhone(234) == "(512) 555-1234"
  {
    LineNumber1234();
    assert PhoneShape(AreaCode, Exchange, "1234") == "(512) 555-1234";
  }

  lemma LineNumber1234()
    ensures NatToString(1234) == "1234"
  {
    assert NatToString(1) == "1";
    assert NatToString(12) == NatToString(1) + "2";
    assert NatToString(123) == NatToString(12) + "3";
    assert NatToString(1234) == NatToString(123) + "4";
  }
}

=== FILE: database.dfy ===
/** The optional commit database: repositories, commits and aggregated summaries,
    modelled as pure transitions over an in-memory store of rows. Each operation
    runs in its own session and commits at its end; a transition returns the store
    as committed. */
module Database {
  import opened Wrappers
  import opened CommitData

  // ---------------------------------------------------------------------------
  // Calendar: the parts of `datetime` the commit rows derive

  /** A naive `datetime` down to the second. */
  datatype DateTime = DateTime(year: int, month: int, day: int, hour: int, minute: int, second: int)

  predicate IsLeapYear(y: int) {
    y % 4 == 0 && (y % 100 != 0 || y % 400 == 0)
  }

  function DaysInMonth(y: int, m: int): (n: int)
    requires 1 <= m <= 12
    ensures 28 <= n <= 31
    ensures m == 2 ==> (n == 29 <==> IsLeapYear(y))
  {
    if m == 2 then (if IsLeapYear(y) then 29 else 28)
    else if m == 4 || m == 6 || m == 9 || m == 11 then 30
    else 31
  }

  /** What the `datetime` constructor accepts: years 1 to 9999 and in-range fields. */
  predicate ValidDateTime(t: DateTime) {
    && 1 <= t.year <= 9999
    && 1 <= t.month <= 12
    && 1 <= t.day <= DaysInMonth(t.year, t.month)
    && 0 <= t.hour < 24 && 0 <= t.minute < 60 && 0 <= t.second < 60
  }

  /** The first year of the 400-year Gregorian cycle containing year `y`. */
  function Era(y: int): int { y / 400 }

  /** Days from 1970-01-01 to the first of March of year `y`. Counting years from
      March puts the leap day at the end of its counted year. */
  function MarchFirst(y: int): int {
    var yoe := y - Era(y) * 400;
    Era(y) * 146097 + yoe * 365 + yoe / 4 - yoe / 100 - 719468
  }

  /** Days from the first of March to day `d` of month `m` (March is month 0). */
  function DayOfCountedYear(m: int, d: int): int
    requires 1 <= m <= 12
  {
    var mp := if m > 2 then m - 3 else m + 9;
    (153 * mp + 2) / 5 + d - 1
  }

  /** Days from 1970-01-01 to the given proleptic Gregorian date. */
  function DaysFromCivil(y: int, m: int, d: int): int
    requires 1 <= m <= 12
  {
    MarchFirst(if m <= 2 then y - 1 else y) + DayOfCountedYear(m, d)
  }

  /** `datetime.weekday()`: Monday is 0 and Sunday is 6 (1970-01-01 was a Thursday). */
  function Weekday(t: DateTime): (w: int)
    requires 1 <= t.month <= 12
    ensures 0 <= w < 7
  {
    (DaysFromCivil(t.year, t.month, t.day) + 3) % 7
  }

  /** The calendar day after a valid date. */
  function NextDay(y: int, m: int, d: int): (r: (int, int, int))
    requires 1 <= m <= 12 && 1 <= d <= DaysInMonth(y, m)
    ensures 1 <= r.1 <= 12 && 1 <= r.2 <= DaysInMonth(r.0, r.1)
  {
    if d < DaysInMonth(y, m) then (y, m, d + 1)
    else if m < 12 then (y, m + 1, 1)
    else (y + 1, 1, 1)
  }

  // Arithmetic facts the calendar proofs rest on

  lemma MulAwayFromZero(k: int, d: int)
    requires k > 0
    ensures d >= 1 ==> k * d >= k
    ensures d <= -1 ==> k * d <= -k
  {
    if d >= 1 {
      assert k * d == k * (d - 1) + k;
    } else if d <= -1 {
      assert k * d == k * (d + 1) - k;
    }
  }

  /** Quotient and remainder are determined by any decomposition with `0 <= r < k`. */
  lemma QuotientUnique(a: int, k: int, q: int, r: int)
    requires k > 0 && 0 <= r < k && a == k * q + r
    ensures a / k == q && a % k == r
  {
    var q', r' := a / k, a % k;
    assert k * (q - q') == r' - r;
    MulAwayFromZero(k, q - q');
  }

  lemma YearStepInEra(y: int, e: int, yoe: int)
    requires y == 400 * e + yoe && 0 <= yoe < 399
    ensures MarchFirst(y + 1) - MarchFirst(y) == 365 + (yoe + 1) / 4 - yoe / 4 - ((yoe + 1) / 100 - yoe / 100)
  {
    QuotientUnique(y, 400, e, yoe);
    QuotientUnique(y + 1, 400, e, yoe + 1);
  }

  /** Inside a 400-year cycle the leap rule can be read off the year's place in it. */
  lemma LeapInEra(y: int, e: int, yoe: int)
    requires y == 400 * e + yoe && 0 <= yoe < 399
    ensures (if IsLeapYear(y + 1) then 1 else 0) == (yoe + 1) / 4 - yoe / 4 - ((yoe + 1) / 100 - yoe / 100)
  {
    var q4, r4 := yoe / 4, yoe % 4;
    var q1, r1 := yoe / 100, yoe % 100;
    QuotientUnique(y + 1, 400, e, yoe + 1);
    if r4 < 3 {
      QuotientUnique(yoe + 1, 4, q4, r4 + 1);
      QuotientUnique(y + 1, 4, 100 * e + q4, r4 + 1);
    } else {
      QuotientUnique(yoe + 1, 4, q4 + 1, 0);
      QuotientUnique(y + 1, 4, 100 * e + q4 + 1, 0);
    }
    if r1 < 99 {
      QuotientUnique(yoe + 1, 100, q1, r1 + 1);
      QuotientUnique(y + 1, 100, 4 * e + q1, r1 + 1);
    } else {
      QuotientUnique(yoe + 1, 100, q1 + 1, 0);
      QuotientUnique(y + 1, 100, 4 * e + q1 + 1, 0);
    }
  }

  /** A counted year (March to February) has 366 days exactly when its February is a
      leap one. */
  lemma CountedYearLength(y: int)
    ensures MarchFirst(y + 1) == MarchFirst(y) + (if IsLeapYear(y + 1) then 366 else 365)
  {
    var e := Era(y);
    var yoe := y - e * 400;
    if yoe < 399 {
      YearStepInEra(y, e, yoe);
      LeapInEra(y, e, yoe);
    } else {
      QuotientUnique(y + 1, 400, e + 1, 0);
      QuotientUnique(y + 1, 4, 100 * e + 100, 0);
      QuotientUnique(y + 1, 100, 4 * e + 4, 0);
    }
  }

  /** Every month but February ends the day before the next month's first day within
      the same counted year. */
  lemma MonthStep(y: int, m: int)
    requires 1 <= m <= 12 && m != 2
    ensures DayOfCountedYear(m % 12 + 1, 1) == DayOfCountedYear(m, DaysInMonth(y, m)) + 1
  {
  }

  /** The day count advances by exactly one from each valid date to the next, across
      month, year and leap-day boundaries. */
  lemma NextDayIsOneLater(y: int, m: int, d: int)
    requires 1 <= m <= 12 && 1 <= d <= DaysInMonth(y, m)
    ensures var n := NextDay(y, m, d); DaysFromCivil(n.0, n.1, n.2) == DaysFromCivil(y, m, d) + 1
  {
    if d < DaysInMonth(y, m) {
      assert DayOfCountedYear(m, d + 1) == DayOfCountedYear(m, d) + 1;
    } else if m == 2 {
      LeapDayStep(y, d);
    } else {
      MonthStep(y, m);
    }
  }

  /** From the last day of February to the first of March a new counted year begins. */
  lemma LeapDayStep(y: int, d: int)
    requires d == DaysInMonth(y, 2)
    ensures DaysFromCivil(y, 3, 1) == DaysFromCivil(y, 2, d) + 1
  {
    CountedYearLength(y - 1);
    assert DayOfCountedYear(2, d) == 336 + d;
    assert DayOfCountedYear(3, 1) == 0;
  }

  lemma ModSevenStep(x: int)
    ensures (x + 1) % 7 == (x % 7 + 1) % 7
  {
    var q, r := x / 7, x % 7;
    if r < 6 {
      QuotientUnique(x + 1, 7, q, r + 1);
    } else {
      QuotientUnique(x + 1, 7, q + 1, 0);
    }
  }

  /** So the weekday of the next day is the next weekday, Sunday (6) wrapping to
      Monday (0). */
  lemma NextDayNextWeekday(t: DateTime)
    requires ValidDateTime(t)
    ensures var n := NextDay(t.year, t.month, t.day);
      Weekday(DateTime(n.0, n.1, n.2, t.hour, t.minute, t.second)) == (Weekday(t) + 1) % 7
  {
    NextDayIsOneLater(t.year, t.month, t.day);
    ModSevenStep(DaysFromCivil(t.year, t.month, t.day) + 3);
  }

  /** 1 January 2023 was a Sunday: its row stores 6, not the 0 the `day_of_week`
      column's comment announces. */
  lemma SundayIsSix()
    ensures Weekday(DateTime(2023, 1, 1, 12, 0, 0)) == 6
  {
  }

  /** 1 January 2024 was a Monday, the day `weekday()` numbers 0. */
  lemma MondayIsZero()
    ensures Weekday(DateTime(2024, 1, 1, 12, 0, 0)) == 0
  {
  }

  // ---------------------------------------------------------------------------
  // Rows and the store

  /** A `repositories` row. No operation of the manager writes the commit-date
      columns, so they stay empty; they are kept because the statistics report them. */
  datatype Repository = Repository(
    id: nat, name: string, remoteUrl: Option<string>,
    firstCommitDate: Option<DateTime>, lastCommitDate: Option<DateTime>)

  /** The dictionary `add_commit` receives: four required keys, and the optional ones
      as `None` when absent. */
  datatype CommitInput = CommitInput(
    hash: string, timestamp: DateTime, authorName: string, authorEmail: Option<string>,
    message: string, filesChanged: Option<int>, insertions: Option<int>, deletions: Option<int>)

  /** A `commits` row: the input plus the calendar fields derived from its timestamp. */
  datatype Commit = Commit(
    id: nat, repoId: nat, hash: string, timestamp: DateTime,
    hour: int, dayOfWeek: int, month: int, year: int,
    authorName: string, authorEmail: Option<string>, message: string,
    filesChanged: int, insertions: int, deletions: int)

  /** The unique key of a `commit_summaries` row. */
  datatype SummaryKey = SummaryKey(repoId: nat, kind: PeriodKind, value: int)

  /** A `commit_summaries` row. Rows the import creates fill only the count; the other
      figures keep their column defaults (0, or empty for the dates). */
  datatype Summary = Summary(
    key: SummaryKey, count: int, totalInsertions: int, totalDeletions: int,
    uniqueAuthors: int, firstCommit: Option<DateTime>, lastCommit: Option<DateTime>)

  /** The committed contents of the three tables the manager works on, each in
      insertion order. */
  datatype Store = Store(repos: seq<Repository>, commits: seq<Commit>, summaries: seq<Summary>)

  /** Ids are handed out in insertion order from 1; rows of these tables are never
      deleted, so the next id is one more than the row count. */
  predicate RepositoryIds(repos: seq<Repository>) {
    forall i :: 0 <= i < |repos| ==> repos[i].id == i + 1
  }

  predicate CommitIds(commits: seq<Commit>) {
    forall i :: 0 <= i < |commits| ==> commits[i].id == i + 1
  }

  /** `repositories.name` is unique. */
  predicate UniqueNames(repos: seq<Repository>) {
    forall i, j :: 0 <= i < j < |repos| ==> repos[i].name != repos[j].name
  }

  /** `uq_repo_commit`: one row per repository and hash. */
  predicate UniqueCommits(commits: seq<Commit>) {
    forall i, j :: 0 <= i < j < |commits| ==>
      commits[i].repoId != commits[j].repoId || commits[i].hash != commits[j].hash
  }

  /** `uq_repo_period`: one row per repository, period type and period value. */
  predicate UniqueKeys(rows: seq<Summary>) {
    forall i, j :: 0 <= i < j < |rows| ==> rows[i].key != rows[j].key
  }

  /** A commit row whose calendar columns agree with its timestamp. */
  predicate WellDerived(c: Commit) {
    && ValidDateTime(c.timestamp)
    && c.hour == c.timestamp.hour
    && c.dayOfWeek == Weekday(c.timestamp)
    && c.month == c.timestamp.month
    && c.year == c.timestamp.year
  }

  /** What the database's constraints and the manager's own writes keep true. */
  predicate Valid(s: Store) {
    && RepositoryIds(s.repos) && UniqueNames(s.repos)
    && CommitIds(s.commits) && UniqueCommits(s.commits)
    && (forall i :: 0 <= i < |s.commits| ==> WellDerived(s.commits[i]))
    && UniqueKeys(s.summaries)
  }

  // ---------------------------------------------------------------------------
  // get_or_create_repository

  /** The first index at or after `i` whose row satisfies `p`, if any: the lookup
      behind every `.filter(...).first()` of the model. */
  function FindFirst<T>(rows: seq<T>, p: T -> bool, i: nat): (r: Option<nat>)
    requires i <= |rows|
    ensures r.Some? ==> i <= r.value < |rows| && p(rows[r.value])
    ensures r.Some? ==> forall j :: i <= j < r.value ==> !p(rows[j])
    ensures r.None? <==> forall j :: i <= j < |rows| ==> !p(rows[j])
    decreases |rows| - i
  {
    if i == |rows| then None
    else if p(rows[i]) then Some(i)
    else FindFirst(rows, p, i + 1)
  }

  /** The row named `name` at or after index `i`, if any. */
  function FindRepository(repos: seq<Repository>, name: string, i: nat): (r: Option<nat>)
    requires i <= |repos|
    ensures r.Some? ==> i <= r.value < |repos| && repos[r.value].name == name
    ensures r.None? <==> forall j :: i <= j < |repos| ==> repos[j].name != name
  {
    FindFirst(repos, (x: Repository) => x.name == name, i)
  }

  predicate HasRepository(repos: seq<Repository>, name: string) {
    exists i :: 0 <= i < |repos| && repos[i].name == name
  }

  /** The repository named `name`, created with the given remote when there is none.
      The remote of an existing row is left as it is. */
  function GetOrCreateRepository(s: Store, name: string, remoteUrl: Option<string>)
    : (r: (Store, Repository))
    ensures r.1.name == name && r.1 in r.0.repos
    ensures r.0.commits == s.commits && r.0.summaries == s.summaries
    ensures HasRepository(s.repos, name) ==> r.0 == s
    ensures !HasRepository(s.repos, name) ==>
      r.0.repos == s.repos + [r.1] && r.1 == Repository(|s.repos| + 1, name, remoteUrl, None, None)
    ensures Valid(s) ==> Valid(r.0)
  {
    match FindRepository(s.repos, name, 0)
    case Some(i) => (s, s.repos[i])
    case None =>
      var repo := Repository(|s.repos| + 1, name, remoteUrl, None, None);
      (s.(repos := s.repos + [repo]), repo)
  }

  /** How many rows carry the name. */
  function NamedCount(repos: seq<Repository>, name: string): (n: nat)
    ensures n <= |repos|
  {
    if repos == [] then 0
    else NamedCount(repos[..|repos| - 1], name) + (if repos[|repos| - 1].name == name then 1 else 0)
  }

  lemma {:induction false} NamedCountZero(repos: seq<Repository>, name: string)
    requires !HasRepository(repos, name)
    ensures NamedCount(repos, name) == 0
  {
    if repos != [] {
      NamedCountZero(repos[..|repos| - 1], name);
    }
  }

  lemma {:induction false} NamedCountOne(repos: seq<Repository>, name: string)
    requires UniqueNames(repos) && HasRepository(repos, name)
    ensures NamedCount(repos, name) == 1
  {
    var init := repos[..|repos| - 1];
    if repos[|repos| - 1].name == name {
      NamedCountZero(init, name);
    } else {
      var i :| 0 <= i < |repos| && repos[i].name == name;
      assert init[i].name == name;
      NamedCountOne(init, name);
    }
  }

  /** Asking twice returns the same row and changes nothing the second time, whatever
      remote the second call passes; the table holds exactly one row with the name. */
  lemma RepositoryIdempotent(s: Store, name: string, url1: Option<string>, url2: Option<string>)
    requires Valid(s)
    ensures var (s1, a) := GetOrCreateRepository(s, name, url1);
      var (s2, b) := GetOrCreateRepository(s1, name, url2);
      s2 == s1 && b == a && NamedCount(s2.repos, name) == 1
  {
    var (s1, a) := GetOrCreateRepository(s, name, url1);
    assert a in s1.repos;
    NamedCountOne(s1.repos, name);
  }

  // ---------------------------------------------------------------------------
  // add_commit

  predicate HasCommit(commits: seq<Commit>, repoId: nat, hash: string) {
    exists i :: 0 <= i < |commits| && commits[i].repoId == repoId && commits[i].hash == hash
  }

  function FindCommit(commits: seq<Commit>, repoId: nat, hash: string, i: nat): (r: Option<nat>)
    requires i <= |commits|
    ensures r.Some? ==> i <= r.value < |commits| && commits[r.value].repoId == repoId && commits[r.value].hash == hash
    ensures r.None? <==> forall j :: i <= j < |commits| ==> commits[j].repoId != repoId || commits[j].hash != hash
    decreases |commits| - i
  {
    if i == |commits| then None
    else if commits[i].repoId == repoId && commits[i].hash == hash then Some(i)
    else FindCommit(commits, repoId, hash, i + 1)
  }

  /** The row `add_commit` builds: hour, month and year read off the timestamp,
      `day_of_week` from `weekday()`, and 0 for each absent count. */
  function NewCommit(id: nat, repoId: nat, input: CommitInput): (c: Commit)
    requires ValidDateTime(input.timestamp)
    ensures WellDerived(c)
  {
    var t := input.timestamp;
    Commit(id, repoId, input.hash, t, t.hour, Weekday(t), t.month, t.year,
           input.authorName, input.authorEmail, input.message,
           input.filesChanged.GetOr(0), input.insertions.GetOr(0), input.deletions.GetOr(0))
  }

  /** `add_commit`: the stored row when the repository already has the hash (the
      input's other fields are then ignored), otherwise a new row. The repository id
      is not checked against `repositories`: SQLite leaves foreign keys unenforced
      unless asked to. */
  function AddCommit(s: Store, repoId: nat, input: CommitInput): (r: (Store, Commit))
    requires ValidDateTime(input.timestamp)
    ensures r.1.repoId == repoId && r.1.hash == input.hash && r.1 in r.0.commits
    ensures r.0.repos == s.repos && r.0.summaries == s.summaries
    ensures HasCommit(s.commits, repoId, input.hash) ==> r.0 == s
    ensures !HasCommit(s.commits, repoId, input.hash) ==>
      r.0.commits == s.commits + [r.1] && r.1 == NewCommit(|s.commits| + 1, repoId, input)
    ensures Valid(s) ==> Valid(r.0)
  {
    match FindCommit(s.commits, repoId, input.hash, 0)
    case Some(i) => (s, s.commits[i])
    case None =>
      var c := NewCommit(|s.commits| + 1, repoId, input);
      (s.(commits := s.commits + [c]), c)
  }

  /** Adding the same commit twice stores it once: the second call returns the first
      call's row, even when the rest of the input differs. */
  lemma AddCommitIdempotent(s: Store, repoId: nat, input: CommitInput, again: CommitInput)
    requires ValidDateTime(input.timestamp) && ValidDateTime(again.timestamp)
    requires again.hash == input.hash
    requires Valid(s)
    ensures var (s1, a) := AddCommit(s, repoId, input);
      var (s2, b) := AddCommit(s1, repoId, again);
      s2 == s1 && b == a
  {
    var (s1, a) := AddCommit(s, repoId, input);
    assert UniqueCommits(s1.commits);
    var i :| 0 <= i < |s1.commits| && s1.commits[i] == a;
    match FindCommit(s1.commits, repoId, again.hash, 0)
    case Some(j) =>
      assert AddCommit(s1, repoId, again) == (s1, s1.commits[j]);
      SameCommitSameRow(s1.commits, i, j);
    case None =>
      assert false;
  }

  /** Under `uq_repo_commit`, two rows with the same repository and hash are one row. */
  lemma SameCommitSameRow(commits: seq<Commit>, i: nat, j: nat)
    requires UniqueCommits(commits) && i < |commits| && j < |commits|
    requires commits[i].repoId == commits[j].repoId && commits[i].hash == commits[j].hash
    ensures i == j
  {
  }

  // ---------------------------------------------------------------------------
  // update_commit_summaries

  /** The commit column each period type groups by. */
  function PeriodOf(c: Commit, k: PeriodKind): int {
    match k
    case Hour => c.hour
    case Day => c.dayOfWeek
    case Month => c.month
  }

  /** The period values the summaries visit: `range(24)`, `range(7)`, `range(1, 13)`. */
  function FirstValue(k: PeriodKind): int {
    if k == Month then 1 else 0
  }

  function EndValue(k: PeriodKind): int {
    match k
    case Hour => 24
    case Day => 7
    case Month => 13
  }

  /** The repository's commits in one bucket, in table order. */
  function Bucket(commits: seq<Commit>, repoId: nat, k: PeriodKind, v: int): (b: seq<Commit>)
    ensures forall c :: c in b <==> c in commits && c.repoId == repoId && PeriodOf(c, k) == v
    ensures |b| <= |commits|
  {
    if commits == [] then []
    else
      (if commits[0].repoId == repoId && PeriodOf(commits[0], k) == v then [commits[0]] else [])
      + Bucket(commits[1..], repoId, k, v)
  }

  function TotalInsertions(cs: seq<Commit>): int {
    if cs == [] then 0 else cs[0].insertions + TotalInsertions(cs[1..])
  }

  function TotalDeletions(cs: seq<Commit>): int {
    if cs == [] then 0 else cs[0].deletions + TotalDeletions(cs[1..])
  }

  /** The distinct author names. */
  function Authors(cs: seq<Commit>): set<string> {
    set c | c in cs :: c.authorName
  }

  /** `datetime` ordering: field by field from the year down. */
  predicate Before(a: DateTime, b: DateTime) {
    || a.year < b.year
    || (a.year == b.year && a.month < b.month)
    || (a.year == b.year && a.month == b.month && a.day < b.day)
    || (a.year == b.year && a.month == b.month && a.day == b.day && a.hour < b.hour)
    || (a.year == b.year && a.month == b.month && a.day == b.day && a.hour == b.hour && a.minute < b.minute)
    || (a.year == b.year && a.month == b.month && a.day == b.day && a.hour == b.hour && a.minute == b.minute
        && a.second < b.second)
  }

  /** `min(c.timestamp for c in cs)`. */
  function Earliest(cs: seq<Commit>): (t: DateTime)
    requires cs != []
    ensures exists i :: 0 <= i < |cs| && cs[i].timestamp == t
    ensures forall i :: 0 <= i < |cs| ==> !Before(cs[i].timestamp, t)
  {
    if |cs| == 1 then cs[0].timestamp
    else
      var rest := Earliest(cs[1..]);
      assert forall i :: 1 <= i < |cs| ==> cs[i] == cs[1..][i - 1];
      if Before(rest, cs[0].timestamp) then rest else cs[0].timestamp
  }

  /** `max(c.timestamp for c in cs)`. */
  function Latest(cs: seq<Commit>): (t: DateTime)
    requires cs != []
    ensures exists i :: 0 <= i < |cs| && cs[i].timestamp == t
    ensures forall i :: 0 <= i < |cs| ==> !Before(t, cs[i].timestamp)
  {
    if |cs| == 1 then cs[0].timestamp
    else
      var rest := Latest(cs[1..]);
      assert forall i :: 1 <= i < |cs| ==> cs[i] == cs[1..][i - 1];
      if Before(cs[0].timestamp, rest) then rest else cs[0].timestamp
  }

  /** The row written for a non-empty bucket. */
  function SummaryOf(key: SummaryKey, b: seq<Commit>): Summary
    requires b != []
  {
    Summary(key, |b|, TotalInsertions(b), TotalDeletions(b), |Authors(b)|,
            Some(Earliest(b)), Some(Latest(b)))
  }

  /** The row a key's bucket yields, if the bucket is not empty. */
  function RowFor(commits: seq<Commit>, key: SummaryKey): (r: Option<Summary>)
    ensures r.Some? ==> r.value.key == key
  {
    var b := Bucket(commits, key.repoId, key.kind, key.value);
    if b == [] then None else Some(SummaryOf(key, b))
  }

  /** Rows of one repository and period type, with values in `[v, hi)`, ascending. */
  predicate AscendingIn(rows: seq<Summary>, repoId: nat, k: PeriodKind, v: int, hi: int) {
    && (forall i :: 0 <= i < |rows| ==>
          rows[i].key.repoId == repoId && rows[i].key.kind == k && v <= rows[i].key.value < hi)
    && (forall i, j :: 0 <= i < j < |rows| ==> rows[i].key.value < rows[j].key.value)
  }

  lemma AscendingCons(row: Summary, rest: seq<Summary>, repoId: nat, k: PeriodKind, v: int, hi: int)
    requires row.key == SummaryKey(repoId, k, v) && v < hi
    requires AscendingIn(rest, repoId, k, v + 1, hi)
    ensures AscendingIn([row] + rest, repoId, k, v, hi)
  {
    var rows := [row] + rest;
    assert forall i :: 1 <= i < |rows| ==> rows[i] == rest[i - 1];
  }

  /** The rows for period values `v` up to `hi`, skipping empty buckets. */
  function BucketRows(commits: seq<Commit>, repoId: nat, k: PeriodKind, v: int, hi: int)
    : (rows: seq<Summary>)
    ensures AscendingIn(rows, repoId, k, v, hi)
    decreases hi - v
  {
    if v >= hi then []
    else
      var rest := BucketRows(commits, repoId, k, v + 1, hi);
      match RowFor(commits, SummaryKey(repoId, k, v))
      case None => rest
      case Some(row) =>
        AscendingCons(row, rest, repoId, k, v, hi);
        [row] + rest
  }

  /** A row is written exactly for the in-range keys with a non-empty bucket, and it
      is that bucket's row. */
  lemma {:induction false} BucketRowsHold(commits: seq<Commit>, repoId: nat, k: PeriodKind, v: int, hi: int, x: Summary)
    ensures x in BucketRows(commits, repoId, k, v, hi) <==>
      && x.key.repoId == repoId && x.key.kind == k && v <= x.key.value < hi
      && RowFor(commits, x.key) == Some(x)
    decreases hi - v
  {
    if v < hi {
      BucketRowsHold(commits, repoId, k, v + 1, hi, x);
      var rest := BucketRows(commits, repoId, k, v + 1, hi);
      var key := SummaryKey(repoId, k, v);
      var here := x.key.repoId == repoId && x.key.kind == k && x.key.value == v;
      assert here ==> x.key == key;
      match RowFor(commits, key)
      case None =>
        assert BucketRows(commits, repoId, k, v, hi) == rest;
      case Some(row) =>
        assert BucketRows(commits, repoId, k, v, hi) == [row] + rest;
        assert x == row ==> here;
    }
  }

  function KindRows(commits: seq<Commit>, repoId: nat, k: PeriodKind): seq<Summary> {
    BucketRows(commits, repoId, k, FirstValue(k), EndValue(k))
  }

  /** The bulk delete: every summary row of other repositories, in order. */
  function OtherRepositories(rows: seq<Summary>, repoId: nat): (r: seq<Summary>)
    ensures |r| <= |rows|
  {
    if rows == [] then []
    else (if rows[0].key.repoId != repoId then [rows[0]] else []) + OtherRepositories(rows[1..], repoId)
  }

  /** The delete keeps exactly the other repositories' rows. */
  lemma {:induction false} OtherRepositoriesHold(rows: seq<Summary>, repoId: nat, x: Summary)
    ensures x in OtherRepositories(rows, repoId) <==> x in rows && x.key.repoId != repoId
  {
    if rows != [] {
      OtherRepositoriesHold(rows[1..], repoId, x);
      assert x in rows <==> x == rows[0] || x in rows[1..];
    }
  }

  predicate HasSummary(rows: seq<Summary>, key: SummaryKey) {
    exists i :: 0 <= i < |rows| && rows[i].key == key
  }

  /** `update_commit_summaries`: the repository's summary rows are deleted and one row
      is written per non-empty hour, weekday and month bucket, in that order. */
  function UpdateCommitSummaries(s: Store, repoId: nat): (r: Store)
    ensures r.repos == s.repos && r.commits == s.commits
  {
    s.(summaries := OtherRepositories(s.summaries, repoId)
                    + KindRows(s.commits, repoId, Hour)
                    + KindRows(s.commits, repoId, Day)
                    + KindRows(s.commits, repoId, Month))
  }

  /** After the rebuild, rows of other repositories are exactly those before. */
  lemma UpdateKeepsOtherRepositories(s: Store, repoId: nat, x: Summary)
    requires x.key.repoId != repoId
    ensures x in UpdateCommitSummaries(s, repoId).summaries <==> x in s.summaries
  {
    var c := s.commits;
    var o := OtherRepositories(s.summaries, repoId);
    var h, d, m := KindRows(c, repoId, Hour), KindRows(c, repoId, Day), KindRows(c, repoId, Month);
    assert UpdateCommitSummaries(s, repoId).summaries == o + h + d + m;
    OtherRepositoriesHold(s.summaries, repoId, x);
    BucketRowsHold(c, repoId, Hour, 0, 24, x);
    BucketRowsHold(c, repoId, Day, 0, 7, x);
    BucketRowsHold(c, repoId, Month, 1, 13, x);
    assert x !in h && x !in d && x !in m;
  }

  /** After the rebuild, the repository has a row for a key exactly when the key's
      period is in range and its bucket is not empty, and that row is the bucket's. */
  lemma UpdateWritesBuckets(s: Store, repoId: nat, x: Summary)
    requires x.key.repoId == repoId
    ensures x in UpdateCommitSummaries(s, repoId).summaries <==>
      PeriodInRange(x.key.kind, x.key.value) && RowFor(s.commits, x.key) == Some(x)
  {
    var c := s.commits;
    var o := OtherRepositories(s.summaries, repoId);
    var h, d, m := KindRows(c, repoId, Hour), KindRows(c, repoId, Day), KindRows(c, repoId, Month);
    assert UpdateCommitSummaries(s, repoId).summaries == o + h + d + m;
    OtherRepositoriesHold(s.summaries, repoId, x);
    assert x !in o;
    BucketRowsHold(c, repoId, Hour, 0, 24, x);
    BucketRowsHold(c, repoId, Day, 0, 7, x);
    BucketRowsHold(c, repoId, Month, 1, 13, x);
    match x.key.kind
    case Hour => assert x !in d && x !in m;
    case Day => assert x !in h && x !in m;
    case Month => assert x !in h && x !in d;
  }

  lemma UniqueAppend(a: seq<Summary>, b: seq<Summary>)
    requires UniqueKeys(a) && UniqueKeys(b)
    requires forall i, j :: 0 <= i < |a| && 0 <= j < |b| ==> a[i].key != b[j].key
    ensures UniqueKeys(a + b)
  {
    var ab := a + b;
    forall i, j | 0 <= i < j < |ab| ensures ab[i].key != ab[j].key {
      if j < |a| {
        assert ab[i] == a[i] && ab[j] == a[j];
      } else if i >= |a| {
        assert ab[i] == b[i - |a|] && ab[j] == b[j - |a|];
      } else {
        assert ab[i] == a[i] && ab[j] == b[j - |a|];
      }
    }
  }

  lemma {:induction false} OtherRepositoriesUnique(rows: seq<Summary>, repoId: nat)
    requires UniqueKeys(rows)
    ensures UniqueKeys(OtherRepositories(rows, repoId))
  {
    if rows != [] {
      var rest := rows[1..];
      assert UniqueKeys(rest) by {
        assert forall i :: 0 <= i < |rest| ==> rest[i] == rows[i + 1];
      }
      OtherRepositoriesUnique(rest, repoId);
      var tail := OtherRepositories(rest, repoId);
      forall j | 0 <= j < |tail| ensures rows[0].key != tail[j].key {
        OtherRepositoriesHold(rest, repoId, tail[j]);
        var m :| 0 <= m < |rest| && rest[m] == tail[j];
        assert rows[m + 1] == tail[j];
      }
      if rows[0].key.repoId != repoId {
        UniqueAppend([rows[0]], tail);
      }
    }
  }

  /** Which part of the rebuilt table a key belongs to: other repositories first,
      then the repository's hour, day and month rows. */
  function Part(key: SummaryKey, repoId: nat): int {
    if key.repoId != repoId then 0
    else match key.kind
      case Hour => 1
      case Day => 2
      case Month => 3
  }

  predicate InParts(rows: seq<Summary>, repoId: nat, lo: int, hi: int) {
    forall i :: 0 <= i < |rows| ==> lo <= Part(rows[i].key, repoId) < hi
  }

  lemma UniqueByParts(a: seq<Summary>, b: seq<Summary>, repoId: nat, g: int)
    requires UniqueKeys(a) && UniqueKeys(b)
    requires InParts(a, repoId, 0, g) && InParts(b, repoId, g, g + 1)
    ensures UniqueKeys(a + b) && InParts(a + b, repoId, 0, g + 1)
  {
    UniqueAppend(a, b);
    var ab := a + b;
    assert forall i :: 0 <= i < |ab| ==> ab[i] == if i < |a| then a[i] else b[i - |a|];
  }

  lemma AscendingUnique(rows: seq<Summary>, repoId: nat, k: PeriodKind, v: int, hi: int)
    requires AscendingIn(rows, repoId, k, v, hi)
    ensures UniqueKeys(rows)
  {
  }

  /** The rebuild keeps `uq_repo_period`. */
  lemma UpdateKeepsKeysUnique(s: Store, repoId: nat)
    requires UniqueKeys(s.summaries)
    ensures UniqueKeys(UpdateCommitSummaries(s, repoId).summaries)
  {
    var c := s.commits;
    var o := OtherRepositories(s.summaries, repoId);
    var h, d, m := KindRows(c, repoId, Hour), KindRows(c, repoId, Day), KindRows(c, repoId, Month);
    OtherRepositoriesUnique(s.summaries, repoId);
    assert InParts(o, repoId, 0, 1) by {
      forall i | 0 <= i < |o| ensures o[i].key.repoId != repoId {
        OtherRepositoriesHold(s.summaries, repoId, o[i]);
      }
    }
    AscendingUnique(h, repoId, Hour, 0, 24);
    AscendingUnique(d, repoId, Day, 0, 7);
    AscendingUnique(m, repoId, Month, 1, 13);
    UniqueByParts(o, h, repoId, 1);
    UniqueByParts(o + h, d, repoId, 2);
    UniqueByParts(o + h + d, m, repoId, 3);
  }

  lemma {:induction false} OtherRepositoriesAppend(a: seq<Summary>, b: seq<Summary>, repoId: nat)
    ensures OtherRepositories(a + b, repoId) == OtherRepositories(a, repoId) + OtherRepositories(b, repoId)
  {
    if a != [] {
      var head := if a[0].key.repoId != repoId then [a[0]] else [];
      assert (a + b)[0] == a[0];
      assert (a + b)[1..] == a[1..] + b;
      calc {
        OtherRepositories(a + b, repoId);
        head + OtherRepositories(a[1..] + b, repoId);
      ==  { OtherRepositoriesAppend(a[1..], b, repoId); }
        head + (OtherRepositories(a[1..], repoId) + OtherRepositories(b, repoId));
        (head + OtherRepositories(a[1..], repoId)) + OtherRepositories(b, repoId);
        OtherRepositories(a, repoId) + OtherRepositories(b, repoId);
      }
    } else {
      assert a + b == b;
    }
  }

  lemma {:induction false} OtherRepositoriesTwice(a: seq<Summary>, repoId: nat)
    ensures OtherRepositories(OtherRepositories(a, repoId), repoId) == OtherRepositories(a, repoId)
  {
    if a != [] {
      var t := OtherRepositories(a[1..], repoId);
      OtherRepositoriesTwice(a[1..], repoId);
      if a[0].key.repoId != repoId {
        var kept := [a[0]] + t;
        assert kept[0] == a[0] && kept[1..] == t;
        assert OtherRepositories(kept, repoId) == [a[0]] + OtherRepositories(t, repoId);
      } else {
        assert OtherRepositories(a, repoId) == t;
      }
    }
  }

  lemma {:induction false} OtherRepositoriesNone(a: seq<Summary>, repoId: nat)
    requires forall i :: 0 <= i < |a| ==> a[i].key.repoId == repoId
    ensures OtherRepositories(a, repoId) == []
  {
    if a != [] {
      OtherRepositoriesNone(a[1..], repoId);
    }
  }

  /** Rebuilding twice is rebuilding once: the second pass deletes exactly the rows the
      first wrote and writes them again from the same commits. */
  lemma UpdateIdempotent(s: Store, repoId: nat)
    ensures UpdateCommitSummaries(UpdateCommitSummaries(s, repoId), repoId) == UpdateCommitSummaries(s, repoId)
  {
    var c := s.commits;
    var o := OtherRepositories(s.summaries, repoId);
    var h, d, m := KindRows(c, repoId, Hour), KindRows(c, repoId, Day), KindRows(c, repoId, Month);
    var u := UpdateCommitSummaries(s, repoId);
    assert u.summaries == o + h + d + m;
    OtherRepositoriesNone(h, repoId);
    OtherRepositoriesNone(d, repoId);
    OtherRepositoriesNone(m, repoId);
    calc {
      OtherRepositories(o + h + d + m, repoId);
    ==  { OtherRepositoriesAppend(o + h + d, m, repoId); }
      OtherRepositories(o + h + d, repoId);
    ==  { OtherRepositoriesAppend(o + h, d, repoId); }
      OtherRepositories(o + h, repoId);
    ==  { OtherRepositoriesAppend(o, h, repoId); }
      OtherRepositories(o, repoId);
    ==  { OtherRepositoriesTwice(s.summaries, repoId); }
      o;
    }
  }

  // The figures of one bucket

  lemma {:induction false} AuthorsAtMostCommits(cs: seq<Commit>)
    ensures |Authors(cs)| <= |cs|
    ensures cs != [] ==> |Authors(cs)| >= 1
  {
    if cs != [] {
      var rest := cs[1..];
      AuthorsAtMostCommits(rest);
      assert Authors(cs) == {cs[0].authorName} + Authors(rest) by {
        assert forall c :: c in cs <==> c == cs[0] || c in rest;
      }
      assert cs[0].authorName in Authors(cs);
    }
  }

  /** `Before` is a strict order, so the earliest timestamp of a bucket is not after
      its latest. */
  lemma EarliestNotAfterLatest(cs: seq<Commit>)
    requires cs != []
    ensures !Before(Latest(cs), Earliest(cs))
  {
    var i :| 0 <= i < |cs| && cs[i].timestamp == Earliest(cs);
    assert !Before(Latest(cs), cs[i].timestamp);
  }

  /** A written row counts at least one commit and at most that many authors, and its
      first commit is not later than its last. */
  lemma BucketRowFigures(commits: seq<Commit>, key: SummaryKey)
    requires RowFor(commits, key).Some?
    ensures var x := RowFor(commits, key).value;
      && x.count == |Bucket(commits, key.repoId, key.kind, key.value)| >= 1
      && 1 <= x.uniqueAuthors <= x.count
      && x.firstCommit.Some? && x.lastCommit.Some? && !Before(x.lastCommit.value, x.firstCommit.value)
  {
    var b := Bucket(commits, key.repoId, key.kind, key.value);
    AuthorsAtMostCommits(b);
    EarliestNotAfterLatest(b);
  }

  // ---------------------------------------------------------------------------
  // get_commit_statistics

  /** The statistics dictionary; `start` and `end` are the repository row's commit-date
      columns. */
  datatype Statistics = Statistics(
    repository: string, totalCommits: nat,
    hourly: map<int, int>, daily: map<int, int>, monthly: map<int, int>,
    start: Option<DateTime>, end: Option<DateTime>)

  /** How many commit rows the repository has. */
  function RepositoryCommits(commits: seq<Commit>, repoId: nat): (n: nat)
    ensures n <= |commits|
  {
    if commits == [] then 0
    else (if commits[0].repoId == repoId then 1 else 0) + RepositoryCommits(commits[1..], repoId)
  }

  /** `{s.period_value: s.commit_count for s in rows}` over one repository's rows of
      one period type, in table order: a later row would overwrite an earlier one. */
  function Distribution(rows: seq<Summary>, repoId: nat, k: PeriodKind): (d: map<int, int>)
    ensures forall v :: v in d <==> HasSummary(rows, SummaryKey(repoId, k, v))
  {
    if rows == [] then map[]
    else
      var init := rows[..|rows| - 1];
      var x := rows[|rows| - 1];
      var d := Distribution(init, repoId, k);
      assert forall i :: 0 <= i < |init| ==> init[i] == rows[i];
      if x.key.repoId == repoId && x.key.kind == k then d[x.key.value := x.count] else d
  }

  /** With unique keys, each row's count is what the distribution reports for its value. */
  lemma {:induction false} DistributionAt(rows: seq<Summary>, repoId: nat, k: PeriodKind, i: nat)
    requires UniqueKeys(rows) && i < |rows|
    requires rows[i].key.repoId == repoId && rows[i].key.kind == k
    ensures Distribution(rows, repoId, k)[rows[i].key.value] == rows[i].count
  {
    var init := rows[..|rows| - 1];
    if i < |rows| - 1 {
      assert UniqueKeys(init) by {
        assert forall j :: 0 <= j < |init| ==> init[j] == rows[j];
      }
      assert init[i] == rows[i];
      DistributionAt(init, repoId, k, i);
      assert rows[|rows| - 1].key != rows[i].key;
    }
  }

  /** The row with the given id (`query.get`), if any. */
  function FindRepositoryById(repos: seq<Repository>, id: nat, i: nat): (r: Option<nat>)
    requires i <= |repos|
    ensures r.Some? ==> i <= r.value < |repos| && repos[r.value].id == id
    ensures r.None? <==> forall j :: i <= j < |repos| ==> repos[j].id != id
  {
    FindFirst(repos, (x: Repository) => x.id == id, i)
  }

  /** `get_commit_statistics`: nothing (the empty dictionary) for an unknown id,
      otherwise the repository's name, its commit count and one distribution per
      period type. */
  function GetCommitStatistics(s: Store, repoId: nat): (r: Option<Statistics>)
    ensures r.None? <==> forall i :: 0 <= i < |s.repos| ==> s.repos[i].id != repoId
    ensures r.Some? ==> exists i :: 0 <= i < |s.repos| && s.repos[i].id == repoId && r.value.repository == s.repos[i].name
    ensures r.Some? ==> r.value.totalCommits == RepositoryCommits(s.commits, repoId)
  {
    match FindRepositoryById(s.repos, repoId, 0)
    case None => None
    case Some(i) =>
      var repo := s.repos[i];
      Some(Statistics(repo.name, RepositoryCommits(s.commits, repoId),
                      Distribution(s.summaries, repoId, Hour),
                      Distribution(s.summaries, repoId, Day),
                      Distribution(s.summaries, repoId, Month),
                      repo.firstCommitDate, repo.lastCommitDate))
  }

  function DistributionOf(st: Statistics, k: PeriodKind): map<int, int> {
    match k
    case Hour => st.hourly
    case Day => st.daily
    case Month => st.monthly
  }

  /** The statistics report, for each period type, the distribution of the stored rows. */
  lemma StatisticsReportDistribution(s: Store, repoId: nat, k: PeriodKind)
    ensures var r := GetCommitStatistics(s, repoId);
      r.Some? ==> DistributionOf(r.value, k) == Distribution(s.summaries, repoId, k)
  {
  }

  // The distributions after a rebuild

  /** The bucket sizes for period values `v` up to `hi`, added up. */
  function BucketTotal(commits: seq<Commit>, repoId: nat, k: PeriodKind, v: int, hi: int): nat
    decreases hi - v
  {
    if v >= hi then 0 else |Bucket(commits, repoId, k, v)| + BucketTotal(commits, repoId, k, v + 1, hi)
  }

  /** `sum(d.values())` for a distribution whose keys lie in `[v, hi)`. */
  function MapTotal(d: map<int, int>, v: int, hi: int): int
    decreases hi - v
  {
    if v >= hi then 0 else (if v in d then d[v] else 0) + MapTotal(d, v + 1, hi)
  }

  lemma {:induction false} BucketTotalCons(c: Commit, cs: seq<Commit>, repoId: nat, k: PeriodKind, v: int, hi: int)
    ensures BucketTotal([c] + cs, repoId, k, v, hi) ==
      BucketTotal(cs, repoId, k, v, hi) + (if c.repoId == repoId && v <= PeriodOf(c, k) < hi then 1 else 0)
    decreases hi - v
  {
    if v < hi {
      assert ([c] + cs)[0] == c && ([c] + cs)[1..] == cs;
      BucketTotalCons(c, cs, repoId, k, v + 1, hi);
    }
  }

  lemma {:induction false} BucketTotalNone(repoId: nat, k: PeriodKind, v: int, hi: int)
    ensures BucketTotal([], repoId, k, v, hi) == 0
    decreases hi - v
  {
    if v < hi {
      BucketTotalNone(repoId, k, v + 1, hi);
    }
  }

  /** Every commit of a well-derived table falls in exactly one visited bucket of each
      period type, so the buckets add up to the repository's commit count. */
  lemma {:induction false} BucketsCoverCommits(commits: seq<Commit>, repoId: nat, k: PeriodKind)
    requires forall i :: 0 <= i < |commits| ==> WellDerived(commits[i])
    ensures BucketTotal(commits, repoId, k, FirstValue(k), EndValue(k)) == RepositoryCommits(commits, repoId)
  {
    if commits != [] {
      var c, rest := commits[0], commits[1..];
      assert forall i :: 0 <= i < |rest| ==> rest[i] == commits[i + 1];
      BucketsCoverCommits(rest, repoId, k);
      assert commits == [c] + rest;
      BucketTotalCons(c, rest, repoId, k, FirstValue(k), EndValue(k));
      assert WellDerived(c);
      assert FirstValue(k) <= PeriodOf(c, k) < EndValue(k);
    } else {
      BucketTotalNone(repoId, k, FirstValue(k), EndValue(k));
    }
  }

  lemma {:induction false} MapTotalOfBuckets(d: map<int, int>, commits: seq<Commit>, repoId: nat, k: PeriodKind, v: int, hi: int)
    requires forall w :: v <= w < hi ==> (w in d <==> Bucket(commits, repoId, k, w) != [])
    requires forall w :: v <= w < hi && w in d ==> d[w] == |Bucket(commits, repoId, k, w)|
    ensures MapTotal(d, v, hi) == BucketTotal(commits, repoId, k, v, hi)
    decreases hi - v
  {
    if v < hi {
      MapTotalOfBuckets(d, commits, repoId, k, v + 1, hi);
    }
  }

  /** After a rebuild, the distribution of a period type has a value exactly for the
      in-range periods with commits, and reports each bucket's size. */
  lemma DistributionAfterUpdate(s: Store, repoId: nat, k: PeriodKind, v: int)
    requires UniqueKeys(s.summaries)
    ensures var d := Distribution(UpdateCommitSummaries(s, repoId).summaries, repoId, k);
      && (v in d <==> PeriodInRange(k, v) && Bucket(s.commits, repoId, k, v) != [])
      && (v in d ==> d[v] == |Bucket(s.commits, repoId, k, v)|)
  {
    var rows := UpdateCommitSummaries(s, repoId).summaries;
    var key := SummaryKey(repoId, k, v);
    UpdateKeepsKeysUnique(s, repoId);
    if HasSummary(rows, key) {
      var i :| 0 <= i < |rows| && rows[i].key == key;
      UpdateWritesBuckets(s, repoId, rows[i]);
      DistributionAt(rows, repoId, k, i);
    } else if PeriodInRange(k, v) && RowFor(s.commits, key).Some? {
      UpdateWritesBuckets(s, repoId, RowFor(s.commits, key).value);
    }
  }

  /** After a rebuild, each distribution adds up to the repository's commit count, the
      figure the module's own entry point prints as the total. */
  lemma StatisticsAddUp(s: Store, repoId: nat, k: PeriodKind)
    requires Valid(s)
    requires exists i :: 0 <= i < |s.repos| && s.repos[i].id == repoId
    ensures var st := GetCommitStatistics(UpdateCommitSummaries(s, repoId), repoId);
      st.Some? && MapTotal(DistributionOf(st.value, k), FirstValue(k), EndValue(k)) == st.value.totalCommits
  {
    var u := UpdateCommitSummaries(s, repoId);
    assert u.repos == s.repos && u.commits == s.commits;
    var d := Distribution(u.summaries, repoId, k);
    StatisticsReportDistribution(u, repoId, k);
    DistributionIsBuckets(s, repoId, k);
    MapTotalOfBuckets(d, s.commits, repoId, k, FirstValue(k), EndValue(k));
    BucketsCoverCommits(s.commits, repoId, k);
  }

  /** After a rebuild, over the visited period values the distribution is the bucket
      sizes. */
  lemma DistributionIsBuckets(s: Store, repoId: nat, k: PeriodKind)
    requires UniqueKeys(s.summaries)
    ensures var d := Distribution(UpdateCommitSummaries(s, repoId).summaries, repoId, k);
      && (forall w :: FirstValue(k) <= w < EndValue(k) ==> (w in d <==> Bucket(s.commits, repoId, k, w) != []))
      && (forall w :: FirstValue(k) <= w < EndValue(k) && w in d ==> d[w] == |Bucket(s.commits, repoId, k, w)|)
  {
    var d := Distribution(UpdateCommitSummaries(s, repoId).summaries, repoId, k);
    forall w | FirstValue(k) <= w < EndValue(k)
      ensures (w in d <==> Bucket(s.commits, repoId, k, w) != [])
      ensures w in d ==> d[w] == |Bucket(s.commits, repoId, k, w)|
    {
      DistributionAfterUpdate(s, repoId, k, w);
      assert PeriodInRange(k, w);
    }
  }

  // ---------------------------------------------------------------------------
  // import_commit_data_from_files

  /** One item of a data file as the import writes it: the row's key and its count. */
  datatype Entry = Entry(key: SummaryKey, count: int)

  /** A loaded file's records as entries of the given period type. */
  function Entries(repoId: nat, k: PeriodKind, items: seq<CommitCount>): (es: seq<Entry>)
    ensures |es| == |items|
    ensures forall i :: 0 <= i < |items| ==>
      es[i] == Entry(SummaryKey(repoId, k, items[i].period), items[i].count)
  {
    seq(|items|, i requires 0 <= i < |items| => Entry(SummaryKey(repoId, k, items[i].period), items[i].count))
  }

  /** The count the last entry with the key sets, if any entry has it. */
  function LastCount(entries: seq<Entry>, key: SummaryKey): (r: Option<int>)
    ensures r.Some? ==> exists i :: 0 <= i < |entries| && entries[i] == Entry(key, r.value)
    ensures r.None? <==> forall i :: 0 <= i < |entries| ==> entries[i].key != key
  {
    if entries == [] then None
    else match LastCount(entries[1..], key)
      case Some(c) => Some(c)
      case None => if entries[0].key == key then Some(entries[0].count) else None
  }

  /** A row the import creates: only the count is given. */
  function NewSummary(e: Entry): Summary {
    Summary(e.key, e.count, 0, 0, 0, None, None)
  }

  function FindSummary(rows: seq<Summary>, key: SummaryKey, i: nat): (r: Option<nat>)
    requires i <= |rows|
    ensures r.Some? ==> i <= r.value < |rows| && rows[r.value].key == key
    ensures r.None? <==> forall j :: i <= j < |rows| ==> rows[j].key != key
  {
    FindFirst(rows, (x: Summary) => x.key == key, i)
  }

  /** The session during the import: the committed rows, some with a changed count,
      and the new rows added to it. */
  datatype Staging = Staging(rows: seq<Summary>, added: seq<Summary>)

  /** The rows are those before in the same order, with every column except the count
      as it was. */
  predicate OnlyCountsChanged(after: seq<Summary>, before: seq<Summary>) {
    |after| == |before| && forall j :: 0 <= j < |before| ==> after[j] == before[j].(count := after[j].count)
  }

  /** One item. The lookup sees committed rows only: the session does not flush
      before queries, so rows added earlier in the same import stay invisible. */
  function Upsert(st: Staging, e: Entry): (r: Staging)
    ensures OnlyCountsChanged(r.rows, st.rows)
    ensures HasSummary(st.rows, e.key) ==> r.added == st.added
    ensures !HasSummary(st.rows, e.key) ==> r.rows == st.rows && r.added == st.added + [NewSummary(e)]
  {
    match FindSummary(st.rows, e.key, 0)
    case Some(i) => st.(rows := st.rows[i := st.rows[i].(count := e.count)])
    case None => st.(added := st.added + [NewSummary(e)])
  }

  /** The items one after another. Provided the committed keys are unique (which
      `uq_repo_period` ensures), this re-tallies the committed rows and appends the
      fresh ones. */
  function Stage(st: Staging, entries: seq<Entry>): (r: Staging)
    ensures UniqueKeys(st.rows) ==>
      r == Staging(RetallyAll(st.rows, entries), st.added + Fresh(entries, st.rows))
    decreases |entries|
  {
    if entries == [] then
      assert RetallyAll(st.rows, entries) == st.rows;
      st
    else
      UpsertRetally(st, entries);
      Stage(Upsert(st, entries[0]), entries[1..])
  }

  datatype ImportOutcome = Imported | RolledBack

  /** SQLite keeps an INTEGER in 64 bits: binding a Python int outside this range
      raises `OverflowError`. */
  const MinInt64: int := -0x8000_0000_0000_0000
  const MaxInt64: int := 0x7fff_ffff_ffff_ffff

  predicate FitsInt64(v: int) {
    MinInt64 <= v <= MaxInt64
  }

  /** Every integer the import hands to SQLite fits: each item's period, bound by its
      lookup; the count of each new row; and the last count given for a committed row,
      the only one of its counts that the commit writes. */
  predicate ImportFits(rows: seq<Summary>, entries: seq<Entry>) {
    && (forall i :: 0 <= i < |entries| ==> FitsInt64(entries[i].key.value))
    && (forall i :: 0 <= i < |entries| && !HasSummary(rows, entries[i].key) ==> FitsInt64(entries[i].count))
    && (forall j :: 0 <= j < |rows| && LastCount(entries, rows[j].key).Some? ==>
          FitsInt64(LastCount(entries, rows[j].key).value))
  }

  /** The import's single commit. Two new rows with the same key break
      `uq_repo_period`, and an integer that does not fit raises; either way the whole
      import is rolled back. */
  function ImportEntries(s: Store, entries: seq<Entry>): (r: (Store, ImportOutcome))
    ensures r.0.repos == s.repos && r.0.commits == s.commits
    ensures r.1 == RolledBack ==> r.0 == s
  {
    var st := Stage(Staging(s.summaries, []), entries);
    if UniqueKeys(st.added) && ImportFits(s.summaries, entries) then (s.(summaries := st.rows + st.added), Imported)
    else (s, RolledBack)
  }

  /** A file's records, or none when it is missing or does not validate: the import
      reports the error and goes on with the next file. As written, the hour file never
      gives a record. */
  function Loaded(k: PeriodKind, content: Option<string>, loader: Loader): (recs: seq<CommitCount>)
    ensures forall i :: 0 <= i < |recs| ==> recs[i].kind == k
    ensures loader == AsWritten && k == Hour ==> recs == []
    ensures LoadWith(loader, ImportDataPath(k), k, content).Failure? ==> recs == []
  {
    ImportPathKind(k);
    NoKindLoadsNothing(ImportDataPath(k), content);
    match LoadWith(loader, ImportDataPath(k), k, content)
    case Success(recs) => recs
    case Failure(_) => []
  }

  /** `import_commit_data_from_files` with the three files' contents (`None` for a
      missing file). The repository is created first and committed on its own, so it
      stays even when the import itself is rolled back. The source reads its files
      `AsWritten`. */
  function ImportCommitDataFromFiles(
    s: Store, repoName: string, hourFile: Option<string>, dayFile: Option<string>, monthFile: Option<string>,
    loader: Loader)
    : (r: (Store, ImportOutcome))
    ensures HasRepository(r.0.repos, repoName)
    ensures r.0.repos == GetOrCreateRepository(s, repoName, None).0.repos
    ensures r.1 == RolledBack ==> r.0 == GetOrCreateRepository(s, repoName, None).0
  {
    var (s1, repo) := GetOrCreateRepository(s, repoName, None);
    assert exists i :: 0 <= i < |s1.repos| && s1.repos[i] == repo;
    ImportEntries(s1, Entries(repo.id, Hour, Loaded(Hour, hourFile, loader))
                      + Entries(repo.id, Day, Loaded(Day, dayFile, loader))
                      + Entries(repo.id, Month, Loaded(Month, monthFile, loader)))
  }

  // What a staged import amounts to

  /** A committed row after the import: the last count given for its key, all other
      columns as they were. */
  function Retally(x: Summary, entries: seq<Entry>): Summary {
    match LastCount(entries, x.key)
    case Some(c) => x.(count := c)
    case None => x
  }

  function RetallyAll(rows: seq<Summary>, entries: seq<Entry>): (r: seq<Summary>)
    ensures |r| == |rows| && forall i :: 0 <= i < |rows| ==> r[i] == Retally(rows[i], entries)
  {
    seq(|rows|, i requires 0 <= i < |rows| => Retally(rows[i], entries))
  }

  /** The new rows: one per entry whose key has no committed row, in file order. */
  function Fresh(entries: seq<Entry>, rows: seq<Summary>): seq<Summary> {
    if entries == [] then []
    else (if HasSummary(rows, entries[0].key) then [] else [NewSummary(entries[0])]) + Fresh(entries[1..], rows)
  }

  predicate SameKeys(a: seq<Summary>, b: seq<Summary>) {
    |a| == |b| && forall i :: 0 <= i < |a| ==> a[i].key == b[i].key
  }

  lemma {:induction false} FreshSameKeys(entries: seq<Entry>, a: seq<Summary>, b: seq<Summary>)
    requires SameKeys(a, b)
    ensures Fresh(entries, a) == Fresh(entries, b)
  {
    if entries != [] {
      FreshSameKeys(entries[1..], a, b);
      assert HasSummary(a, entries[0].key) ==> HasSummary(b, entries[0].key);
      assert HasSummary(b, entries[0].key) ==> HasSummary(a, entries[0].key);
    }
  }

  lemma LastCountCons(e: Entry, es: seq<Entry>, key: SummaryKey)
    ensures LastCount([e] + es, key) ==
      if LastCount(es, key).Some? then LastCount(es, key)
      else if e.key == key then Some(e.count) else None
  {
    assert ([e] + es)[0] == e && ([e] + es)[1..] == es;
  }

  /** An entry whose key has a committed row changes that row's count and nothing
      else; afterwards it no longer matters for the rows or for the fresh ones. */
  lemma UpsertExisting(rows: seq<Summary>, e: Entry, es: seq<Entry>, i: nat)
    requires UniqueKeys(rows) && i < |rows| && rows[i].key == e.key
    ensures var rows' := rows[i := rows[i].(count := e.count)];
      && UniqueKeys(rows')
      && RetallyAll(rows', es) == RetallyAll(rows, [e] + es)
      && Fresh(es, rows') == Fresh([e] + es, rows)
  {
    var rows' := rows[i := rows[i].(count := e.count)];
    assert SameKeys(rows', rows);
    FreshSameKeys(es, rows', rows);
    assert HasSummary(rows, e.key);
    assert ([e] + es)[0] == e && ([e] + es)[1..] == es;
    forall j | 0 <= j < |rows| ensures Retally(rows'[j], es) == Retally(rows[j], [e] + es) {
      LastCountCons(e, es, rows[j].key);
    }
  }

  /** An entry without a committed row adds a fresh row and leaves the rows alone. */
  lemma UpsertNew(rows: seq<Summary>, e: Entry, es: seq<Entry>)
    requires forall j :: 0 <= j < |rows| ==> rows[j].key != e.key
    ensures RetallyAll(rows, es) == RetallyAll(rows, [e] + es)
    ensures [NewSummary(e)] + Fresh(es, rows) == Fresh([e] + es, rows)
  {
    assert !HasSummary(rows, e.key);
    assert ([e] + es)[0] == e && ([e] + es)[1..] == es;
    forall j | 0 <= j < |rows| ensures Retally(rows[j], es) == Retally(rows[j], [e] + es) {
      LastCountCons(e, es, rows[j].key);
    }
  }

  /** The first item, staged before the rest, leaves what the rest re-tally and add
      equal to what all the items would. */
  lemma UpsertRetally(st: Staging, entries: seq<Entry>)
    requires entries != []
    ensures var u := Upsert(st, entries[0]);
      UniqueKeys(st.rows) ==>
        && UniqueKeys(u.rows)
        && RetallyAll(u.rows, entries[1..]) == RetallyAll(st.rows, entries)
        && u.added + Fresh(entries[1..], u.rows) == st.added + Fresh(entries, st.rows)
  {
    var e, es := entries[0], entries[1..];
    assert entries == [e] + es;
    if UniqueKeys(st.rows) {
      match FindSummary(st.rows, e.key, 0)
      case Some(i) =>
        UpsertExisting(st.rows, e, es, i);
      case None =>
        UpsertNew(st.rows, e, es);
        assert st.added + [NewSummary(e)] + Fresh(es, st.rows) == st.added + ([NewSummary(e)] + Fresh(es, st.rows));
    }
  }

  lemma {:induction false} FreshRows(entries: seq<Entry>, rows: seq<Summary>, x: Summary)
    requires x in Fresh(entries, rows)
    ensures !HasSummary(rows, x.key) && x == NewSummary(Entry(x.key, x.count))
    ensures exists i :: 0 <= i < |entries| && entries[i] == Entry(x.key, x.count)
  {
    var e, es := entries[0], entries[1..];
    if x != NewSummary(e) || HasSummary(rows, e.key) {
      FreshRows(es, rows, x);
      var i :| 0 <= i < |es| && es[i] == Entry(x.key, x.count);
      assert entries[i + 1] == es[i];
    } else {
      assert entries[0] == Entry(x.key, x.count);
    }
  }

  /** A key without a committed row gets a fresh row with its last count. */
  lemma {:induction false} FreshHasLast(entries: seq<Entry>, rows: seq<Summary>, key: SummaryKey, c: int)
    requires !HasSummary(rows, key) && LastCount(entries, key) == Some(c)
    ensures NewSummary(Entry(key, c)) in Fresh(entries, rows)
  {
    var e, es := entries[0], entries[1..];
    if LastCount(es, key).Some? {
      FreshHasLast(es, rows, key, c);
    }
  }

  /** When the fresh rows have unique keys, each carries its key's last count. */
  lemma {:induction false} FreshUniqueLast(entries: seq<Entry>, rows: seq<Summary>, x: Summary)
    requires UniqueKeys(Fresh(entries, rows)) && x in Fresh(entries, rows)
    ensures LastCount(entries, x.key) == Some(x.count)
  {
    var e, es := entries[0], entries[1..];
    var head := if HasSummary(rows, e.key) then [] else [NewSummary(e)];
    var tail := Fresh(es, rows);
    var f := head + tail;
    assert forall i :: 0 <= i < |tail| ==> tail[i] == f[i + |head|];
    assert UniqueKeys(tail);
    LastCountCons(e, es, x.key);
    if x in tail {
      FreshUniqueLast(es, rows, x);
    } else {
      assert x == f[0] == NewSummary(e);
      assert forall j :: 0 <= j < |tail| ==> tail[j].key != x.key by {
        assert forall j :: 0 <= j < |tail| ==> f[j + 1] == tail[j];
      }
      FreshCoversKeys(es, rows, x.key);
    }
  }

  /** A key without a committed row that no fresh row carries occurs in no entry. */
  lemma {:induction false} FreshCoversKeys(entries: seq<Entry>, rows: seq<Summary>, key: SummaryKey)
    requires !HasSummary(rows, key)
    requires forall j :: 0 <= j < |Fresh(entries, rows)| ==> Fresh(entries, rows)[j].key != key
    ensures forall i :: 0 <= i < |entries| ==> entries[i].key != key
  {
    if entries != [] {
      var e, es := entries[0], entries[1..];
      var head := if HasSummary(rows, e.key) then [] else [NewSummary(e)];
      var f := head + Fresh(es, rows);
      assert Fresh(entries, rows) == f;
      assert forall j :: 0 <= j < |Fresh(es, rows)| ==> Fresh(es, rows)[j] == f[j + |head|];
      FreshCoversKeys(es, rows, key);
      assert e.key != key by {
        if !HasSummary(rows, e.key) {
          assert f[0] == NewSummary(e);
        }
      }
      forall i | 0 <= i < |entries|
        ensures entries[i].key != key
      {
        if i > 0 {
          assert entries[i] == es[i - 1];
        }
      }
    }
  }

  lemma {:induction false} FreshNone(entries: seq<Entry>, rows: seq<Summary>)
    requires forall i :: 0 <= i < |entries| ==> HasSummary(rows, entries[i].key)
    ensures Fresh(entries, rows) == []
  {
    if entries != [] {
      assert forall i :: 0 <= i < |entries[1..]| ==> entries[1..][i] == entries[i + 1];
      FreshNone(entries[1..], rows);
      assert HasSummary(rows, entries[0].key);
    }
  }

  /** The import commits exactly when no key without a committed row occurs twice in
      the files and every integer it writes fits; it then re-tallies the committed rows
      and appends the fresh ones. */
  lemma ImportCommitsIff(s: Store, entries: seq<Entry>)
    requires UniqueKeys(s.summaries)
    ensures var (r, outcome) := ImportEntries(s, entries);
      && (outcome == Imported <==> UniqueKeys(Fresh(entries, s.summaries)) && ImportFits(s.summaries, entries))
      && (outcome == Imported ==>
            r.summaries == RetallyAll(s.summaries, entries) + Fresh(entries, s.summaries))
  {
    assert [] + Fresh(entries, s.summaries) == Fresh(entries, s.summaries);
  }

  /** Either way the import keeps `uq_repo_period`. */
  lemma ImportKeepsKeysUnique(s: Store, entries: seq<Entry>)
    requires UniqueKeys(s.summaries)
    ensures UniqueKeys(ImportEntries(s, entries).0.summaries)
  {
    ImportCommitsIff(s, entries);
    if ImportEntries(s, entries).1 == Imported {
      var rows, f := RetallyAll(s.summaries, entries), Fresh(entries, s.summaries);
      forall i, j | 0 <= i < |rows| && 0 <= j < |f| ensures rows[i].key != f[j].key {
        FreshRows(entries, s.summaries, f[j]);
        assert rows[i].key == s.summaries[i].key;
      }
      UniqueAppend(rows, f);
    }
  }

  /** After a committed import every key in the files has a row holding the last
      count the files give for it; committed rows change their count and nothing else. */
  lemma ImportSetsLastCounts(s: Store, entries: seq<Entry>, key: SummaryKey, c: int)
    requires UniqueKeys(s.summaries)
    requires ImportEntries(s, entries).1 == Imported
    requires LastCount(entries, key) == Some(c)
    ensures exists x :: x in ImportEntries(s, entries).0.summaries && x.key == key && x.count == c
  {
    ImportCommitsIff(s, entries);
    var rows, f := RetallyAll(s.summaries, entries), Fresh(entries, s.summaries);
    if i :| 0 <= i < |s.summaries| && s.summaries[i].key == key {
      assert rows[i] in rows + f;
    } else {
      FreshHasLast(entries, s.summaries, key, c);
      assert NewSummary(Entry(key, c)) in rows + f;
    }
  }

  /** Importing the same files again after a committed import changes nothing. */
  lemma ImportIdempotent(s: Store, entries: seq<Entry>)
    requires UniqueKeys(s.summaries)
    requires ImportEntries(s, entries).1 == Imported
    ensures ImportEntries(ImportEntries(s, entries).0, entries) == ImportEntries(s, entries)
  {
    var s1 := ImportEntries(s, entries).0;
    ImportCommitsIff(s, entries);
    ImportKeepsKeysUnique(s, entries);
    var all := RetallyAll(s.summaries, entries) + Fresh(entries, s.summaries);
    assert s1.summaries == all;
    ImportCoversEntries(s.summaries, entries);
    FreshNone(entries, all);
    FitsAgain(s.summaries, entries, all);
    ImportCommitsIff(s1, entries);
    RetallyAfterImport(s, entries);
    assert all + [] == all;
  }

  /** The last count given for a key fits when the first import's integers did: it is
      either a committed row's last count or the count of an entry with a new key. */
  lemma LastCountFits(rows: seq<Summary>, entries: seq<Entry>, key: SummaryKey)
    requires ImportFits(rows, entries) && LastCount(entries, key).Some?
    ensures FitsInt64(LastCount(entries, key).value)
  {
    if j :| 0 <= j < |rows| && rows[j].key == key {
      assert LastCount(entries, rows[j].key).Some?;
    } else {
      var i :| 0 <= i < |entries| && entries[i] == Entry(key, LastCount(entries, key).value);
      assert !HasSummary(rows, entries[i].key);
    }
  }

  /** Once every key has a row, only the periods and the last counts are written, and
      these fit as they did the first time. */
  lemma FitsAgain(rows: seq<Summary>, entries: seq<Entry>, all: seq<Summary>)
    requires ImportFits(rows, entries)
    requires forall i :: 0 <= i < |entries| ==> HasSummary(all, entries[i].key)
    ensures ImportFits(all, entries)
  {
    forall j | 0 <= j < |all| && LastCount(entries, all[j].key).Some?
      ensures FitsInt64(LastCount(entries, all[j].key).value)
    {
      LastCountFits(rows, entries, all[j].key);
    }
  }

  /** After the import every key in the files has a row. */
  lemma ImportCoversEntries(rows: seq<Summary>, entries: seq<Entry>)
    ensures forall i :: 0 <= i < |entries| ==>
      HasSummary(RetallyAll(rows, entries) + Fresh(entries, rows), entries[i].key)
  {
    forall i | 0 <= i < |entries|
      ensures HasSummary(RetallyAll(rows, entries) + Fresh(entries, rows), entries[i].key)
    {
      KeyCovered(rows, entries, entries[i].key);
    }
  }

  lemma KeyCovered(rows: seq<Summary>, entries: seq<Entry>, key: SummaryKey)
    requires LastCount(entries, key).Some?
    ensures HasSummary(RetallyAll(rows, entries) + Fresh(entries, rows), key)
  {
    var r, f := RetallyAll(rows, entries), Fresh(entries, rows);
    if HasSummary(rows, key) {
      var i :| 0 <= i < |rows| && rows[i].key == key;
      assert (r + f)[i] == r[i];
    } else {
      var x := NewSummary(Entry(key, LastCount(entries, key).value));
      FreshHasLast(entries, rows, key, x.count);
      var j :| 0 <= j < |f| && f[j] == x;
      assert (r + f)[|r| + j] == x;
    }
  }

  /** After a committed import each row already holds its key's last count, so a second
      re-tally changes nothing. */
  lemma RetallyAfterImport(s: Store, entries: seq<Entry>)
    requires UniqueKeys(s.summaries)
    requires ImportEntries(s, entries).1 == Imported
    ensures var all := RetallyAll(s.summaries, entries) + Fresh(entries, s.summaries);
      RetallyAll(all, entries) == all
  {
    ImportCommitsIff(s, entries);
    RetallyTwice(s.summaries, entries);
  }

  lemma RetallyTwice(committed: seq<Summary>, entries: seq<Entry>)
    requires UniqueKeys(Fresh(entries, committed))
    ensures var all := RetallyAll(committed, entries) + Fresh(entries, committed);
      RetallyAll(all, entries) == all
  {
    var rows, f := RetallyAll(committed, entries), Fresh(entries, committed);
    var all := rows + f;
    forall j | 0 <= j < |all| ensures Retally(all[j], entries) == all[j] {
      if j < |rows| {
        assert all[j] == rows[j];
      } else {
        assert all[j] == f[j - |rows|] && all[j] in f;
        FreshUniqueLast(entries, committed, all[j]);
      }
    }
  }

  /** A file that fails to load counts as missing: the import goes on with the other
      files exactly as if it were absent. */
  lemma BrokenFileSkipped(s: Store, repoName: string, hourFile: Option<string>, dayFile: Option<string>,
                          monthFile: Option<string>, loader: Loader)
    ensures LoadWith(loader, ImportDataPath(Day), Day, dayFile).Failure? ==>
      ImportCommitDataFromFiles(s, repoName, hourFile, dayFile, monthFile, loader)
        == ImportCommitDataFromFiles(s, repoName, hourFile, None, monthFile, loader)
    ensures LoadWith(loader, ImportDataPath(Month), Month, monthFile).Failure? ==>
      ImportCommitDataFromFiles(s, repoName, hourFile, dayFile, monthFile, loader)
        == ImportCommitDataFromFiles(s, repoName, hourFile, dayFile, None, loader)
    ensures LoadWith(loader, ImportDataPath(Hour), Hour, hourFile).Failure? ==>
      ImportCommitDataFromFiles(s, repoName, hourFile, dayFile, monthFile, loader)
        == ImportCommitDataFromFiles(s, repoName, None, dayFile, monthFile, loader)
  {
  }

  /** As written, the hour file is never imported: whatever it holds, the import is the
      one without it. */
  lemma HourFileNeverImported(s: Store, repoName: string, hourFile: Option<string>, dayFile: Option<string>,
                              monthFile: Option<string>)
    ensures ImportCommitDataFromFiles(s, repoName, hourFile, dayFile, monthFile, AsWritten)
         == ImportCommitDataFromFiles(s, repoName, None, dayFile, monthFile, AsWritten)
  {
  }

  /** Without an hour file the two loaders import the same. */
  lemma LoadersAgreeWithoutHourFile(s: Store, repoName: string, dayFile: Option<string>, monthFile: Option<string>)
    ensures ImportCommitDataFromFiles(s, repoName, None, dayFile, monthFile, AsWritten)
         == ImportCommitDataFromFiles(s, repoName, None, dayFile, monthFile, Corrected)
  {
    LoadersAgreeBeyondHours(Day, dayFile);
    LoadersAgreeBeyondHours(Month, monthFile);
  }

  /** With the corrected loader, the hour file's records are imported, in file order,
      ahead of the day and month files, which load as they would as written. */
  lemma HourFileImportedWhenCorrected(s: Store, repoName: string, hourFile: Option<string>,
                                      recs: seq<CommitCount>, dayFile: Option<string>, monthFile: Option<string>)
    requires LoadCommitData(ImportDataPath(Hour), Hour, hourFile) == Success(recs)
    ensures var created := GetOrCreateRepository(s, repoName, None);
      ImportCommitDataFromFiles(s, repoName, hourFile, dayFile, monthFile, Corrected)
        == ImportEntries(created.0, Entries(created.1.id, Hour, recs)
                                    + Entries(created.1.id, Day, Loaded(Day, dayFile, AsWritten))
                                    + Entries(created.1.id, Month, Loaded(Month, monthFile, AsWritten)))
  {
    LoadersAgreeBeyondHours(Day, dayFile);
    LoadersAgreeBeyondHours(Month, monthFile);
  }

  /** Day and month files load alike under either loader. */
  lemma LoadersAgreeBeyondHours(k: PeriodKind, content: Option<string>)
    requires k != Hour
    ensures Loaded(k, content, Corrected) == Loaded(k, content, AsWritten)
  {
    CorrectionAgreesForDayAndMonth(k, content);
  }

  /** The rebuild and the import keep every constraint of the store. */
  lemma OperationsKeepValid(s: Store, repoId: nat, repoName: string,
                            hourFile: Option<string>, dayFile: Option<string>, monthFile: Option<string>)
    requires Valid(s)
    ensures Valid(UpdateCommitSummaries(s, repoId))
    ensures Valid(ImportCommitDataFromFiles(s, repoName, hourFile, dayFile, monthFile, AsWritten).0)
    ensures Valid(ImportCommitDataFromFiles(s, repoName, hourFile, dayFile, monthFile, Corrected).0)
  {
    UpdateKeepsKeysUnique(s, repoId);
    var (s1, repo) := GetOrCreateRepository(s, repoName, None);
    forall loader: Loader
      ensures Valid(ImportCommitDataFromFiles(s, repoName, hourFile, dayFile, monthFile, loader).0)
    {
      ImportKeepsKeysUnique(s1, Entries(repo.id, Hour, Loaded(Hour, hourFile, loader))
                                + Entries(repo.id, Day, Loaded(Day, dayFile, loader))
                                + Entries(repo.id, Month, Loaded(Month, monthFile, loader)));
    }
  }

  // Worked cases

  /** The import test: one record per file into a table without summaries yields
      exactly three rows carrying the file counts. */
  lemma ImportThreeFiles(s: Store, r: nat)
    requires s.summaries == []
    ensures var entries := Entries(r, Hour, [CommitCount(8, 10, Hour)])
                         + Entries(r, Day, [CommitCount(1, 5, Day)])
                         + Entries(r, Month, [CommitCount(12, 20, Month)]);
      ImportEntries(s, entries) == (s.(summaries := [
        Summary(SummaryKey(r, Hour, 8), 10, 0, 0, 0, None, None),
        Summary(SummaryKey(r, Day, 1), 5, 0, 0, 0, None, None),
        Summary(SummaryKey(r, Month, 12), 20, 0, 0, 0, None, None)]), Imported)
  {
    var e1, e2, e3 := Entry(SummaryKey(r, Hour, 8), 10), Entry(SummaryKey(r, Day, 1), 5), Entry(SummaryKey(r, Month, 12), 20);
    var entries := Entries(r, Hour, [CommitCount(8, 10, Hour)])
                 + Entries(r, Day, [CommitCount(1, 5, Day)])
                 + Entries(r, Month, [CommitCount(12, 20, Month)]);
    assert entries == [e1, e2, e3];
    assert entries[1..] == [e2, e3] && [e2, e3][1..] == [e3] && [e3][1..] == [];
    assert Fresh([e3], []) == [NewSummary(e3)];
    assert Fresh([e2, e3], []) == [NewSummary(e2), NewSummary(e3)];
    var f := [NewSummary(e1), NewSummary(e2), NewSummary(e3)];
    assert Fresh(entries, []) == f;
    assert UniqueKeys(f);
    assert RetallyAll([], entries) + f == f;
    assert ImportFits([], entries);
    ImportCommitsIff(s, entries);
  }

  /** A key with no committed row given twice by the files adds two new rows with
      the same key: the commit fails and nothing of the import remains. */
  lemma RepeatedNewKeyRollsBack(s: Store, key: SummaryKey, c1: int, c2: int)
    requires UniqueKeys(s.summaries) && !HasSummary(s.summaries, key)
    ensures ImportEntries(s, [Entry(key, c1), Entry(key, c2)]) == (s, RolledBack)
  {
    var entries := [Entry(key, c1), Entry(key, c2)];
    ImportCommitsIff(s, entries);
    assert entries[1..] == [Entry(key, c2)] && [Entry(key, c2)][1..] == [];
    assert Fresh([Entry(key, c2)], s.summaries) == [NewSummary(Entry(key, c2))];
    var f := Fresh(entries, s.summaries);
    assert f == [NewSummary(entries[0]), NewSummary(entries[1])];
    assert f[0].key == f[1].key;
  }

  /** The same key given twice with a committed row: the row ends with the later count.
      The earlier count is never written, so only the later one and the period must fit. */
  lemma RepeatedExistingKeyKeepsLast(s: Store, key: SummaryKey, c1: int, c2: int, i: nat)
    requires UniqueKeys(s.summaries) && i < |s.summaries| && s.summaries[i].key == key
    ensures ImportEntries(s, [Entry(key, c1), Entry(key, c2)]).0.summaries
         == if FitsInt64(key.value) && FitsInt64(c2) then s.summaries[i := s.summaries[i].(count := c2)]
            else s.summaries
  {
    var entries := [Entry(key, c1), Entry(key, c2)];
    assert entries[1..] == [Entry(key, c2)] && [Entry(key, c2)][1..] == [];
    assert HasSummary(s.summaries, key);
    assert Fresh([Entry(key, c2)], s.summaries) == [];
    assert Fresh(entries, s.summaries) == [];
    assert LastCount(entries, key) == Some(c2);
    forall j | 0 <= j < |s.summaries| && j != i ensures LastCount(entries, s.summaries[j].key) == None {
      assert s.summaries[j].key != key;
    }
    assert ImportFits(s.summaries, entries) <==> FitsInt64(key.value) && FitsInt64(c2) by {
      assert LastCount(entries, s.summaries[i].key) == Some(c2);
    }
    ImportCommitsIff(s, entries);
  }

  /** A single item with a new key is imported exactly when its period and count fit
      in 64 bits. */
  lemma NewRowFitsIff(s: Store, key: SummaryKey, c: int)
    requires UniqueKeys(s.summaries) && !HasSummary(s.summaries, key)
    ensures ImportEntries(s, [Entry(key, c)]).1 == Imported <==> FitsInt64(key.value) && FitsInt64(c)
  {
  }

  /** The statistics test: two hour rows and one day row give these distributions and
      no monthly one; with an empty commit table the total is 0. */
  lemma StatisticsOfThreeRows(repo: Repository)
    requires repo.id == 1
    ensures var s := Store([repo], [], [
        Summary(SummaryKey(1, Hour, 10), 5, 0, 0, 0, None, None),
        Summary(SummaryKey(1, Hour, 11), 15, 0, 0, 0, None, None),
        Summary(SummaryKey(1, Day, 3), 20, 0, 0, 0, None, None)]);
      GetCommitStatistics(s, 1) == Some(Statistics(repo.name, 0,
        map[10 := 5, 11 := 15], map[3 := 20], map[], repo.firstCommitDate, repo.lastCommitDate))
  {
    var rows := [
        Summary(SummaryKey(1, Hour, 10), 5, 0, 0, 0, None, None),
        Summary(SummaryKey(1, Hour, 11), 15, 0, 0, 0, None, None),
        Summary(SummaryKey(1, Day, 3), 20, 0, 0, 0, None, None)];
    assert rows[..2] == rows[..3][..2] && rows[..2][..1] == rows[..1] && rows[..1][..0] == [];
    assert Distribution(rows[..1], 1, Hour) == map[10 := 5];
    assert Distribution(rows[..2], 1, Hour) == map[10 := 5, 11 := 15];
    assert Distribution(rows[..1], 1, Day) == map[];
    assert Distribution(rows[..2], 1, Day) == map[];
    assert Distribution(rows[..1], 1, Month) == map[];
    assert Distribution(rows[..2], 1, Month) == map[];
  }
}

=== FILE: json.dfy ===
/** The JSON-shaped Python values (dicts, lists, strings, ints, booleans, None)
    that the schema.org helpers read. Dicts keep their insertion order, as Python's do;
    floats are not modelled. */
module Json {
  import opened Wrappers
  import Text

  datatype Json =
    | JNull
    | JBool(b: bool)
    | JInt(i: int)
    | JStr(s: string)
    | JArr(items: seq<Json>)
    | JObj(fields: seq<(string, Json)>)

  /** `d.get(key)`: the value bound to `key`, the first binding when a key repeats. */
  function Get(fields: seq<(string, Json)>, key: string): (r: Option<Json>)
    ensures r.Some? <==> exists i :: 0 <= i < |fields| && fields[i].0 == key
  {
    GetFrom(fields, key, 0)
  }

  /** The lookup among the entries from position `i` on. */
  function GetFrom(fields: seq<(string, Json)>, key: string, i: nat): (r: Option<Json>)
    requires i <= |fields|
    ensures r.Some? <==> exists j :: i <= j < |fields| && fields[j].0 == key
    ensures r.Some? ==> exists j :: i <= j < |fields| && fields[j] == (key, r.value)
    decreases |fields| - i
  {
    if i == |fields| then None
    else if fields[i].0 == key then Some(fields[i].1)
    else GetFrom(fields, key, i + 1)
  }

  predicate HasKey(fields: seq<(string, Json)>, key: string) {
    Get(fields, key).Some?
  }

  /** Entries placed after others are looked up as they were on their own, once the
      search has passed the others. */
  lemma {:induction false} GetFromShift(a: seq<(string, Json)>, b: seq<(string, Json)>, key: string, j: nat)
    requires j <= |b|
    ensures GetFrom(a + b, key, |a| + j) == GetFrom(b, key, j)
    decreases |b| - j
  {
    if j < |b| {
      assert (a + b)[|a| + j] == b[j];
      GetFromShift(a, b, key, j + 1);
    }
  }

  lemma {:induction false} GetFromAppend(a: seq<(string, Json)>, b: seq<(string, Json)>, key: string, i: nat)
    requires i <= |a|
    ensures GetFrom(a + b, key, i) == if GetFrom(a, key, i).Some? then GetFrom(a, key, i) else GetFrom(b, key, 0)
    decreases |a| - i
  {
    if i == |a| {
      GetFromShift(a, b, key, 0);
    } else {
      assert (a + b)[i] == a[i];
      GetFromAppend(a, b, key, i + 1);
    }
  }

  /** The lookup finds the first entry with the key. */
  lemma {:induction false} GetFromAt(fields: seq<(string, Json)>, key: string, i: nat, k: nat)
    requires i <= k < |fields| && fields[k].0 == key
    requires forall j :: i <= j < k ==> fields[j].0 != key
    ensures GetFrom(fields, key, i) == Some(fields[k].1)
    decreases k - i
  {
    if i < k {
      GetFromAt(fields, key, i + 1, k);
    }
  }

  lemma GetAt(fields: seq<(string, Json)>, key: string, k: nat)
    requires k < |fields| && fields[k].0 == key
    requires forall j :: 0 <= j < k ==> fields[j].0 != key
    ensures Get(fields, key) == Some(fields[k].1)
  {
    GetFromAt(fields, key, 0, k);
  }

  /** Looking a key up in two consecutive runs of entries: the first run wins. */
  lemma GetAppend(a: seq<(string, Json)>, b: seq<(string, Json)>, key: string)
    ensures Get(a + b, key) == if HasKey(a, key) then Get(a, key) else Get(b, key)
  {
    GetFromAppend(a, b, key, 0);
  }

  function Keys(fields: seq<(string, Json)>): (ks: seq<string>)
    ensures |ks| == |fields|
    ensures forall i :: 0 <= i < |fields| ==> ks[i] == fields[i].0
  {
    seq(|fields|, i requires 0 <= i < |fields| => fields[i].0)
  }

  /** Python's `bool(v)`: empty containers, empty strings, 0, False and None are false. */
  predicate Truthy(v: Json) {
    match v
    case JNull => false
    case JBool(b) => b
    case JInt(i) => i != 0
    case JStr(s) => s != []
    case JArr(items) => items != []
    case JObj(fields) => fields != []
  }

  /** Python's `str(v)` for scalars; containers render as a fixed placeholder. A string
      is itself, an integer reads back with `int()`, and a boolean is `True` exactly
      when it holds. */
  function PyStr(v: Json): (r: string)
    ensures v.JStr? ==> r == v.s
    ensures v.JInt? ==> Text.ParseInt(r) == if Text.StrDigitsFit(v.i) then Some(v.i) else None
    ensures v.JBool? ==> (r == "True" <==> v.b)
    ensures v.JNull? ==> r == "None"
  {
    match v
    case JNull => "None"
    case JBool(b) => if b then "True" else "False"
    case JInt(i) => Text.IntRoundTrip(i); Text.IntToString(i)
    case JStr(s) => s
    case JArr(_) => "[...]"
    case JObj(_) => "{...}"
  }
}

=== FILE: jsonld.dfy ===
/** Reading the schema.org JSON-LD block out of a site's `index.html`, and picking the
    service entries out of its `@graph`. The page text is a parameter (`None` when the
    file does not exist), and JSON decoding is an abstract partial function. */
module JsonLd {
  import opened Wrappers
  import opened Json
  import opened Text

  const StartMarker := "<script type=\"application/ld+json\">"
  const EndMarker := "</script>"

  /** The text strictly between the first `start` and the first `end` after it;
      `None` when either is missing. */
  function Between(content: string, start: string, end: string): (r: Option<string>)
    ensures r.Some? <==> Find(content, start, 0) >= 0 && Find(content, end, Find(content, start, 0) + |start|) >= 0
  {
    var found := Find(content, start, 0);
    if found < 0 then None
    else
      var i := found + |start|;
      var j := Find(content, end, i);
      if j < 0 then None else Some(content[i..j])
  }

  /** The JSON-LD payload of a page: the text of its first block, stripped. */
  function ExtractPayload(content: string): Option<string> {
    match Between(content, StartMarker, EndMarker)
    case Some(raw) => Some(Strip(raw))
    case None => None
  }

  datatype LoadError = IndexNotFound

  /** `load_schema_from_html`: a missing file raises; a missing marker or a payload
      that does not decode gives the empty dict. */
  function LoadSchemaFromHtml(content: Option<string>, decode: string -> Option<Json>)
    : (r: Result<Json, LoadError>)
    ensures content.None? <==> r.Failure?
    ensures content.Some? && ExtractPayload(content.value).None? ==> r == Success(JObj([]))
    ensures content.Some? && ExtractPayload(content.value).Some? ==>
      r == Success(match decode(ExtractPayload(content.value).value) case Some(v) => v case None => JObj([]))
  {
    match content
    case None => Failure(IndexNotFound)
    case Some(c) =>
      match ExtractPayload(c)
      case None => Success(JObj([]))
      case Some(payload) =>
        match decode(payload)
        case Some(v) => Success(v)
        case None => Success(JObj([]))
  }

  /** `get_jsonld_script_tag`, given the JSON text of the schema. */
  function ScriptTag(json: string): string {
    StartMarker + "\n" + json + "\n" + EndMarker
  }

  // ---------------------------------------------------------------------------
  // Properties of the extraction

  /** `find` returns the first occurrence at or after the starting point. */
  lemma FindIs(s: string, pat: string, from: nat, k: nat)
    requires from <= k && OccursAt(s, pat, k)
    requires forall i :: from <= i < k ==> !OccursAt(s, pat, i)
    ensures Find(s, pat, from) == k
  {
  }

  /** Text appended after a found occurrence does not change what `find` returns. */
  lemma FindAppend(s: string, more: string, pat: string, from: nat)
    requires Find(s, pat, from) >= 0
    ensures Find(s + more, pat, from) == Find(s, pat, from)
  {
    var r := Find(s, pat, from);
    assert (s + more)[r..r + |pat|] == s[r..r + |pat|];
    forall i | from <= i < r ensures !OccursAt(s + more, pat, i) {
      assert (s + more)[i..i + |pat|] == s[i..i + |pat|];
      assert !OccursAt(s, pat, i);
    }
    FindIs(s + more, pat, from, r);
  }

  /** Script blocks after the first one are never looked at: text appended after a
      complete block leaves the payload unchanged. */
  lemma LaterBlocksIgnored(content: string, more: string, start: string, end: string)
    requires Between(content, start, end).Some?
    ensures Between(content + more, start, end) == Between(content, start, end)
  {
    var found := Find(content, start, 0);
    FindAppend(content, more, start, 0);
    var i := found + |start|;
    var j := Find(content, end, i);
    FindAppend(content, more, end, i);
    assert i <= j <= |content|;
    BetweenAt(content, start, end, i, j);
    BetweenAt(content + more, start, end, i, j);
    assert (content + more)[i..j] == content[i..j];
  }

  /** A marker starting with `<` is first found where it occurs after a stretch
      without any `<`. */
  lemma StartMarkerAt(doc: string, m: string, p: nat)
    requires m != [] && m[0] == '<' && OccursAt(doc, m, p)
    requires forall i :: 0 <= i < p ==> doc[i] != '<'
    ensures Find(doc, m, 0) == p
  {
    forall i | 0 <= i < p ensures !OccursAt(doc, m, i) {
      if i + |m| <= |doc| {
        assert doc[i..i + |m|][0] == doc[i];
      }
    }
    FindIs(doc, m, 0, p);
  }

  /** After `"\n" + json + "\n"` a newline-free marker is found right there, when `json`
      holds none: an earlier occurrence would either lie inside `json` or cover one of
      the newlines. */
  lemma EndMarkerAt(doc: string, m: string, base: nat, json: string)
    requires m != [] && '\n' !in m && !Contains(json, m)
    requires base + |json| + 2 <= |doc|
    requires doc[base..base + |json| + 2] == "\n" + json + "\n"
    requires OccursAt(doc, m, base + |json| + 2)
    ensures Find(doc, m, base) == base + |json| + 2
  {
    var mid := "\n" + json + "\n";
    var e := base + |json| + 2;
    forall k | base <= k < e ensures !OccursAt(doc, m, k) {
      if k + |m| <= |doc| {
        var o := k - base - 1;
        if k == base {
          assert doc[k..k + |m|][0] == doc[k] == mid[0];
        } else if k + |m| <= e - 1 {
          assert doc[k..k + |m|] == doc[base..e][o + 1..o + 1 + |m|];
          assert mid[1..|mid| - 1] == json;
          assert mid[o + 1..o + 1 + |m|] == mid[1..|mid| - 1][o..o + |m|];
          assert doc[k..k + |m|] == json[o..o + |m|];
          assert !OccursAt(json, m, o);
        } else {
          var t := e - 1 - k;
          assert doc[k..k + |m|][t] == doc[e - 1] == mid[|mid| - 1];
        }
      }
    }
    FindIs(doc, m, base, e);
  }

  /** A JSON text with no surrounding whitespace, wrapped in newlines, strips to itself. */
  lemma StripNewlineWrapped(json: string)
    requires json != [] && !IsSpace(json[0]) && !IsSpace(json[|json| - 1])
    ensures Strip("\n" + json + "\n") == json
  {
    StripPadded("\n", json, "\n");
  }

  /** `Between` reads the slice from the end of the first start marker to the next end
      marker. */
  lemma BetweenAt(doc: string, start: string, end: string, i: nat, j: nat)
    requires Find(doc, start, 0) >= 0 && Find(doc, start, 0) + |start| == i
    requires Find(doc, end, i) == j && i <= j
    ensures Between(doc, start, end) == Some(doc[i..j])
  {
  }

  /** Round trip: the script tag the schema helpers emit, placed in a page after any
      text without a `<`, is read back as exactly the JSON text it wraps, provided the
      JSON itself does not contain the end marker. */
  lemma ScriptTagRoundTrip(pre: string, json: string, post: string)
    requires '<' !in pre
    requires json != [] && !IsSpace(json[0]) && !IsSpace(json[|json| - 1])
    requires !Contains(json, EndMarker)
    ensures ExtractPayload(pre + ScriptTag(json) + post) == Some(json)
  {
    MarkerShapes();
    var mid := "\n" + json + "\n";
    assert pre + ScriptTag(json) + post == pre + StartMarker + mid + EndMarker + post;
    WrappedRoundTrip(pre, StartMarker, json, EndMarker, post);
    StripNewlineWrapped(json);
  }

  lemma MarkerShapes()
    ensures StartMarker != [] && StartMarker[0] == '<'
    ensures EndMarker != [] && '\n' !in EndMarker
  {
  }

  /** The same extraction for any pair of markers of the right shape. */
  lemma WrappedRoundTrip(pre: string, sm: string, json: string, em: string, post: string)
    requires sm != [] && sm[0] == '<' && '<' !in pre
    requires em != [] && '\n' !in em && !Contains(json, em)
    ensures Between(pre + sm + ("\n" + json + "\n") + em + post, sm, em) == Some("\n" + json + "\n")
  {
    var mid := "\n" + json + "\n";
    var doc := pre + sm + mid + em + post;
    Layout(pre, sm, mid, em, post);
    WrappedBetween(doc, sm, |pre|, json, em);
  }

  /** A start marker after a stretch without `<`, then a newline-wrapped `json` free of
      the end marker, then the end marker: the text between is the wrapped `json`. */
  lemma WrappedBetween(doc: string, sm: string, p: nat, json: string, em: string)
    requires sm != [] && sm[0] == '<' && OccursAt(doc, sm, p)
    requires forall i :: 0 <= i < p ==> doc[i] != '<'
    requires em != [] && '\n' !in em && !Contains(json, em)
    requires p + |sm| + |json| + 2 <= |doc|
    requires doc[p + |sm|..p + |sm| + |json| + 2] == "\n" + json + "\n"
    requires OccursAt(doc, em, p + |sm| + |json| + 2)
    ensures Between(doc, sm, em) == Some("\n" + json + "\n")
  {
    var i := p + |sm|;
    StartMarkerAt(doc, sm, p);
    EndMarkerAt(doc, em, i, json);
    var j := i + |json| + 2;
    assert Find(doc, sm, 0) + |sm| == i;
    assert Find(doc, em, i) == j;
    BetweenAt(doc, sm, em, i, j);
    assert doc[i..j] == "\n" + json + "\n";
  }

  /** Where each part of a five-part concatenation sits. */
  lemma Layout(a: string, b: string, c: string, d: string, e: string)
    ensures var doc := a + b + c + d + e;
      && (forall k :: 0 <= k < |a| ==> doc[k] == a[k])
      && OccursAt(doc, b, |a|)
      && doc[|a| + |b|..|a| + |b| + |c|] == c
      && OccursAt(doc, d, |a| + |b| + |c|)
  {
    var doc := a + b + c + d + e;
    assert doc[|a|..|a| + |b|] == b;
    assert doc[|a| + |b|..|a| + |b| + |c|] == c;
    assert doc[|a| + |b| + |c|..|a| + |b| + |c| + |d|] == d;
  }

  /** Only the first script block counts. */
  lemma PayloadIgnoresLaterBlocks(content: string, more: string)
    requires ExtractPayload(content).Some?
    ensures ExtractPayload(content + more) == ExtractPayload(content)
  {
    LaterBlocksIgnored(content, more, StartMarker, EndMarker);
  }

  /** Loading a page whose first block wraps `json` gives what `json` decodes to. */
  lemma LoadScriptTag(pre: string, json: string, post: string, decode: string -> Option<Json>, v: Json)
    requires '<' !in pre
    requires json != [] && !IsSpace(json[0]) && !IsSpace(json[|json| - 1])
    requires !Contains(json, EndMarker)
    requires decode(json) == Some(v)
    ensures LoadSchemaFromHtml(Some(pre + ScriptTag(json) + post), decode) == Success(v)
  {
    ScriptTagRoundTrip(pre, json, post);
  }

  // ---------------------------------------------------------------------------
  // Services

  /** `item.get` was called on something that is not a dict, or `@graph` cannot be
      iterated. */
  datatype ServiceError = GraphNotIterable | ItemNotDict

  /** What a `for` loop visits: a list's items, a string's characters, a dict's keys. */
  function Iterated(v: Json): Option<seq<Json>> {
    match v
    case JArr(items) => Some(items)
    case JStr(s) => Some(seq(|s|, i requires 0 <= i < |s| => JStr([s[i]])))
    case JObj(fields) => Some(seq(|fields|, i requires 0 <= i < |fields| => JStr(fields[i].0)))
    case _ => None
  }

  predicate IsService(item: Json) {
    item.JObj? && Get(item.fields, "@type") == Some(JStr("Service"))
  }

  /** `b` keeps some of `a`'s elements, in their order. */
  predicate IsSubsequence(b: seq<Json>, a: seq<Json>)
    decreases |a|
  {
    if b == [] then true
    else if a == [] then false
    else (b[0] == a[0] && IsSubsequence(b[1..], a[1..])) || IsSubsequence(b, a[1..])
  }

  /** The loop body over the graph's items: keep the services, fail on a non-dict. */
  function ServicesOf(items: seq<Json>): (r: Result<seq<Json>, ServiceError>)
    ensures r.Failure? <==> exists i :: 0 <= i < |items| && !items[i].JObj?
    ensures r.Success? ==> forall k :: 0 <= k < |r.value| ==> IsService(r.value[k])
    ensures r.Success? ==> forall i :: 0 <= i < |items| && IsService(items[i]) ==> items[i] in r.value
    decreases |items|
  {
    if items == [] then Success([])
    else if !items[0].JObj? then Failure(ItemNotDict)
    else
      var rest :- ServicesOf(items[1..]);
      assert forall i :: 1 <= i < |items| ==> items[i] == items[1..][i - 1];
      Success(if IsService(items[0]) then [items[0]] + rest else rest)
  }

  /** `extract_services_from_schema`. */
  function ExtractServices(schema: seq<(string, Json)>): (r: Result<seq<Json>, ServiceError>)
    ensures !HasKey(schema, "@graph") ==> r == Success([])
  {
    match Get(schema, "@graph")
    case None => Success([])
    case Some(graph) =>
      match Iterated(graph)
      case None => Failure(GraphNotIterable)
      case Some(items) => ServicesOf(items)
  }

  /** The services come out in the graph's order. */
  lemma {:induction false} ServicesInOrder(items: seq<Json>)
    requires ServicesOf(items).Success?
    ensures IsSubsequence(ServicesOf(items).value, items)
    decreases |items|
  {
    if items != [] {
      ServicesInOrder(items[1..]);
      var rest := ServicesOf(items[1..]).value;
      SubsequenceDropFirst(rest, items);
    }
  }

  /** Nothing is merged or dropped: each service occurs in the result exactly as often as
      in the graph, and nothing else occurs at all. */
  lemma {:induction false} ServicesCounted(items: seq<Json>, x: Json)
    requires ServicesOf(items).Success?
    ensures multiset(ServicesOf(items).value)[x] == if IsService(x) then multiset(items)[x] else 0
    decreases |items|
  {
    if items != [] {
      ServicesCounted(items[1..], x);
      assert items == [items[0]] + items[1..];
    }
  }

  /** A subsequence of the tail is a subsequence of the whole. */
  lemma SubsequenceDropFirst(b: seq<Json>, a: seq<Json>)
    requires a != [] && IsSubsequence(b, a[1..])
    ensures IsSubsequence(b, a)
  {
  }

  /** Filtering is idempotent: a graph made only of the extracted services yields them
      all again. */
  lemma {:induction false} ServicesIdempotent(items: seq<Json>)
    requires ServicesOf(items).Success?
    ensures ServicesOf(ServicesOf(items).value) == ServicesOf(items)
    decreases |items|
  {
    if items != [] {
      ServicesIdempotent(items[1..]);
      var rest := ServicesOf(items[1..]).value;
      if IsService(items[0]) {
        assert ([items[0]] + rest)[1..] == rest;
      }
    }
  }

  /** Extracting from `{"@graph": services}` returns the services unchanged. */
  lemma ExtractFromServiceGraph(schema: seq<(string, Json)>)
    requires ExtractServices(schema).Success?
    ensures var services := ExtractServices(schema).value;
      ExtractServices([("@graph", JArr(services))]) == Success(services)
  {
    var services := ExtractServices(schema).value;
    if HasKey(schema, "@graph") {
      var items := Iterated(Get(schema, "@graph").value).value;
      ServicesIdempotent(items);
    }
    GetAt([("@graph", JArr(services))], "@graph", 0);
  }
}

=== FILE: palette.dfy ===
/** The pie-chart palette: one colour per visible slice, interpolated channel by channel
    between the primary and the secondary colour. Python's float ratio `i / (n - 1)` is
    replaced by exact integer arithmetic, truncated toward zero as `int()` truncates. */
module Palette {
  import opened Wrappers
  import opened Text
  import Config

  /** A colour decoded into its three channels. `int(_, 16)` reads a sign, so a channel
      cut from two characters lies between -15 (`"-f"`) and 255 (`"ff"`). */
  datatype Rgb = Rgb(r: int, g: int, b: int)

  predicate InChannel(v: int) {
    -15 <= v <= 255
  }

  predicate InRgb(c: Rgb) {
    InChannel(c.r) && InChannel(c.g) && InChannel(c.b)
  }

  /** The channels a `#RRGGBB` colour can have. */
  predicate IsByteRgb(c: Rgb) {
    0 <= c.r < 256 && 0 <= c.g < 256 && 0 <= c.b < 256
  }

  datatype Endpoint = Primary | Secondary

  /** `int(text, 16)` refused the channel text cut from one of the two colours. */
  datatype PaletteError = BadChannel(which: Endpoint, offset: nat)

  /** Python's `s[lo:hi]` for `0 <= lo <= hi`: both ends are clamped to the length. */
  function Slice(s: string, lo: nat, hi: nat): (r: string)
    requires lo <= hi
    ensures |r| <= hi - lo
    ensures hi <= |s| ==> r == s[lo..hi]
  {
    var a := if lo < |s| then lo else |s|;
    var b := if hi < |s| then hi else |s|;
    s[a..b]
  }

  /** `int(c[j:j+2], 16)`: one channel, taken from at most two characters. */
  function DecodeChannel(c: string, j: nat): (r: Option<int>)
    ensures r.Some? ==> InChannel(r.value)
  {
    var t := Slice(c, j, j + 2);
    var v := ParseHex(t);
    if v.Some? then ShortHexBound(t); v else v
  }

  /** `tuple(int(c[j:j+2], 16) for j in offsets)`: the channels in order, or the first
      offset whose text does not parse. */
  function DecodeChannels(c: string, offsets: seq<nat>): (r: Result<seq<int>, nat>)
    ensures r.Success? ==> |r.value| == |offsets|
    ensures r.Success? ==> forall k :: 0 <= k < |r.value| ==> InChannel(r.value[k])
    ensures r.Failure? ==> r.error in offsets
  {
    if offsets == [] then Success([])
    else
      match DecodeChannel(c, offsets[0])
      case None => Failure(offsets[0])
      case Some(v) =>
        match DecodeChannels(c, offsets[1..])
        case Failure(j) => Failure(j)
        case Success(vs) => Success([v] + vs)
  }

  /** The channels at offsets 1, 3 and 5. */
  function DecodeColor(c: string, which: Endpoint): (r: Result<Rgb, PaletteError>)
    ensures r.Success? ==> InRgb(r.value)
    ensures r.Failure? ==> r.error.which == which && r.error.offset in {1, 3, 5}
  {
    match DecodeChannels(c, [1, 3, 5])
    case Failure(j) => Failure(BadChannel(which, j))
    case Success(vs) => Success(Rgb(vs[0], vs[1], vs[2]))
  }

  /** Decoding reads channel 1, then 3, then 5, and reports the first that fails. */
  lemma DecodeColorByChannel(c: string, which: Endpoint)
    ensures var r, g, b := DecodeChannel(c, 1), DecodeChannel(c, 3), DecodeChannel(c, 5);
      DecodeColor(c, which)
      == if r.None? then Failure(BadChannel(which, 1))
         else if g.None? then Failure(BadChannel(which, 3))
         else if b.None? then Failure(BadChannel(which, 5))
         else Success(Rgb(r.value, g.value, b.value))
  {
    var offsets: seq<nat> := [1, 3, 5];
    assert offsets[1..] == [3, 5] && offsets[1..][1..] == [5] && offsets[1..][1..][1..] == [];
    var last := DecodeChannels(c, [5]);
    var middle := DecodeChannels(c, [3, 5]);
    var all := DecodeChannels(c, offsets);
  }

  /** `f"{v:02x}"`: two lower-case digits, or a minus sign and one digit, since the
      width of two counts the sign. */
  function EncodeChannel(v: int): (s: string)
    requires InChannel(v)
    ensures |s| == 2
    ensures v >= 0 ==> AllHex(s) && s == HexByte(v)
    ensures v < 0 ==> s[0] == '-'
  {
    if v >= 0 then HexByte(v) else ['-', HexChar(-v)]
  }

  /** `f"#{r:02x}{g:02x}{b:02x}"`. */
  function EncodeColor(c: Rgb): (s: string)
    requires InRgb(c)
    ensures |s| == 7 && s[0] == '#'
  {
    "#" + EncodeChannel(c.r) + EncodeChannel(c.g) + EncodeChannel(c.b)
  }

  /** Python's `int()` of a quotient: the exact value `num / d` truncated toward zero. */
  function Trunc(num: int, d: nat): int
    requires d > 0
  {
    if num >= 0 then num / d else -((-num) / d)
  }

  /** `int(p + (s - p) * (i / (n - 1)))` over exact rationals: the value scaled by
      `n - 1` is `p * (n - 1) + (s - p) * i`. */
  function Mix(p: int, s: int, i: nat, n: nat): int
    requires 2 <= n && i < n
  {
    var d := n - 1;
    Trunc(p * d + (s - p) * i, d)
  }

  function MixRgb(p: Rgb, s: Rgb, i: nat, n: nat): (c: Rgb)
    requires 2 <= n && i < n
  {
    Rgb(Mix(p.r, s.r, i, n), Mix(p.g, s.g, i, n), Mix(p.b, s.b, i, n))
  }

  /** `_generate_pie_colors(count)`. One or two colours are the configured strings as
      they are; any other count builds a gradient, which for a count of zero is empty
      before either colour is read. */
  function PieColors(n: nat, primary: string, secondary: string): (r: Result<seq<string>, PaletteError>)
    ensures n == 0 ==> r == Success([])
    ensures n == 1 ==> r == Success([primary])
    ensures n == 2 ==> r == Success([primary, secondary])
    ensures r.Success? ==> |r.value| == n
  {
    if n == 1 then Success([primary])
    else if n == 2 then Success([primary, secondary])
    else if n == 0 then Success([])
    else
      var p :- DecodeColor(primary, Primary);
      var s :- DecodeColor(secondary, Secondary);
      MixInRgb(p, s, n);
      Success(seq(n, i requires 0 <= i < n => EncodeColor(MixRgb(p, s, i, n))))
  }

  /** A colour as the gradient writes it: `#` and six lower-case hex digits. */
  predicate LowerHexColor(v: string) {
    Config.StrictHexColor(v) && forall i :: 0 <= i < |v| ==> !('A' <= v[i] <= 'Z')
  }

  // ----- Interpolation -----

  /** Multiplying by a positive factor can be cancelled in a non-strict comparison. */
  lemma {:induction false} MulCancelLe(a: nat, b: nat, d: nat)
    requires d > 0 && a * d <= b * d
    ensures a <= b
  {
    if a > 0 {
      assert a * d == (a - 1) * d + d;
      assert b * d >= d;
      assert b >= 1;
      assert b * d == (b - 1) * d + d;
      MulCancelLe(a - 1, b - 1, d);
    }
  }

  /** Multiplying by a positive factor can be cancelled in a strict comparison. */
  lemma {:induction false} MulCancelLt(a: nat, b: nat, d: nat)
    requires d > 0 && a * d < b * d
    ensures a < b
  {
    if a == 0 {
      assert b != 0;
    } else {
      assert a * d == (a - 1) * d + d;
      assert b * d > d;
      assert b >= 1;
      assert b * d == (b - 1) * d + d;
      MulCancelLt(a - 1, b - 1, d);
    }
  }

  /** The quotient brackets the dividend. */
  lemma DivBracket(num: nat, d: nat)
    requires d > 0
    ensures (num / d) * d <= num < (num / d + 1) * d
  {
    var q, r := num / d, num % d;
    assert num == q * d + r;
    assert (q + 1) * d == q * d + d;
  }

  lemma DivMonotone(a: nat, b: nat, d: nat)
    requires d > 0 && a <= b
    ensures a / d <= b / d
  {
    var qa, qb := a / d, b / d;
    DivBracket(a, d);
    DivBracket(b, d);
    assert qa * d <= a <= b < (qb + 1) * d;
    MulCancelLt(qa, qb + 1, d);
  }

  /** Exact division undoes multiplication. */
  lemma MulDiv(p: nat, d: nat)
    requires d > 0
    ensures (p * d) / d == p
  {
    DivBracket(p * d, d);
    MulCancelLt(p, (p * d) / d + 1, d);
    MulCancelLe((p * d) / d, p, d);
  }

  lemma TruncMonotone(a: int, b: int, d: nat)
    requires d > 0 && a <= b
    ensures Trunc(a, d) <= Trunc(b, d)
  {
    if 0 <= a {
      DivMonotone(a, b, d);
    } else if b < 0 {
      var na, nb: nat := -a, -b;
      DivMonotone(nb, na, d);
    } else {
      var na, nb: nat := -a, b;
      assert Trunc(a, d) == -(na / d) <= 0;
      assert Trunc(b, d) == nb / d >= 0;
    }
  }

  /** Truncation undoes multiplication, whatever the sign. */
  lemma TruncExact(k: int, d: nat)
    requires d > 0
    ensures Trunc(k * d, d) == k
  {
    if k >= 0 {
      MulNat(k, d);
      MulDiv(k, d);
    } else {
      assert -(k * d) == (-k) * d;
      MulNat(-k, d);
      MulDiv(-k, d);
    }
  }

  lemma TruncBetween(lo: int, hi: int, num: int, d: nat)
    requires d > 0 && lo * d <= num <= hi * d
    ensures lo <= Trunc(num, d) <= hi
  {
    TruncMonotone(lo * d, num, d);
    TruncMonotone(num, hi * d, d);
    TruncExact(lo, d);
    TruncExact(hi, d);
  }

  lemma MulNat(x: nat, y: nat)
    ensures x * y >= 0
  {
  }

  /** A step of at most `d` out of `d` moves a scaled value by at most the whole gap. */
  lemma ScaledStep(p: int, s: int, i: nat, d: nat)
    requires i <= d
    ensures p <= s ==> p * d <= p * d + (s - p) * i <= s * d
    ensures s <= p ==> s * d <= p * d + (s - p) * i <= p * d
  {
    if p <= s {
      MulNat(s - p, i);
      MulNat(s - p, d - i);
      assert (s - p) * d == (s - p) * i + (s - p) * (d - i);
      assert s * d == p * d + (s - p) * d;
    } else {
      MulNat(p - s, i);
      MulNat(p - s, d - i);
      assert (p - s) * d == (p - s) * i + (p - s) * (d - i);
      assert s * d == p * d - (p - s) * d;
      assert (s - p) * i == -((p - s) * i);
    }
  }

  /** The interpolated channel lies between the two endpoint channels. */
  lemma MixBetween(p: int, s: int, i: nat, n: nat)
    requires 2 <= n && i < n
    ensures p <= s ==> p <= Mix(p, s, i, n) <= s
    ensures s <= p ==> s <= Mix(p, s, i, n) <= p
  {
    var d := n - 1;
    ScaledStep(p, s, i, d);
    if p <= s {
      TruncBetween(p, s, p * d + (s - p) * i, d);
    } else {
      TruncBetween(s, p, p * d + (s - p) * i, d);
    }
  }

  lemma MixInRgb(p: Rgb, s: Rgb, n: nat)
    requires InRgb(p) && InRgb(s) && 2 <= n
    ensures forall i :: 0 <= i < n ==> InRgb(MixRgb(p, s, i, n))
    ensures IsByteRgb(p) && IsByteRgb(s) ==> forall i :: 0 <= i < n ==> IsByteRgb(MixRgb(p, s, i, n))
  {
    forall i | 0 <= i < n
      ensures InRgb(MixRgb(p, s, i, n))
      ensures IsByteRgb(p) && IsByteRgb(s) ==> IsByteRgb(MixRgb(p, s, i, n))
    {
      MixBetween(p.r, s.r, i, n);
      MixBetween(p.g, s.g, i, n);
      MixBetween(p.b, s.b, i, n);
    }
  }

  /** The first entry carries the primary channel and the last the secondary one. */
  lemma MixEnds(p: int, s: int, n: nat)
    requires 2 <= n
    ensures Mix(p, s, 0, n) == p
    ensures Mix(p, s, n - 1, n) == s
  {
    var d := n - 1;
    assert p * d + (s - p) * 0 == p * d;
    assert p * d + (s - p) * d == s * d;
    TruncExact(p, d);
    TruncExact(s, d);
  }

  /** Walking along the palette never turns back: a channel rises towards a larger
      secondary channel and falls towards a smaller one. */
  lemma MixMonotone(p: int, s: int, i: nat, j: nat, n: nat)
    requires 2 <= n && i <= j < n
    ensures p <= s ==> Mix(p, s, i, n) <= Mix(p, s, j, n)
    ensures s <= p ==> Mix(p, s, j, n) <= Mix(p, s, i, n)
  {
    var d := n - 1;
    var a := p * d + (s - p) * i;
    var b := p * d + (s - p) * j;
    assert b == a + (s - p) * (j - i);
    if p <= s {
      MulNat(s - p, j - i);
      TruncMonotone(a, b, d);
    } else {
      MulNat(p - s, j - i);
      assert (s - p) * (j - i) == -((p - s) * (j - i));
      TruncMonotone(b, a, d);
    }
  }

  /** `Mix` is the exact value `p + (s - p) * i / (n - 1)` truncated toward zero: scaled
      by `n - 1`, a non-negative value lies in `[Mix, Mix + 1)` and a negative one in
      `(Mix - 1, Mix]`. */
  lemma MixIsTruncation(p: int, s: int, i: nat, n: nat)
    requires 2 <= n && i < n
    ensures var d, m, num := n - 1, Mix(p, s, i, n), p * (n - 1) + (s - p) * i;
      num >= 0 ==> m * d <= num < (m + 1) * d
    ensures var d, m, num := n - 1, Mix(p, s, i, n), p * (n - 1) + (s - p) * i;
      num < 0 ==> (m - 1) * d < num <= m * d
  {
    var d := n - 1;
    var num := p * d + (s - p) * i;
    if num >= 0 {
      DivBracket(num, d);
    } else {
      var q := (-num) / d;
      DivBracket(-num, d);
      assert Mix(p, s, i, n) == -q;
      assert (-q) * d == -(q * d);
      assert (-q - 1) * d == -((q + 1) * d);
    }
  }

  // ----- Colours -----

  /** A one-digit channel text reads as its digit. */
  lemma SingleHexValue(k: nat)
    requires k < 16
    ensures HexValue([HexChar(k)]) == k
  {
    assert [HexChar(k)][..0] == [];
  }

  /** `int(f"{v:02x}", 16) == v` for every channel a decoded colour can have. */
  lemma ChannelRoundTrip(v: int)
    requires InChannel(v)
    ensures ParseHex(EncodeChannel(v)) == Some(v)
  {
    if v >= 0 {
      HexByteRoundTrip(v);
    } else {
      var h := [HexChar(-v)];
      SingleHexValue(-v);
      PlainDigitsRead(h, Hexadecimal);
      PyIntAccepts([], Minus, NoPrefix, h, [], Hexadecimal);
      assert [] + SignText(Minus) + PrefixText(NoPrefix) + h + [] == EncodeChannel(v);
    }
  }

  /** Decoding an encoded colour gives it back, and the encoding is a lower-case
      `#RRGGBB` colour exactly when no channel is negative. */
  lemma EncodeDecode(c: Rgb, which: Endpoint)
    requires InRgb(c)
    ensures DecodeColor(EncodeColor(c), which) == Success(c)
    ensures LowerHexColor(EncodeColor(c)) <==> IsByteRgb(c)
  {
    var e := EncodeColor(c);
    assert DecodeChannel(e, 1) == Some(c.r) by {
      assert e[1..3] == EncodeChannel(c.r);
      ChannelRoundTrip(c.r);
    }
    assert DecodeChannel(e, 3) == Some(c.g) by {
      assert e[3..5] == EncodeChannel(c.g);
      ChannelRoundTrip(c.g);
    }
    assert DecodeChannel(e, 5) == Some(c.b) by {
      assert e[5..7] == EncodeChannel(c.b);
      ChannelRoundTrip(c.b);
    }
    DecodeColorByChannel(e, which);
    EncodeLowerIff(c);
  }

  lemma EncodeLowerIff(c: Rgb)
    requires InRgb(c)
    ensures LowerHexColor(EncodeColor(c)) <==> IsByteRgb(c)
  {
    var e := EncodeColor(c);
    if IsByteRgb(c) {
      forall i | 1 <= i < 7 ensures IsHexDigit(e[i]) && !('A' <= e[i] <= 'Z') {
        if i < 3 {
          assert e[i] == HexByte(c.r)[i - 1];
        } else if i < 5 {
          assert e[i] == HexByte(c.g)[i - 3];
        } else {
          assert e[i] == HexByte(c.b)[i - 5];
        }
      }
    } else {
      assert e[1] == '-' || e[3] == '-' || e[5] == '-';
    }
  }

  /** A colour of the `#RRGGBB` shape always decodes, and re-encoding it gives its
      lower-case form. */
  lemma ValidColorDecodes(c: string, which: Endpoint)
    requires Config.StrictHexColor(c)
    ensures DecodeColor(c, which).Success? && IsByteRgb(DecodeColor(c, which).value)
    ensures EncodeColor(DecodeColor(c, which).value) == Lower(c)
  {
    ChannelOfValid(c, 1);
    ChannelOfValid(c, 3);
    ChannelOfValid(c, 5);
    DecodeColorByChannel(c, which);
    var rgb := DecodeColor(c, which).value;
    assert EncodeColor(rgb) == "#" + Lower(c[1..3]) + Lower(c[3..5]) + Lower(c[5..7]);
    LowerOfColor(c);
  }

  /** Each channel of a `#RRGGBB` colour parses to its digits' value, and re-encodes as
      its lower-case text. */
  lemma ChannelOfValid(c: string, j: nat)
    requires Config.StrictHexColor(c) && 1 <= j <= 5
    ensures AllHex(c[j..j + 2])
    ensures DecodeChannel(c, j) == Some(HexValue(c[j..j + 2]) as int)
    ensures HexValue(c[j..j + 2]) < 256 && HexByte(HexValue(c[j..j + 2])) == Lower(c[j..j + 2])
  {
    var t := c[j..j + 2];
    assert t[0] == c[j] && t[1] == c[j + 1];
    assert AllHex(t);
    PlainDigits(t, Hexadecimal);
    HexPairRoundTrip(t);
  }

  lemma LowerOfColor(c: string)
    requires |c| == 7 && c[0] == '#'
    ensures Lower(c) == "#" + Lower(c[1..3]) + Lower(c[3..5]) + Lower(c[5..7])
  {
    var r := "#" + Lower(c[1..3]) + Lower(c[3..5]) + Lower(c[5..7]);
    forall i | 0 <= i < 7 ensures r[i] == Lower(c)[i] {
      if 1 <= i < 3 {
        assert r[i] == Lower(c[1..3])[i - 1];
      } else if 3 <= i < 5 {
        assert r[i] == Lower(c[3..5])[i - 3];
      } else if 5 <= i {
        assert r[i] == Lower(c[5..7])[i - 5];
      }
    }
  }

  // ----- The palette -----

  /** Decoding gradient entry `i` gives the channels interpolated at `i`; every entry is
      a lower-case `#RRGGBB` colour when neither endpoint has a negative channel. */
  lemma GradientEntries(n: nat, primary: string, secondary: string)
    requires n >= 3 && PieColors(n, primary, secondary).Success?
    ensures DecodeColor(primary, Primary).Success? && DecodeColor(secondary, Secondary).Success?
    ensures var cs := PieColors(n, primary, secondary).value;
      var p := DecodeColor(primary, Primary).value;
      var s := DecodeColor(secondary, Secondary).value;
      forall i :: 0 <= i < n ==> DecodeColor(cs[i], Primary) == Success(MixRgb(p, s, i, n))
    ensures var cs := PieColors(n, primary, secondary).value;
      IsByteRgb(DecodeColor(primary, Primary).value) && IsByteRgb(DecodeColor(secondary, Secondary).value)
      ==> forall i :: 0 <= i < n ==> LowerHexColor(cs[i])
  {
    var p := DecodeColor(primary, Primary).value;
    var s := DecodeColor(secondary, Secondary).value;
    MixInRgb(p, s, n);
    forall i | 0 <= i < n
      ensures DecodeColor(EncodeColor(MixRgb(p, s, i, n)), Primary) == Success(MixRgb(p, s, i, n))
      ensures IsByteRgb(p) && IsByteRgb(s) ==> LowerHexColor(EncodeColor(MixRgb(p, s, i, n)))
    {
      EncodeDecode(MixRgb(p, s, i, n), Primary);
    }
  }

  /** With two configured colours of the `#RRGGBB` shape, a gradient always exists; its
      first entry is the primary colour and its last the secondary one, both lower-cased. */
  lemma GradientEndpoints(n: nat, primary: string, secondary: string)
    requires n >= 3 && Config.StrictHexColor(primary) && Config.StrictHexColor(secondary)
    ensures PieColors(n, primary, secondary).Success?
    ensures PieColors(n, primary, secondary).value[0] == Lower(primary)
    ensures PieColors(n, primary, secondary).value[n - 1] == Lower(secondary)
  {
    ValidColorDecodes(primary, Primary);
    ValidColorDecodes(secondary, Secondary);
    GradientEnds(n, primary, secondary);
  }

  /** The end entries of a gradient are the re-encoded endpoint colours. */
  lemma GradientEnds(n: nat, primary: string, secondary: string)
    requires n >= 3
    requires DecodeColor(primary, Primary).Success? && DecodeColor(secondary, Secondary).Success?
    ensures PieColors(n, primary, secondary).Success?
    ensures PieColors(n, primary, secondary).value[0] == EncodeColor(DecodeColor(primary, Primary).value)
    ensures PieColors(n, primary, secondary).value[n - 1] == EncodeColor(DecodeColor(secondary, Secondary).value)
  {
    var p := DecodeColor(primary, Primary).value;
    var s := DecodeColor(secondary, Secondary).value;
    MixRgbEnds(p, s, n);
    assert PieColors(n, primary, secondary).Success? && PieColors(n, primary, secondary).value[0] == EncodeColor(p) by {
      GradientAt(n, primary, secondary, 0);
    }
    assert PieColors(n, primary, secondary).value[n - 1] == EncodeColor(s) by {
      GradientAt(n, primary, secondary, n - 1);
    }
  }

  lemma MixRgbEnds(p: Rgb, s: Rgb, n: nat)
    requires 2 <= n
    ensures MixRgb(p, s, 0, n) == p && MixRgb(p, s, n - 1, n) == s
  {
    MixEnds(p.r, s.r, n);
    MixEnds(p.g, s.g, n);
    MixEnds(p.b, s.b, n);
  }

  /** Entry `i` of a gradient is the encoding of the channels interpolated at `i`. */
  lemma GradientAt(n: nat, primary: string, secondary: string, i: nat)
    requires n >= 3 && i < n
    requires DecodeColor(primary, Primary).Success? && DecodeColor(secondary, Secondary).Success?
    ensures var p, s := DecodeColor(primary, Primary).value, DecodeColor(secondary, Secondary).value;
      && PieColors(n, primary, secondary).Success?
      && InRgb(MixRgb(p, s, i, n))
      && PieColors(n, primary, secondary).value[i] == EncodeColor(MixRgb(p, s, i, n))
  {
    var p, s := DecodeColor(primary, Primary).value, DecodeColor(secondary, Secondary).value;
    MixInRgb(p, s, n);
  }

  /** A primary colour whose channel text does not parse fails the gradient, while one
      or two colours are returned without being read. */
  lemma BadPrimaryFailsOnlyGradients(n: nat, primary: string, secondary: string)
    requires DecodeColor(primary, Primary).Failure?
    ensures n >= 3 <==> PieColors(n, primary, secondary).Failure?
    ensures n >= 3 ==> PieColors(n, primary, secondary).error.which == Primary
  {
  }

  /** `#0x` and four hex digits passes the colour validator, yet its first channel text
      `0x` is a prefix with no digits, so every gradient built from it fails there. */
  lemma PrefixedColorBreaksGradient(d4: string, secondary: string, n: nat)
    requires |d4| == 4 && AllHex(d4) && n >= 3
    ensures Config.AcceptedColor("#" + "0x" + d4)
    ensures PieColors(n, "#" + "0x" + d4, secondary) == Failure(BadChannel(Primary, 1))
  {
    Config.PrefixedColorAccepted(d4);
    var c := "#" + "0x" + d4;
    assert Slice(c, 1, 3) == "0x" by {
      assert c[1..3] == "0x";
    }
    assert ParseHex("0x") == None by {
      assert Strip("0x") == "0x" by {
        StripPadded([], "0x", []);
      }
    }
  }

  /** The three channel texts of a seven-character colour. */
  lemma ChannelTexts(c: string, x: string, y: string, z: string)
    requires |c| == 7 && c[1..3] == x && c[3..5] == y && c[5..7] == z
    ensures DecodeChannel(c, 1) == ParseHex(x)
    ensures DecodeChannel(c, 3) == ParseHex(y)
    ensures DecodeChannel(c, 5) == ParseHex(z)
  {
  }

  lemma ZeroChannel()
    ensures ParseHex("00") == Some(0)
  {
    ChannelRoundTrip(0);
    assert EncodeChannel(0) == "00";
  }

  /** A signed channel survives the gradient: from `#-f0000` to `#000000` the middle red
      channel is `int(-7.5) == -7`, truncated toward zero, and written as `-7`. */
  lemma NegativeChannelGradient()
    ensures DecodeColor("#-f0000", Primary) == Success(Rgb(-15, 0, 0))
    ensures Mix(-15, 0, 1, 3) == -7
    ensures PieColors(3, "#-f0000", "#000000").Success?
    ensures PieColors(3, "#-f0000", "#000000").value[1] == "#-70000"
  {
    NegativeRedDecodes();
    BlackDecodes();
    GradientAt(3, "#-f0000", "#000000", 1);
    assert MixRgb(Rgb(-15, 0, 0), Rgb(0, 0, 0), 1, 3) == Rgb(-7, 0, 0);
    EncodeNegativeRed();
  }

  lemma NegativeRedDecodes()
    ensures DecodeColor("#-f0000", Primary) == Success(Rgb(-15, 0, 0))
  {
    ChannelTexts("#-f0000", "-f", "00", "00");
    ZeroChannel();
    assert ParseHex("-f") == Some(-15) by {
      ChannelRoundTrip(-15);
      assert EncodeChannel(-15) == "-f";
    }
    DecodeColorByChannel("#-f0000", Primary);
  }

  lemma BlackDecodes()
    ensures DecodeColor("#000000", Secondary) == Success(Rgb(0, 0, 0))
  {
    ChannelTexts("#000000", "00", "00", "00");
    ZeroChannel();
    DecodeColorByChannel("#000000", Secondary);
  }

  lemma EncodeNegativeRed()
    ensures EncodeColor(Rgb(-7, 0, 0)) == "#-70000"
  {
    assert EncodeChannel(-7) == "-7" && EncodeChannel(0) == "00";
  }
}

=== FILE: schema_org.dfy ===
/** The schema.org structured data written next to the charts and data files: the
    name and description derivation of the software-application, dataset and
    creative-work schemas, the file names of the schema set, and the HTML meta tags
    read from a schema. Schemas are JSON objects whose keys keep Python's insertion
    order; the clock is a parameter (`now`), and the file system is a map from the
    paths that exist to their sizes. */
module SchemaOrg {
  import opened Wrappers
  import opened Json
  import opened Text
  import Config

  type Disk = map<string, nat>

  const Context := ("@context", JStr("https://schema.org"))
  const License := ("license", JStr("https://opensource.org/licenses/MIT"))
  const OwnerName := "Alyshia Ledlie"
  const OwnerEmail := "alyshialedlie@example.com"

  function Person(name: string, email: string): Json {
    JObj([("@type", JStr("Person")), ("name", JStr(name)), ("email", JStr(email))])
  }

  function Strings(ss: seq<string>): (r: Json)
    ensures r.JArr? && |r.items| == |ss|
    ensures forall i :: 0 <= i < |ss| ==> r.items[i] == JStr(ss[i])
  {
    JArr(seq(|ss|, i requires 0 <= i < |ss| => JStr(ss[i])))
  }

  /** Python truthiness of an optional string argument: given and non-empty. */
  predicate Given(s: Option<string>) {
    s.Some? && s.value != []
  }

  // ---------------------------------------------------------------------------
  // Name and description suffixing, shared by all three schema builders

  /** `f"{name} - {repo}"` for a given repository, else the name unchanged. */
  function Suffixed(name: string, repo: Option<string>): string {
    if Given(repo) then name + " - " + repo.value else name
  }

  /** `f"{description} for {repo} repository"` for a given repository. */
  function ForRepository(description: string, repo: Option<string>): string {
    if Given(repo) then description + " for " + repo.value + " repository" else description
  }

  /** The suffixing loses nothing: the base name is a prefix, and the repository name
      can be read back from what follows it, in the name and in the description. */
  lemma SuffixReadBack(name: string, description: string, repo: Option<string>)
    ensures Suffixed(name, repo)[..|name|] == name
    ensures ForRepository(description, repo)[..|description|] == description
    ensures Given(repo) ==>
      && |Suffixed(name, repo)| == |name| + 3 + |repo.value|
      && Suffixed(name, repo)[|name| + 3..] == repo.value
      && |ForRepository(description, repo)| == |description| + 16 + |repo.value|
      && ForRepository(description, repo)[|description| + 5..|description| + 5 + |repo.value|] == repo.value
    ensures !Given(repo) ==> Suffixed(name, repo) == name && ForRepository(description, repo) == description
  {
    if Given(repo) {
      var s := Suffixed(name, repo);
      assert s == name + (" - " + repo.value);
      var d := ForRepository(description, repo);
      assert d == description + " for " + repo.value + " repository";
      assert d[|description| + 5..|description| + 5 + |repo.value|] == repo.value;
    }
  }

  // ---------------------------------------------------------------------------
  // Software application

  const AppName := "Git Commit Visualization Utilities"
  const AppDescription := "A comprehensive toolkit for analyzing and visualizing Git commit patterns through interactive charts and graphs"
  const DefaultVersion := "1.0.0"

  /** The application keywords, also the content of its keywords meta tag. */
  const AppKeywords := ["git", "commit analysis", "data visualization", "charts",
                        "development tools", "repository analytics", "matplotlib", "python",
                        "MCP server"]

  /** `get_software_application_schema`. A given repository replaces the fixed name and
      description in place (the keys keep their position); `softwareVersion` is
      `version or "1.0.0"`. */
  function SoftwareApplicationSchema(repo: Option<string>, version: Option<string>,
                                     authorName: string, authorEmail: string,
                                     now: string): (r: seq<(string, Json)>)
    ensures |r| == 23 && r[0] == Context && r[1] == ("@type", JStr("SoftwareApplication"))
    ensures r[20] == ("dateModified", JStr(now))
  {
    var name := Suffixed(AppName, repo);
    var description := ApplicationDescription(repo);
    [ Context,
      ("@type", JStr("SoftwareApplication")),
      ("name", JStr(name)),
      ("description", JStr(description))
    ] + AppPlatform + [
      ("author", Person(authorName, authorEmail)),
      ("creator", Person(authorName, authorEmail))
    ] + AppLinks + [
      ("softwareVersion", JStr(if Given(version) then version.value else DefaultVersion)),
      ("dateCreated", JStr("2024-01-01")),
      ("dateModified", JStr(now)),
      ("keywords", Strings(AppKeywords)),
      ("offers", JObj([("@type", JStr("Offer")), ("price", JStr("0")), ("priceCurrency", JStr("USD")),
                       ("availability", JStr("https://schema.org/InStock"))]))
    ]
  }

  /** A given repository replaces the whole description, not just its suffix. */
  function ApplicationDescription(repo: Option<string>): string {
    if Given(repo) then "Commit pattern analysis and visualization for " + repo.value + " repository"
    else AppDescription
  }

  /** The fixed entries between the description and the author. */
  const AppPlatform: seq<(string, Json)> := [
    ("applicationCategory", JStr("DeveloperApplication")),
    ("applicationSubCategory", JStr("Data Visualization")),
    ("operatingSystem", Strings(["macOS", "Linux", "Windows"])),
    ("programmingLanguage", Strings(["Python", "Bash"])),
    ("runtimePlatform", JStr("Python 3.13+")),
    ("softwareRequirements", Strings(["Python 3.13+", "Git", "Bash shell", "matplotlib",
                                      "numpy", "mcp[cli]"]))
  ]

  /** The fixed entries between the creator and the version. */
  const AppLinks: seq<(string, Json)> := [
    License,
    ("url", JStr("https://github.com/alyshialedlie/RepoViz")),
    ("downloadUrl", JStr("https://github.com/alyshialedlie/RepoViz/archive/main.zip")),
    ("installUrl", JStr("https://github.com/alyshialedlie/RepoViz#installation")),
    ("screenshot", JArr([])),
    ("featureList", Strings(["Commit Analysis by Time Patterns",
                             "Hourly commit distribution (bar charts)",
                             "Day of week commit patterns (pie charts)",
                             "Monthly commit activity (pie charts)",
                             "Combined day/month visualizations",
                             "High-resolution PNG charts (300 DPI)",
                             "Repository-specific file naming",
                             "MCP Server Integration",
                             "Programmatic access to visualization functions"]))
  ]

  // ---------------------------------------------------------------------------
  // Dataset

  /** The keys of the dataset name and description tables. */
  datatype DatasetKind = CommitAnalysis | Hourly | Daily | Monthly

  function DatasetKindValue(k: DatasetKind): string {
    match k
    case CommitAnalysis => "commit_analysis"
    case Hourly => "hourly"
    case Daily => "daily"
    case Monthly => "monthly"
  }

  /** The table lookup: the kind whose key is `s`, if any. */
  function DatasetKindFromValue(s: string): (r: Option<DatasetKind>)
    ensures r.Some? ==> DatasetKindValue(r.value) == s
  {
    if s == "commit_analysis" then Some(CommitAnalysis)
    else if s == "hourly" then Some(Hourly)
    else if s == "daily" then Some(Daily)
    else if s == "monthly" then Some(Monthly)
    else None
  }

  lemma DatasetKindRoundTrip(k: DatasetKind, s: string)
    ensures DatasetKindFromValue(DatasetKindValue(k)) == Some(k)
    ensures DatasetKindFromValue(s) == Some(k) <==> DatasetKindValue(k) == s
  {
  }

  function DatasetName(k: DatasetKind): string {
    match k
    case CommitAnalysis => "Git Commit Analysis Data"
    case Hourly => "Hourly Commit Distribution Data"
    case Daily => "Daily Commit Pattern Data"
    case Monthly => "Monthly Commit Activity Data"
  }

  function DatasetDescription(k: DatasetKind): string {
    match k
    case CommitAnalysis => "Structured commit data extracted from Git repositories for pattern analysis"
    case Hourly => "Commit frequency data aggregated by hour of day (0-23)"
    case Daily => "Commit frequency data aggregated by day of week (Sunday-Saturday)"
    case Monthly => "Commit frequency data aggregated by month (January-December)"
  }

  const FallbackDatasetName := "Git Repository Data"
  const FallbackDatasetDescription := "Git repository analysis data"

  /** The table entries for a data type, with the fallbacks for an unknown one. */
  function DatasetNaming(dataType: string): (string, string) {
    match DatasetKindFromValue(dataType)
    case Some(k) => (DatasetName(k), DatasetDescription(k))
    case None => (FallbackDatasetName, FallbackDatasetDescription)
  }

  /** `schema["distribution"][...]` on a schema that has no distribution entry. */
  datatype SchemaError = MissingDistribution

  const DatasetKeywords := ["git commits", "version control", "software development",
                            "time series data", "repository analytics"]

  function Variable(name: string, description: string): Json {
    JObj([("@type", JStr("PropertyValue")), ("name", JStr(name)), ("description", JStr(description))])
  }

  /** The distribution entry, present when the file path is given and exists. */
  function Distribution(filePath: Option<string>, disk: Disk): Option<Json> {
    if Given(filePath) && filePath.value in disk then
      Some(JObj([("@type", JStr("DataDownload")), ("encodingFormat", JStr("text/plain")),
                 ("contentSize", JStr(IntToString(disk[filePath.value]) + " bytes")),
                 ("contentUrl", JStr(filePath.value))]))
    else None
  }

  /** `get_dataset_schema`. A truthy record count is written into the distribution
      entry, which exists only for an existing file; without it the lookup raises. */
  function DatasetSchema(dataType: string, repo: Option<string>, filePath: Option<string>,
                         recordCount: Option<int>, disk: Disk, now: string)
    : (r: Result<seq<(string, Json)>, SchemaError>)
    ensures r.Failure? <==> (Counted(recordCount) && Distribution(filePath, disk).None?)
  {
    var (name, description) := DatasetNaming(dataType);
    var base := DatasetBase(Suffixed(name, repo), ForRepository(description, repo), now);
    match Distribution(filePath, disk)
    case None =>
      if Counted(recordCount) then Failure(MissingDistribution) else Success(base)
    case Some(d) =>
      Success(base + [("distribution", JObj(WithCount(d.fields, recordCount)))])
  }

  /** `schema["distribution"]["numberOfRecords"] = record_count` when the count is truthy. */
  function WithCount(fields: seq<(string, Json)>, recordCount: Option<int>): seq<(string, Json)> {
    fields + (if Counted(recordCount) then [("numberOfRecords", JInt(recordCount.value))] else [])
  }

  /** `if record_count:` */
  predicate Counted(recordCount: Option<int>) {
    recordCount.Some? && recordCount.value != 0
  }

  /** The dataset schema before the distribution entry. */
  function DatasetBase(name: string, description: string, now: string): seq<(string, Json)> {
    [ Context,
      ("@type", JStr("Dataset")),
      ("name", JStr(name)),
      ("description", JStr(description)),
      ("keywords", Strings(DatasetKeywords)),
      ("creator", Person(OwnerName, OwnerEmail)),
      ("dateCreated", JStr(now)),
      ("dateModified", JStr(now)),
      License,
      ("encodingFormat", JStr("text/plain")),
      ("temporalCoverage", JStr("2024/..")),
      ("spatialCoverage", JStr("Global")),
      ("variableMeasured", JArr([
        Variable("commit_timestamp", "Timestamp of git commit"),
        Variable("commit_hour", "Hour of day when commit was made (0-23)"),
        Variable("commit_day", "Day of week when commit was made (0-6)"),
        Variable("commit_month", "Month when commit was made (1-12)")]))
    ]
  }

  // ---------------------------------------------------------------------------
  // Creative work (one per chart)

  function ChartName(t: Config.ChartType): string {
    match t
    case HourBar => "Hourly Commit Distribution Chart"
    case DayPie => "Daily Commit Pattern Chart"
    case MonthPie => "Monthly Commit Activity Chart"
    case DayMonthCombined => "Combined Day/Month Commit Chart"
  }

  function ChartDescription(t: Config.ChartType): string {
    match t
    case HourBar => "Bar chart showing commit frequency by hour of day"
    case DayPie => "Pie chart showing commit distribution by day of week"
    case MonthPie => "Pie chart showing commit distribution by month"
    case DayMonthCombined => "Combined visualization of daily and monthly commit patterns"
  }

  const FallbackChartName := "Git Commit Visualization"
  const FallbackChartDescription := "Git repository commit pattern visualization"

  /** The chart tables are keyed by the chart types' values. */
  function ChartNaming(chartType: string): (string, string) {
    match Config.ChartTypeFromValue(chartType)
    case Some(t) => (ChartName(t), ChartDescription(t))
    case None => (FallbackChartName, FallbackChartDescription)
  }

  const ChartKeywords := ["data visualization", "git commits", "charts", "repository analytics",
                          "software development metrics"]

  /** `get_creative_work_schema`. The dataset it is based on carries the repository
      name too; an existing chart file adds its size and location at the end. */
  function CreativeWorkSchema(chartType: string, repo: Option<string>, filePath: Option<string>,
                              disk: Disk, now: string): (r: seq<(string, Json)>)
    ensures |r| == if Given(filePath) && filePath.value in disk then 13 else 11
    ensures r[0] == Context && r[1] == ("@type", JStr("CreativeWork"))
    ensures r[5] == ("dateCreated", JStr(now))
  {
    var (name, description) := ChartNaming(chartType);
    [ Context,
      ("@type", JStr("CreativeWork")),
      ("name", JStr(Suffixed(name, repo))),
      ("description", JStr(ForRepository(description, repo))),
      ("creator", Person(OwnerName, OwnerEmail)),
      ("dateCreated", JStr(now)),
      License,
      ("encodingFormat", JStr("image/png")),
      ("genre", JStr("Data Visualization")),
      ("keywords", Strings(ChartKeywords)),
      ("isBasedOn", JObj([("@type", JStr("Dataset")),
                          ("name", JStr(Suffixed("Git Commit Data", repo)))]))
    ] + (if Given(filePath) && filePath.value in disk
         then [("contentSize", JStr(IntToString(disk[filePath.value]) + " bytes")),
               ("contentUrl", JStr(filePath.value))]
         else [])
  }

  // ---------------------------------------------------------------------------
  // MCP server

  const McpDescription := "Model Context Protocol server for programmatic access to git commit visualization tools"
  const McpRequirements := ["Python 3.13+", "mcp[cli]", "matplotlib", "numpy"]
  const McpFeatures := ["generate_hour_bar_chart() - Create hourly bar chart",
                        "generate_day_pie_chart() - Create day of week pie chart",
                        "generate_month_pie_chart() - Create monthly pie chart"]
  const McpKeywords := ["MCP server", "Model Context Protocol", "API", "git visualization",
                        "automation tools"]

  /** `get_mcp_server_schema`: fixed apart from the clock. */
  function McpServerSchema(now: string): (r: seq<(string, Json)>)
    ensures |r| == 14 && r[0] == Context && r[1] == ("@type", JStr("SoftwareApplication"))
    ensures r[12] == ("dateCreated", JStr(now))
  {
    [ Context,
      ("@type", JStr("SoftwareApplication")),
      ("name", JStr("Git Visualization MCP Server")),
      ("description", JStr(McpDescription)),
      ("applicationCategory", JStr("DeveloperApplication")),
      ("applicationSubCategory", JStr("API Server")),
      ("programmingLanguage", JStr("Python")),
      ("runtimePlatform", JStr("Python 3.13+")),
      ("author", Person(OwnerName, OwnerEmail)),
      ("softwareRequirements", Strings(McpRequirements)),
      ("featureList", Strings(McpFeatures)),
      License,
      ("dateCreated", JStr(now)),
      ("keywords", Strings(McpKeywords))
    ]
  }

  // ---------------------------------------------------------------------------
  // The schema set and its file names

  /** `repository_name.lower().replace(' ', '_')`: unlike the chart file names, hyphens
      are kept. */
  function SchemaSlug(repo: string): (r: string)
    ensures |r| == |repo|
    ensures forall i :: 0 <= i < |repo| ==>
      r[i] == (if repo[i] == ' ' then '_' else LowerChar(repo[i]))
    ensures forall i :: 0 <= i < |repo| && repo[i] == '-' ==> r[i] == '-'
  {
    ReplaceChar(Lower(repo), ' ', '_')
  }

  /** `f"{key}.jsonld"`, or `f"{key}_{slug}.jsonld"` for a given repository. */
  function SchemaFileName(key: string, repo: Option<string>): string {
    if Given(repo) then key + "_" + SchemaSlug(repo.value) + ".jsonld" else key + ".jsonld"
  }

  /** `os.path.join(dir, name)`: an absolute name replaces the directory; otherwise a
      separator is inserted unless the directory is empty or already ends in one. */
  function JoinPath(dir: string, name: string): string {
    if name != [] && name[0] == '/' then name
    else if dir == [] || dir[|dir| - 1] == '/' then dir + name
    else dir + "/" + name
  }

  const SchemaKeys := ["software_application", "commit_dataset", "hourly_dataset",
                       "daily_dataset", "monthly_dataset", "mcp_server"]

  const DefaultSchemaDir := "./Generated Data/schemas/"

  datatype SchemaFile = SchemaFile(key: string, path: string, content: seq<(string, Json)>)

  /** A dataset schema as the schema set asks for it: no file and no record count, so
      the lookup that can fail is never reached. */
  function PlainDataset(k: DatasetKind, repo: Option<string>, now: string): seq<(string, Json)> {
    var d := DatasetSchema(DatasetKindValue(k), repo, None, None, map[], now);
    assert d.Success?;
    d.value
  }

  /** The schema written under the `i`-th key. */
  function SchemaContent(i: nat, repo: Option<string>, now: string): seq<(string, Json)> {
    if i == 0 then SoftwareApplicationSchema(repo, None, OwnerName, OwnerEmail, now)
    else if i == 1 then PlainDataset(CommitAnalysis, repo, now)
    else if i == 2 then PlainDataset(Hourly, repo, now)
    else if i == 3 then PlainDataset(Daily, repo, now)
    else if i == 4 then PlainDataset(Monthly, repo, now)
    else McpServerSchema(now)
  }

  /** `generate_all_schemas`: the six schemas, in order, each with the path it is
      written to (the writing itself is not modelled). */
  function GenerateAllSchemas(repo: Option<string>, outputDir: string, now: string)
    : (files: seq<SchemaFile>)
    ensures |files| == |SchemaKeys|
    ensures forall i :: 0 <= i < |files| ==>
      files[i].key == SchemaKeys[i] && files[i].path == SchemaPath(i, repo, outputDir)
  {
    seq(|SchemaKeys|, i requires 0 <= i < |SchemaKeys| =>
      SchemaFile(SchemaKeys[i], SchemaPath(i, repo, outputDir),
                 SchemaContent(i, repo, now)))
  }

  /** The two slug rules agree exactly on names without a hyphen: the schema files keep
      a hyphen that the chart file names turn into an underscore. */
  lemma SlugsAgreeIffNoHyphen(repo: string)
    ensures SchemaSlug(repo) == Config.RepoSlug(repo) <==> '-' !in repo
  {
    var a := SchemaSlug(repo);
    var b := Config.RepoSlug(repo);
    if '-' in repo {
      var i :| 0 <= i < |repo| && repo[i] == '-';
      assert a[i] == '-' && b[i] == '_';
    } else {
      forall i | 0 <= i < |repo| ensures a[i] == b[i] {
        assert repo[i] != '-';
      }
    }
  }

  /** A schema file name starts with its key and ends in `.jsonld`; what lies between is
      the slug, whose length is the repository name's. */
  lemma SchemaFileNameShape(key: string, repo: Option<string>)
    ensures var f := SchemaFileName(key, repo);
      && f[..|key|] == key
      && |f| >= |key| + 7 && f[|f| - 7..] == ".jsonld"
      && (Given(repo) ==> |f| == |key| + 8 + |repo.value| && f[|key| + 1..|f| - 7] == SchemaSlug(repo.value))
      && (!Given(repo) ==> |f| == |key| + 7)
  {
    var f := SchemaFileName(key, repo);
    if Given(repo) {
      assert f == key + ("_" + SchemaSlug(repo.value) + ".jsonld");
      assert f[|key| + 1..|f| - 7] == SchemaSlug(repo.value);
    }
  }

  /** The path a relative, non-empty name lands at is a fixed prefix (depending on the
      directory only) followed by the name. */
  function DirPrefix(dir: string): string {
    if dir == [] || dir[|dir| - 1] == '/' then dir else dir + "/"
  }

  lemma JoinRelative(dir: string, name: string)
    requires name != [] && name[0] != '/'
    ensures JoinPath(dir, name) == DirPrefix(dir) + name
  {
  }

  /** A schema path shows its key's first two characters right after the directory. */
  lemma SchemaPathPrefix(dir: string, key: string, repo: Option<string>)
    requires |key| >= 2 && key[0] != '/'
    ensures var path := JoinPath(dir, SchemaFileName(key, repo));
      |path| >= |DirPrefix(dir)| + 2 && path[|DirPrefix(dir)|..|DirPrefix(dir)| + 2] == key[..2]
  {
    var f := SchemaFileName(key, repo);
    SchemaFileNameShape(key, repo);
    JoinRelative(dir, f);
    var p := DirPrefix(dir);
    assert (p + f)[|p|..|p| + 2] == f[..2];
    assert f[..2] == f[..|key|][..2];
  }

  /** The keys differ in their first two characters. */
  lemma KeyPrefixesDistinct(i: nat, j: nat)
    requires i < j < |SchemaKeys|
    ensures |SchemaKeys[i]| >= 2 && |SchemaKeys[j]| >= 2 && SchemaKeys[i][0] != '/'
    ensures SchemaKeys[i][..2] != SchemaKeys[j][..2]
  {
    var k := SchemaKeys;
    assert k[0][..2] == "so" && k[1][..2] == "co" && k[2][..2] == "ho";
    assert k[3][..2] == "da" && k[4][..2] == "mo" && k[5][..2] == "mc";
  }

  /** The path the `i`-th schema is written to. */
  function SchemaPath(i: nat, repo: Option<string>, outputDir: string): string
    requires i < |SchemaKeys|
  {
    JoinPath(outputDir, SchemaFileName(SchemaKeys[i], repo))
  }

  /** No two schemas of the set are written to the same file, whatever the repository
      name and the directory. */
  lemma SchemaPathsDistinct(repo: Option<string>, outputDir: string)
    ensures forall i, j :: 0 <= i < j < |SchemaKeys| ==>
      SchemaPath(i, repo, outputDir) != SchemaPath(j, repo, outputDir)
  {
    forall i, j | 0 <= i < j < |SchemaKeys|
      ensures SchemaPath(i, repo, outputDir) != SchemaPath(j, repo, outputDir)
    {
      KeyPrefixesDistinct(i, j);
      KeyPrefixesDistinct(j - 1, j);
      SchemaPathPrefix(outputDir, SchemaKeys[i], repo);
      SchemaPathPrefix(outputDir, SchemaKeys[j], repo);
    }
  }

  // ---------------------------------------------------------------------------
  // HTML meta tags

  /** `", ".join(v)` raised a `TypeError`. */
  datatype MetaError = KeywordsNotJoinable

  /** What `str.join` iterates over: the items of a list of strings, the characters of a
      string, the keys of a dict; anything else cannot be joined. */
  function JoinItems(v: Json): (r: Option<seq<string>>)
    ensures v.JArr? ==> (r.Some? <==> forall i :: 0 <= i < |v.items| ==> v.items[i].JStr?)
    ensures v.JArr? && r.Some? ==> (|r.value| == |v.items| &&
      forall i :: 0 <= i < |v.items| ==> r.value[i] == v.items[i].s)
  {
    match v
    case JArr(items) =>
      if forall i :: 0 <= i < |items| ==> items[i].JStr? then
        Some(seq(|items|, i requires 0 <= i < |items| => items[i].s))
      else None
    case JStr(s) => Some(seq(|s|, i requires 0 <= i < |s| => [s[i]]))
    case JObj(fields) => Some(Keys(fields))
    case _ => None
  }

  function MetaTag(attr: string, key: string, content: string): string {
    "<meta " + attr + "=\"" + key + "\" content=\"" + content + "\">"
  }

  /** The two title tags, when the schema has a name. */
  function TitleTags(name: Option<Json>): seq<string> {
    match name
    case Some(v) => [MetaTag("property", "og:title", PyStr(v)), MetaTag("name", "twitter:title", PyStr(v))]
    case None => []
  }

  /** The three description tags, when the schema has a description. */
  function DescriptionTags(description: Option<Json>): seq<string> {
    match description
    case Some(v) =>
      [MetaTag("name", "description", PyStr(v)), MetaTag("property", "og:description", PyStr(v)),
       MetaTag("name", "twitter:description", PyStr(v))]
    case None => []
  }

  /** The keywords tag, when the schema has keywords that can be joined. */
  function KeywordTags(keywords: Option<Json>): Result<seq<string>, MetaError> {
    match keywords
    case None => Success([])
    case Some(v) =>
      match JoinItems(v)
      case Some(items) => Success([MetaTag("name", "keywords", Join(items, ", "))])
      case None => Failure(KeywordsNotJoinable)
  }

  /** The author's name, when the author entry is a dict whose name is truthy. */
  function AuthorName(schema: seq<(string, Json)>): Option<string> {
    AuthorNameOf(Get(schema, "author"))
  }

  function AuthorNameOf(author: Option<Json>): Option<string> {
    match author
    case Some(JObj(fields)) =>
      var name := match Get(fields, "name") case Some(v) => v case None => JStr("");
      if Truthy(name) then Some(PyStr(name)) else None
    case _ => None
  }

  /** The tags built from the four entries the schema is read for. */
  function TagsFrom(name: Option<Json>, description: Option<Json>, keywords: Option<Json>,
                    author: Option<Json>): Result<seq<string>, MetaError>
  {
    var keywordTags :- KeywordTags(keywords);
    var authorTags := match AuthorNameOf(author) case Some(n) => [MetaTag("name", "author", n)] case None => [];
    Success(TitleTags(name) + DescriptionTags(description) + keywordTags + authorTags)
  }

  /** `get_meta_tags`: title, description, keywords and author tags, in that order, each
      group only when its entry is there. */
  function MetaTags(schema: seq<(string, Json)>): (r: Result<seq<string>, MetaError>)
    ensures r.Failure? <==> (HasKey(schema, "keywords") && JoinItems(Get(schema, "keywords").value).None?)
    ensures r.Success? ==>
      |r.value| == (if HasKey(schema, "name") then 2 else 0) + (if HasKey(schema, "description") then 3 else 0)
                   + (if HasKey(schema, "keywords") then 1 else 0) + (if AuthorName(schema).Some? then 1 else 0)
      && |r.value| <= 7
  {
    TagsFrom(Get(schema, "name"), Get(schema, "description"), Get(schema, "keywords"), Get(schema, "author"))
  }

  /** The tags read only the four entries: schemas that agree on those get the same
      tags, whatever else they hold. */
  lemma MetaTagsReadFourKeys(a: seq<(string, Json)>, b: seq<(string, Json)>)
    requires Get(a, "name") == Get(b, "name")
    requires Get(a, "description") == Get(b, "description")
    requires Get(a, "keywords") == Get(b, "keywords")
    requires Get(a, "author") == Get(b, "author")
    ensures MetaTags(a) == MetaTags(b)
  {
  }

  // ---------------------------------------------------------------------------
  // What the builders promise

  lemma ChartNamesNotFallback(t: Config.ChartType)
    ensures ChartName(t) != FallbackChartName && ChartDescription(t) != FallbackChartDescription
  {
    assert |FallbackChartName| == 24 && |FallbackChartDescription| == 43;
    match t
    case HourBar => assert |ChartName(t)| == 32 && |ChartDescription(t)| == 49;
    case DayPie => assert |ChartName(t)| == 26 && |ChartDescription(t)| == 52;
    case MonthPie => assert |ChartName(t)| == 29 && |ChartDescription(t)| == 46;
    case DayMonthCombined => assert |ChartName(t)| == 31 && |ChartDescription(t)| == 59;
  }

  /** The chart tables give every chart type its own entry, distinct from the fallback:
      a chart schema falls back exactly when its key is not a chart type's value. */
  lemma ChartNamingFallsBackIffUnknown(chartType: string)
    ensures ChartNaming(chartType).0 == FallbackChartName <==> Config.ChartTypeFromValue(chartType).None?
    ensures ChartNaming(chartType).1 == FallbackChartDescription <==> Config.ChartTypeFromValue(chartType).None?
  {
    match Config.ChartTypeFromValue(chartType)
    case Some(t) => ChartNamesNotFallback(t);
    case None =>
  }

  /** The names in a chart's schema: the table entry (or the fallback) suffixed with
      the repository, and the same suffix on the dataset it is based on. */
  lemma CreativeWorkNames(chartType: string, repo: Option<string>, filePath: Option<string>,
                          disk: Disk, now: string)
    ensures var schema := CreativeWorkSchema(chartType, repo, filePath, disk, now);
      && Get(schema, "name") == Some(JStr(Suffixed(ChartNaming(chartType).0, repo)))
      && Get(schema, "description") == Some(JStr(ForRepository(ChartNaming(chartType).1, repo)))
      && Get(schema, "isBasedOn") == Some(JObj([("@type", JStr("Dataset")),
                                                ("name", JStr(Suffixed("Git Commit Data", repo)))]))
  {
    var schema := CreativeWorkSchema(chartType, repo, filePath, disk, now);
    GetAt(schema, "name", 2);
    GetAt(schema, "description", 3);
    GetAt(schema, "isBasedOn", 10);
  }

  /** Only an existing chart file adds its location (and size) to the schema. */
  lemma CreativeWorkFile(chartType: string, repo: Option<string>, filePath: Option<string>,
                         disk: Disk, now: string)
    ensures Get(CreativeWorkSchema(chartType, repo, filePath, disk, now), "contentUrl")
            == if Given(filePath) && filePath.value in disk then Some(JStr(filePath.value)) else None
  {
    if Given(filePath) && filePath.value in disk {
      GetAt(CreativeWorkSchema(chartType, repo, filePath, disk, now), "contentUrl", 12);
    }
  }

  /** Every chart the dispatcher draws names its schema by its own chart type, so no
      chart's schema carries the fallback name. */
  lemma ChartSchemaNamedByType(t: Config.ChartType, repo: Option<string>, filePath: Option<string>,
                               disk: Disk, now: string)
    ensures Get(CreativeWorkSchema(Config.ChartTypeValue(t), repo, filePath, disk, now), "name")
            == Some(JStr(Suffixed(ChartName(t), repo)))
    ensures ChartName(t) != FallbackChartName
  {
    Config.ChartTypeValueRoundTrip(t, Config.ChartTypeValue(t));
    CreativeWorkNames(Config.ChartTypeValue(t), repo, filePath, disk, now);
    ChartNamesNotFallback(t);
  }

  /** The entries of the dataset schema before the distribution. */
  lemma DatasetBaseEntries(name: string, description: string, now: string)
    ensures var base := DatasetBase(name, description, now);
      && |base| == 13
      && Get(base, "name") == Some(JStr(name))
      && Get(base, "description") == Some(JStr(description))
      && !HasKey(base, "distribution")
  {
    var base := DatasetBase(name, description, now);
    GetAt(base, "name", 2);
    GetAt(base, "description", 3);
  }

  /** A successful dataset schema is the base entries, then the distribution entry when
      the file exists. */
  lemma DatasetSplit(dataType: string, repo: Option<string>, filePath: Option<string>,
                     recordCount: Option<int>, disk: Disk, now: string)
    requires DatasetSchema(dataType, repo, filePath, recordCount, disk, now).Success?
    ensures var schema := DatasetSchema(dataType, repo, filePath, recordCount, disk, now).value;
      var base := DatasetBase(Suffixed(DatasetNaming(dataType).0, repo),
                              ForRepository(DatasetNaming(dataType).1, repo), now);
      && |schema| >= 13 && schema[..13] == base
      && (Distribution(filePath, disk).None? ==> schema == base)
      && (Distribution(filePath, disk).Some? ==>
            (|schema| == 14 &&
             schema[13] == ("distribution", JObj(WithCount(Distribution(filePath, disk).value.fields, recordCount)))))
  {
    DatasetBaseEntries(Suffixed(DatasetNaming(dataType).0, repo),
                       ForRepository(DatasetNaming(dataType).1, repo), now);
  }

  /** The names in a dataset schema, with the fallback name for an unknown data type. */
  lemma DatasetNames(dataType: string, repo: Option<string>, filePath: Option<string>,
                     recordCount: Option<int>, disk: Disk, now: string)
    requires DatasetSchema(dataType, repo, filePath, recordCount, disk, now).Success?
    ensures var schema := DatasetSchema(dataType, repo, filePath, recordCount, disk, now).value;
      && Get(schema, "name") == Some(JStr(Suffixed(DatasetNaming(dataType).0, repo)))
      && Get(schema, "description") == Some(JStr(ForRepository(DatasetNaming(dataType).1, repo)))
      && (HasKey(schema, "distribution") <==> Distribution(filePath, disk).Some?)
    ensures DatasetKindFromValue(dataType).None? ==> DatasetNaming(dataType).0 == FallbackDatasetName
  {
    var schema := DatasetSchema(dataType, repo, filePath, recordCount, disk, now).value;
    var base := DatasetBase(Suffixed(DatasetNaming(dataType).0, repo),
                            ForRepository(DatasetNaming(dataType).1, repo), now);
    DatasetSplit(dataType, repo, filePath, recordCount, disk, now);
    DatasetBaseEntries(Suffixed(DatasetNaming(dataType).0, repo),
                       ForRepository(DatasetNaming(dataType).1, repo), now);
    assert schema == base + schema[13..];
    GetAppend(base, schema[13..], "name");
    GetAppend(base, schema[13..], "description");
    GetAppend(base, schema[13..], "distribution");
    if Distribution(filePath, disk).Some? {
      GetAt(schema[13..], "distribution", 0);
    }
  }

  /** With an existing file the distribution records its location and, for a truthy
      count, the count itself. */
  lemma DatasetDistribution(dataType: string, repo: Option<string>, path: string,
                            recordCount: Option<int>, disk: Disk, now: string)
    requires path != [] && path in disk
    ensures var r := DatasetSchema(dataType, repo, Some(path), recordCount, disk, now);
      && r.Success?
      && Get(r.value, "distribution").Some? && Get(r.value, "distribution").value.JObj?
      && var d := Get(r.value, "distribution").value.fields;
      && Get(d, "contentUrl") == Some(JStr(path))
      && (Get(d, "numberOfRecords") == if Counted(recordCount) then Some(JInt(recordCount.value)) else None)
  {
    var schema := DatasetSchema(dataType, repo, Some(path), recordCount, disk, now).value;
    DatasetSplit(dataType, repo, Some(path), recordCount, disk, now);
    var base := schema[..13];
    assert schema == base + [schema[13]];
    DatasetBaseEntries(Suffixed(DatasetNaming(dataType).0, repo),
                       ForRepository(DatasetNaming(dataType).1, repo), now);
    GetAppend(base, [schema[13]], "distribution");
    CountedDistribution(path, recordCount, disk);
  }

  lemma CountedDistribution(path: string, recordCount: Option<int>, disk: Disk)
    requires path != [] && path in disk
    ensures var d := WithCount(Distribution(Some(path), disk).value.fields, recordCount);
      && Get(d, "contentUrl") == Some(JStr(path))
      && (Get(d, "numberOfRecords") == if Counted(recordCount) then Some(JInt(recordCount.value)) else None)
  {
    var d := WithCount(Distribution(Some(path), disk).value.fields, recordCount);
    GetAt(d, "contentUrl", 3);
    if Counted(recordCount) {
      GetAt(d, "numberOfRecords", 4);
    }
  }

  /** The application schema's name and description: the fixed ones, or both derived
      from a given repository. */
  lemma ApplicationNames(repo: Option<string>, version: Option<string>, authorName: string,
                         authorEmail: string, now: string)
    ensures var schema := SoftwareApplicationSchema(repo, version, authorName, authorEmail, now);
      && Get(schema, "name") == Some(JStr(Suffixed(AppName, repo)))
      && Get(schema, "description") == Some(JStr(ApplicationDescription(repo)))
  {
    var schema := SoftwareApplicationSchema(repo, version, authorName, authorEmail, now);
    GetAt(schema, "name", 2);
    GetAt(schema, "description", 3);
  }

  /** `softwareVersion` is the given version, or `1.0.0` when it is missing or empty. */
  lemma ApplicationVersion(repo: Option<string>, version: Option<string>, authorName: string,
                           authorEmail: string, now: string)
    ensures Get(SoftwareApplicationSchema(repo, version, authorName, authorEmail, now), "softwareVersion")
            == Some(JStr(if Given(version) then version.value else DefaultVersion))
  {
    GetAt(SoftwareApplicationSchema(repo, version, authorName, authorEmail, now), "softwareVersion", 18);
  }

  lemma ApplicationAuthor(repo: Option<string>, version: Option<string>, authorName: string,
                          authorEmail: string, now: string)
    ensures Get(SoftwareApplicationSchema(repo, version, authorName, authorEmail, now), "author")
            == Some(Person(authorName, authorEmail))
  {
    GetAt(SoftwareApplicationSchema(repo, version, authorName, authorEmail, now), "author", 10);
  }

  lemma ApplicationKeywords(repo: Option<string>, version: Option<string>, authorName: string,
                            authorEmail: string, now: string)
    ensures Get(SoftwareApplicationSchema(repo, version, authorName, authorEmail, now), "keywords")
            == Some(Strings(AppKeywords))
  {
    GetAt(SoftwareApplicationSchema(repo, version, authorName, authorEmail, now), "keywords", 21);
  }

  /** `", ".join` of a list of strings built by `Strings` joins the strings themselves. */
  lemma JoinStrings(ss: seq<string>)
    ensures JoinItems(Strings(ss)) == Some(ss)
  {
    var r := JoinItems(Strings(ss));
    assert r.Some?;
    assert r.value == ss;
  }

  /** The tags of a schema with a string name and description and a list of string
      keywords: titles, descriptions, the keywords joined with commas, then the author
      when the author entry is a person with a non-empty name. */
  lemma MetaTagsOfEntries(schema: seq<(string, Json)>, name: string, description: string,
                          keywords: seq<string>, author: Option<(string, string)>)
    requires Get(schema, "name") == Some(JStr(name))
    requires Get(schema, "description") == Some(JStr(description))
    requires Get(schema, "keywords") == Some(Strings(keywords))
    requires author.None? ==> !HasKey(schema, "author")
    requires author.Some? ==> Get(schema, "author") == Some(Person(author.value.0, author.value.1))
    ensures MetaTags(schema) == Success(EntryTags(name, description, keywords, author))
  {
    JoinStrings(keywords);
    var head := [ MetaTag("property", "og:title", name), MetaTag("name", "twitter:title", name),
                  MetaTag("name", "description", description), MetaTag("property", "og:description", description),
                  MetaTag("name", "twitter:description", description),
                  MetaTag("name", "keywords", Join(keywords, ", "))];
    assert TitleTags(Get(schema, "name")) + DescriptionTags(Get(schema, "description"))
           + [MetaTag("name", "keywords", Join(keywords, ", "))] == head;
    if author.Some? {
      var p := Person(author.value.0, author.value.1);
      GetAt(p.fields, "name", 1);
      assert AuthorName(schema) == if author.value.0 != [] then Some(author.value.0) else None;
    } else {
      assert AuthorName(schema) == None;
    }
  }

  /** The tags `MetaTagsOfEntries` promises. */
  function EntryTags(name: string, description: string, keywords: seq<string>,
                     author: Option<(string, string)>): (tags: seq<string>)
    ensures |tags| == if author.Some? && author.value.0 != [] then 7 else 6
  {
    [ MetaTag("property", "og:title", name), MetaTag("name", "twitter:title", name),
      MetaTag("name", "description", description), MetaTag("property", "og:description", description),
      MetaTag("name", "twitter:description", description),
      MetaTag("name", "keywords", Join(keywords, ", "))
    ] + (if author.Some? && author.value.0 != [] then [MetaTag("name", "author", author.value.0)] else [])
  }

  /** The application schema yields all seven tags when its author has a name, else
      six: titles and descriptions from the (suffixed) name and description, and its
      keyword list joined with commas. */
  lemma ApplicationMetaTags(repo: Option<string>, version: Option<string>, authorName: string,
                            authorEmail: string, now: string)
    ensures MetaTags(SoftwareApplicationSchema(repo, version, authorName, authorEmail, now))
            == Success(EntryTags(Suffixed(AppName, repo), ApplicationDescription(repo), AppKeywords,
                                 Some((authorName, authorEmail))))
  {
    var schema := SoftwareApplicationSchema(repo, version, authorName, authorEmail, now);
    ApplicationNames(repo, version, authorName, authorEmail, now);
    ApplicationAuthor(repo, version, authorName, authorEmail, now);
    ApplicationKeywords(repo, version, authorName, authorEmail, now);
    MetaTagsOfEntries(schema, Suffixed(AppName, repo), ApplicationDescription(repo),
                      AppKeywords, Some((authorName, authorEmail)));
  }

  /** A chart schema names a `creator`, not an `author`. */
  lemma CreativeWorkEntries(chartType: string, repo: Option<string>, filePath: Option<string>,
                            disk: Disk, now: string)
    ensures var schema := CreativeWorkSchema(chartType, repo, filePath, disk, now);
      && Get(schema, "keywords") == Some(Strings(ChartKeywords))
      && !HasKey(schema, "author")
  {
    GetAt(CreativeWorkSchema(chartType, repo, filePath, disk, now), "keywords", 9);
  }

  /** Chart schemas never get the author tag: exactly six tags each. */
  lemma CreativeWorkMetaTags(chartType: string, repo: Option<string>, filePath: Option<string>,
                             disk: Disk, now: string)
    ensures var r := MetaTags(CreativeWorkSchema(chartType, repo, filePath, disk, now));
      && r.Success? && |r.value| == 6
      && r.value[0] == MetaTag("property", "og:title", Suffixed(ChartNaming(chartType).0, repo))
  {
    var schema := CreativeWorkSchema(chartType, repo, filePath, disk, now);
    CreativeWorkNames(chartType, repo, filePath, disk, now);
    CreativeWorkEntries(chartType, repo, filePath, disk, now);
    MetaTagsOfEntries(schema, Suffixed(ChartNaming(chartType).0, repo),
                      ForRepository(ChartNaming(chartType).1, repo), ChartKeywords, None);
  }

  /** The dataset's keyword list, and no author entry. */
  lemma DatasetBaseKeywords(name: string, description: string, now: string)
    ensures Get(DatasetBase(name, description, now), "keywords") == Some(Strings(DatasetKeywords))
    ensures !HasKey(DatasetBase(name, description, now), "author")
  {
    GetAt(DatasetBase(name, description, now), "keywords", 4);
  }

  /** Dataset schemas never get the author tag either: exactly six tags each. */
  lemma DatasetMetaTags(dataType: string, repo: Option<string>, filePath: Option<string>,
                        recordCount: Option<int>, disk: Disk, now: string)
    requires DatasetSchema(dataType, repo, filePath, recordCount, disk, now).Success?
    ensures var r := MetaTags(DatasetSchema(dataType, repo, filePath, recordCount, disk, now).value);
      && r.Success? && |r.value| == 6
      && r.value[0] == MetaTag("property", "og:title", Suffixed(DatasetNaming(dataType).0, repo))
  {
    var schema := DatasetSchema(dataType, repo, filePath, recordCount, disk, now).value;
    var name := Suffixed(DatasetNaming(dataType).0, repo);
    var description := ForRepository(DatasetNaming(dataType).1, repo);
    DatasetNames(dataType, repo, filePath, recordCount, disk, now);
    DatasetSplit(dataType, repo, filePath, recordCount, disk, now);
    DatasetBaseKeywords(name, description, now);
    var base := schema[..13];
    assert schema == base + schema[13..];
    GetAppend(base, schema[13..], "keywords");
    GetAppend(base, schema[13..], "author");
    MetaTagsOfEntries(schema, name, description, DatasetKeywords, None);
  }
}

=== FILE: text.dfy ===
/** The string operations of Python's `str` that the modelled code relies on:
    `strip`, `split()`, line iteration, `find`, `in`, `lower`, `replace`,
    `int(...)` and `int(..., 16)`, and the `:02x` / decimal formatting.
    Only ASCII (and Latin-1 whitespace) behaviour is modelled. */
module Text {
  import opened Wrappers

  // ---------------------------------------------------------------------------
  // Whitespace, strip and split

  /** Whitespace as `str.split()` and `str.strip()` see it, restricted to Latin-1. */
  predicate IsSpace(c: char) {
    var n := c as int;
    (9 <= n <= 13) || (28 <= n <= 32) || n == 0x85 || n == 0xa0
  }

  predicate IsBlank(s: string) {
    forall i :: 0 <= i < |s| ==> IsSpace(s[i])
  }

  predicate NoSpace(s: string) {
    forall i :: 0 <= i < |s| ==> !IsSpace(s[i])
  }

  function TrimLeft(s: string): (r: string)
    ensures |r| <= |s|
  {
    if s != [] && IsSpace(s[0]) then TrimLeft(s[1..]) else s
  }

  function TrimRight(s: string): (r: string)
    ensures |r| <= |s|
  {
    if s != [] && IsSpace(s[|s| - 1]) then TrimRight(s[..|s| - 1]) else s
  }

  /** `str.strip()` */
  function Strip(s: string): (r: string)
    ensures |r| <= |s|
  {
    TrimRight(TrimLeft(s))
  }

  /** `lstrip` drops a whitespace prefix and keeps the rest, which starts otherwise. */
  lemma {:induction false} TrimLeftShape(s: string)
    ensures TrimLeft(s) == s[|s| - |TrimLeft(s)|..]
    ensures TrimLeft(s) == [] || !IsSpace(TrimLeft(s)[0])
    ensures forall i :: 0 <= i < |s| - |TrimLeft(s)| ==> IsSpace(s[i])
    decreases |s|
  {
    if s != [] && IsSpace(s[0]) {
      TrimLeftShape(s[1..]);
      forall i | 0 <= i < |s| - |TrimLeft(s)| ensures IsSpace(s[i]) {
        if i > 0 {
          assert s[i] == s[1..][i - 1];
        }
      }
    }
  }

  /** `rstrip` drops a whitespace suffix and keeps the rest, which ends otherwise. */
  lemma {:induction false} TrimRightShape(s: string)
    ensures TrimRight(s) == s[..|TrimRight(s)|]
    ensures TrimRight(s) == [] || !IsSpace(TrimRight(s)[|TrimRight(s)| - 1])
    ensures forall i :: |TrimRight(s)| <= i < |s| ==> IsSpace(s[i])
    decreases |s|
  {
    if s != [] && IsSpace(s[|s| - 1]) {
      TrimRightShape(s[..|s| - 1]);
      forall i | |TrimRight(s)| <= i < |s| ensures IsSpace(s[i]) {
        if i < |s| - 1 {
          assert s[i] == s[..|s| - 1][i];
        }
      }
    }
  }

  /** A line strips to nothing exactly when it is made of whitespace. */
  lemma StripEmptyIffBlank(s: string)
    ensures Strip(s) == [] <==> IsBlank(s)
  {
    TrimLeftShape(s);
    TrimRightShape(TrimLeft(s));
  }

  /** A string that neither starts nor ends with whitespace is its own strip. */
  lemma StripNoEdgeSpace(s: string)
    requires s != [] && !IsSpace(s[0]) && !IsSpace(s[|s| - 1])
    ensures Strip(s) == s
  {
  }

  /** Length of the leading run of non-whitespace characters. */
  function TokenLength(s: string): (k: nat)
    ensures k <= |s|
    ensures forall i :: 0 <= i < k ==> !IsSpace(s[i])
    ensures k == |s| || IsSpace(s[k])
  {
    if s == [] || IsSpace(s[0]) then 0 else 1 + TokenLength(s[1..])
  }

  /** `str.split()` with no separator: the maximal runs of non-whitespace. */
  function Words(s: string): (ws: seq<string>)
    ensures forall i :: 0 <= i < |ws| ==> ws[i] != [] && NoSpace(ws[i])
    decreases |s|
  {
    if s == [] then []
    else if IsSpace(s[0]) then Words(s[1..])
    else
      var k := TokenLength(s);
      [s[..k]] + Words(s[k..])
  }

  lemma {:induction false} TokenLengthOfWord(a: string, rest: string)
    requires NoSpace(a)
    requires rest == [] || IsSpace(rest[0])
    ensures TokenLength(a + rest) == |a|
    decreases |a|
  {
    if a != [] {
      assert (a + rest)[1..] == a[1..] + rest;
      TokenLengthOfWord(a[1..], rest);
    }
  }

  /** Splitting a word followed by a whitespace-led (or empty) rest yields the word first. */
  lemma WordsCons(a: string, rest: string)
    requires a != [] && NoSpace(a)
    requires rest == [] || IsSpace(rest[0])
    ensures Words(a + rest) == [a] + Words(rest)
  {
    TokenLengthOfWord(a, rest);
    var s := a + rest;
    assert s[..|a|] == a;
    assert s[|a|..] == rest;
  }

  /** Leading whitespace produces no word. */
  lemma WordsSkipSpace(s: string)
    ensures Words(" " + s) == Words(s)
  {
    assert (" " + s)[1..] == s;
  }

  /** A string has no words exactly when it is all whitespace. */
  lemma {:induction false} WordsEmptyIffBlank(s: string)
    ensures Words(s) == [] <==> IsBlank(s)
    decreases |s|
  {
    if s != [] && IsSpace(s[0]) {
      WordsEmptyIffBlank(s[1..]);
      if IsBlank(s[1..]) {
        forall i | 0 <= i < |s| ensures IsSpace(s[i]) {
          if i > 0 {
            assert s[i] == s[1..][i - 1];
          }
        }
      }
    }
  }

  lemma {:induction false} WordsOfTrimLeft(s: string)
    ensures Words(TrimLeft(s)) == Words(s)
    decreases |s|
  {
    if s != [] && IsSpace(s[0]) {
      WordsOfTrimLeft(s[1..]);
    }
  }

  lemma {:induction false} TokenLengthAppendBlank(s: string, b: string)
    requires IsBlank(b)
    requires s != [] && !IsSpace(s[0])
    ensures TokenLength(s + b) == TokenLength(s)
    decreases |s|
  {
    assert (s + b)[1..] == s[1..] + b;
    if |s| > 1 && !IsSpace(s[1]) {
      TokenLengthAppendBlank(s[1..], b);
    }
  }

  /** Trailing whitespace produces no word. */
  lemma {:induction false} WordsAppendBlank(s: string, b: string)
    requires IsBlank(b)
    ensures Words(s + b) == Words(s)
    decreases |s|
  {
    if s == [] {
      assert s + b == b;
      WordsEmptyIffBlank(b);
    } else if IsSpace(s[0]) {
      assert (s + b)[1..] == s[1..] + b;
      WordsAppendBlank(s[1..], b);
    } else {
      var k := TokenLength(s);
      TokenLengthAppendBlank(s, b);
      assert (s + b)[..k] == s[..k];
      assert (s + b)[k..] == s[k..] + b;
      WordsAppendBlank(s[k..], b);
    }
  }

  /** Trailing whitespace is all `TrimRight` drops, so the words stay the same. */
  lemma WordsOfTrimRight(t: string)
    ensures Words(TrimRight(t)) == Words(t)
  {
    var r := TrimRight(t);
    TrimRightShape(t);
    var b := t[|r|..];
    forall i | 0 <= i < |b| ensures IsSpace(b[i]) {
      assert b[i] == t[|r| + i];
    }
    assert t == r + b;
    WordsAppendBlank(r, b);
  }

  /** `s.strip().split() == s.split()`: splitting already ignores the edges. */
  lemma WordsOfStrip(s: string)
    ensures Words(Strip(s)) == Words(s)
  {
    WordsOfTrimLeft(s);
    WordsOfTrimRight(TrimLeft(s));
  }

  /** A word, one space and a rest split into the word followed by the rest's words. */
  lemma WordsConsSpace(a: string, rest: string)
    requires a != [] && NoSpace(a)
    ensures Words(a + " " + rest) == [a] + Words(rest)
  {
    WordsCons(a, " " + rest);
    WordsSkipSpace(rest);
    assert a + " " + rest == a + (" " + rest);
  }

  /** `"a b".split() == ["a", "b"]` for two words joined by one space. */
  lemma WordsOfPair(a: string, b: string)
    requires a != [] && NoSpace(a) && b != [] && NoSpace(b)
    ensures Words(a + " " + b) == [a, b]
  {
    WordsCons(a, " " + b);
    assert (" " + b)[1..] == b;
    WordsCons(b, []);
    assert b + [] == b;
    assert a + " " + b == a + (" " + b);
  }

  // ---------------------------------------------------------------------------
  // Lines

  /** Index of the first `c` in `s`, or `|s|` when there is none. */
  function IndexOf(s: string, c: char): (i: nat)
    ensures i <= |s|
    ensures i < |s| ==> s[i] == c
    ensures forall j :: 0 <= j < i ==> s[j] != c
  {
    if s == [] then 0 else if s[0] == c then 0 else 1 + IndexOf(s[1..], c)
  }

  /** The pieces of `s` between newline characters; the lines of a text file with
      their terminators removed (a final empty piece is a blank line). */
  function Lines(s: string): (ls: seq<string>)
    ensures |ls| >= 1
    ensures forall i :: 0 <= i < |ls| ==> '\n' !in ls[i]
    decreases |s|
  {
    var i := IndexOf(s, '\n');
    if i == |s| then [s] else [s[..i]] + Lines(s[i + 1..])
  }

  function Join(parts: seq<string>, sep: string): string
    decreases |parts|
  {
    if parts == [] then ""
    else if |parts| == 1 then parts[0]
    else parts[0] + sep + Join(parts[1..], sep)
  }

  lemma {:induction false} IndexOfNewline(a: string, rest: string)
    requires '\n' !in a
    ensures IndexOf(a + "\n" + rest, '\n') == |a|
    decreases |a|
  {
    if a != [] {
      assert (a + "\n" + rest)[1..] == a[1..] + "\n" + rest;
      IndexOfNewline(a[1..], rest);
    }
  }

  /** A newline-free prefix followed by a newline is the first line. */
  lemma LinesCons(a: string, rest: string)
    requires '\n' !in a
    ensures Lines(a + "\n" + rest) == [a] + Lines(rest)
  {
    IndexOfNewline(a, rest);
    var s := a + "\n" + rest;
    assert s[..|a|] == a;
    assert s[|a| + 1..] == rest;
  }

  lemma JoinCons(x: string, parts: seq<string>, sep: string)
    requires parts != []
    ensures Join([x] + parts, sep) == x + sep + Join(parts, sep)
  {
    assert ([x] + parts)[1..] == parts;
  }

  /** Splitting into lines loses nothing: rejoining with newlines gives the text back. */
  lemma {:induction false} JoinLines(s: string)
    ensures Join(Lines(s), "\n") == s
    decreases |s|
  {
    var i := IndexOf(s, '\n');
    if i < |s| {
      var a, rest := s[..i], s[i + 1..];
      assert s == a + "\n" + rest;
      assert '\n' !in a;
      LinesCons(a, rest);
      JoinLines(rest);
      JoinCons(a, Lines(rest), "\n");
    }
  }

  // ---------------------------------------------------------------------------
  // Substring search

  predicate OccursAt(s: string, pat: string, i: int) {
    0 <= i && i + |pat| <= |s| && s[i..i + |pat|] == pat
  }

  /** `s.find(pat, from)`: the first occurrence at or after `from`, or -1. */
  function Find(s: string, pat: string, from: nat): (r: int)
    ensures r == -1 || (from <= r && OccursAt(s, pat, r))
    ensures r >= 0 ==> forall i :: from <= i < r ==> !OccursAt(s, pat, i)
    ensures r == -1 ==> forall i :: from <= i ==> !OccursAt(s, pat, i)
    decreases |s| - from
  {
    if from + |pat| > |s| then -1
    else if s[from..from + |pat|] == pat then from
    else Find(s, pat, from + 1)
  }

  /** Python's `pat in s` for strings. */
  predicate Contains(s: string, pat: string) {
    Find(s, pat, 0) >= 0
  }

  lemma ContainsIff(s: string, pat: string)
    ensures Contains(s, pat) <==> exists i :: OccursAt(s, pat, i)
  {
    if !Contains(s, pat) {
      forall i ensures !OccursAt(s, pat, i) {
        if i >= 0 {
          assert !OccursAt(s, pat, i);
        }
      }
    }
  }

  lemma ContainsAt(s: string, pat: string, i: int)
    requires OccursAt(s, pat, i)
    ensures Contains(s, pat)
  {
  }

  // ---------------------------------------------------------------------------
  // Case and character replacement (ASCII)

  function LowerChar(c: char): char {
    if 'A' <= c <= 'Z' then (c as int + 32) as char else c
  }

  /** `str.lower()` on ASCII letters. */
  function Lower(s: string): (r: string)
    ensures |r| == |s|
    ensures forall i :: 0 <= i < |s| ==> r[i] == LowerChar(s[i])
  {
    seq(|s|, i requires 0 <= i < |s| => LowerChar(s[i]))
  }

  /** `s.replace(a, b)` for single characters. */
  function ReplaceChar(s: string, a: char, b: char): (r: string)
    ensures |r| == |s|
    ensures forall i :: 0 <= i < |s| ==> r[i] == (if s[i] == a then b else s[i])
  {
    seq(|s|, i requires 0 <= i < |s| => if s[i] == a then b else s[i])
  }

  /** `s.replace(c, '')` for a single character. */
  function RemoveChar(s: string, c: char): (r: string)
    ensures |r| <= |s|
    ensures c !in r
    decreases |s|
  {
    if s == [] then []
    else (if s[0] == c then [] else [s[0]]) + RemoveChar(s[1..], c)
  }

  /** Removing a character invents no other. */
  lemma {:induction false} RemoveCharKeeps(s: string, c: char)
    ensures forall i :: 0 <= i < |RemoveChar(s, c)| ==> RemoveChar(s, c)[i] in s
    decreases |s|
  {
    if s != [] {
      RemoveCharKeeps(s[1..], c);
      var r := RemoveChar(s[1..], c);
      assert forall i :: 0 <= i < |r| ==> r[i] in s[1..];
      assert forall x :: x in s[1..] ==> x in s;
    }
  }

  lemma {:induction false} RemoveCharAbsent(s: string, c: char)
    requires c !in s
    ensures RemoveChar(s, c) == s
    decreases |s|
  {
    if s != [] {
      RemoveCharAbsent(s[1..], c);
    }
  }

  lemma {:induction false} RemoveCharAppend(s: string, t: string, c: char)
    ensures RemoveChar(s + t, c) == RemoveChar(s, c) + RemoveChar(t, c)
    decreases |s|
  {
    if s != [] {
      assert (s + t)[1..] == s[1..] + t;
      RemoveCharAppend(s[1..], t, c);
    } else {
      assert s + t == t;
    }
  }

  // ---------------------------------------------------------------------------
  // Decimal integers

  predicate IsDigit(c: char) {
    '0' <= c <= '9'
  }

  predicate AllDigits(s: string) {
    forall i :: 0 <= i < |s| ==> IsDigit(s[i])
  }

  function DigitValue(c: char): (d: nat)
    requires IsDigit(c)
    ensures d < 10
  {
    c as int - '0' as int
  }

  function DigitChar(d: nat): (c: char)
    requires d < 10
    ensures IsDigit(c) && DigitValue(c) == d
  {
    ('0' as int + d) as char
  }

  /** The value of a string of decimal digits. */
  function DigitsValue(s: string): nat
    requires AllDigits(s)
    decreases |s|
  {
    if s == [] then 0 else 10 * DigitsValue(s[..|s| - 1]) + DigitValue(s[|s| - 1])
  }

  /** Decimal rendering without leading zeros, as `str(n)` gives for `n >= 0`. */
  function NatToString(n: nat): (s: string)
    ensures s != [] && AllDigits(s)
    decreases n
  {
    if n < 10 then [DigitChar(n)] else NatToString(n / 10) + [DigitChar(n % 10)]
  }

  function IntToString(i: int): (s: string)
    ensures s != [] && NoSpace(s)
  {
    if i < 0 then "-" + NatToString(-i) else NatToString(i)
  }

  lemma {:induction false} NatToStringRoundTrip(n: nat)
    ensures DigitsValue(NatToString(n)) == n
    decreases n
  {
    if n >= 10 {
      NatToStringRoundTrip(n / 10);
      var s := NatToString(n);
      assert s[..|s| - 1] == NatToString(n / 10);
    }
  }

  /** `str(i)` renders at most `MaxStrDigits` digits; beyond that Python raises. */
  predicate StrDigitsFit(i: int) {
    |NatToString(if i < 0 then -i else i)| <= MaxStrDigits
  }

  /** Parsing a rendered integer gives it back, unless it has more digits than `int()`
      reads (where Python's `str()` would already have refused it). */
  lemma IntRoundTrip(i: int)
    ensures ParseInt(IntToString(i)) == if StrDigitsFit(i) then Some(i) else None
  {
    var n: nat := if i < 0 then -i else i;
    var sign := if i < 0 then Minus else NoSign;
    NatToStringRoundTrip(n);
    SignedDecimal(sign, NatToString(n));
    assert SignText(sign) + NatToString(n) == IntToString(i);
  }

  lemma SignedDecimal(sign: Sign, s: string)
    requires s != [] && AllDigits(s)
    ensures ParseInt(SignText(sign) + s)
      == if |s| > MaxStrDigits then None else Some(Signs(sign, DigitsValue(s)))
  {
    NoAffixes(SignText(sign), s);
    assert AllDigitsIn(s, Decimal);
    PlainDigitsRead(s, Decimal);
    NoUnderscoreDigits(s, Decimal);
    PyIntAccepts([], sign, NoPrefix, s, [], Decimal);
  }

  lemma NoAffixes(x: string, y: string)
    ensures [] + x + PrefixText(NoPrefix) + y + [] == x + y
  {
    assert [] + x == x && PrefixText(NoPrefix) == [];
    assert x + [] + y + [] == x + y;
  }

  /** Digits hold no underscore, so all of them count toward the limit. */
  lemma {:induction false} NoUnderscoreDigits(s: string, base: Base)
    requires AllDigitsIn(s, base)
    ensures DigitCount(s) == |s|
    decreases |s|
  {
    if s != [] {
      assert IsDigitIn(s[0], base);
      assert AllDigitsIn(s[1..], base) by {
        assert forall i :: 0 <= i < |s[1..]| ==> s[1..][i] == s[i + 1];
      }
      NoUnderscoreDigits(s[1..], base);
    }
  }

  lemma {:induction false} DigitCountAppend(s: string, t: string)
    ensures DigitCount(s + t) == DigitCount(s) + DigitCount(t)
    decreases |s|
  {
    if s != [] {
      assert (s + t)[1..] == s[1..] + t;
      DigitCountAppend(s[1..], t);
    } else {
      assert s + t == t;
    }
  }

  /** The separator between two digit groups does not count toward the limit. */
  lemma JoinedDigitsCount(c1: string, c2: string)
    requires AllDigits(c1) && AllDigits(c2)
    ensures DigitCount(c1 + "_" + c2) == |c1 + c2|
  {
    var t := "_" + c2;
    NoUnderscoreDigits(c1, Decimal);
    NoUnderscoreDigits(c2, Decimal);
    assert t[1..] == c2;
    DigitCountAppend(c1, t);
    assert c1 + "_" + c2 == c1 + t;
  }

  /** The limit in both directions: decimal digits beyond `MaxStrDigits` are refused,
      while the same digits read in base 16 whatever their number. */
  lemma TooManyDigitsRefused(s: string)
    requires AllDigits(s) && |s| > MaxStrDigits
    ensures ParseInt(s) == None
    ensures ParseHex(s).Some?
  {
    assert AllDigitsIn(s, Decimal) && AllDigitsIn(s, Hexadecimal);
    PlainDigits(s, Decimal);
    PlainDigits(s, Hexadecimal);
  }

  // ---------------------------------------------------------------------------
  // Hexadecimal

  predicate IsHexDigit(c: char) {
    IsDigit(c) || 'a' <= c <= 'f' || 'A' <= c <= 'F'
  }

  predicate AllHex(s: string) {
    forall i :: 0 <= i < |s| ==> IsHexDigit(s[i])
  }

  function HexDigitValue(c: char): (d: nat)
    requires IsHexDigit(c)
    ensures d < 16
  {
    if IsDigit(c) then DigitValue(c)
    else if 'a' <= c <= 'f' then c as int - 'a' as int + 10
    else c as int - 'A' as int + 10
  }

  function HexValue(s: string): nat
    requires AllHex(s)
    decreases |s|
  {
    if s == [] then 0 else 16 * HexValue(s[..|s| - 1]) + HexDigitValue(s[|s| - 1])
  }

  /** A lower-case hex digit. */
  function HexChar(d: nat): (c: char)
    requires d < 16
    ensures IsHexDigit(c) && HexDigitValue(c) == d
    ensures !('A' <= c <= 'Z')
  {
    if d < 10 then DigitChar(d) else ('a' as int + d - 10) as char
  }

  /** `format(v, '02x')` for a byte value. */
  function HexByte(v: nat): (s: string)
    requires v < 256
    ensures |s| == 2 && AllHex(s)
  {
    [HexChar(v / 16), HexChar(v % 16)]
  }

  lemma HexCharOfDigit(c: char)
    requires IsHexDigit(c)
    ensures HexChar(HexDigitValue(c)) == LowerChar(c)
  {
  }

  lemma DivMod16(hi: nat, lo: nat)
    requires hi < 16 && lo < 16
    ensures (16 * hi + lo) / 16 == hi && (16 * hi + lo) % 16 == lo
  {
  }

  /** Two hex digits decode to a byte that re-encodes as their lower-case form. */
  lemma HexPairRoundTrip(s: string)
    requires |s| == 2 && AllHex(s)
    ensures HexValue(s) < 256
    ensures HexByte(HexValue(s)) == Lower(s)
  {
    var hi := HexDigitValue(s[0]);
    var lo := HexDigitValue(s[1]);
    var first := s[..1];
    assert first[..0] == [];
    assert HexValue(first) == hi;
    assert s[..|s| - 1] == first;
    assert HexValue(s) == 16 * hi + lo;
    DivMod16(hi, lo);
    HexCharOfDigit(s[0]);
    HexCharOfDigit(s[1]);
    assert HexByte(HexValue(s)) == [HexChar(hi), HexChar(lo)];
    assert Lower(s) == [LowerChar(s[0]), LowerChar(s[1])];
  }

  /** A byte rendered with `02x` parses back to itself. */
  lemma HexByteRoundTrip(v: nat)
    requires v < 256
    ensures ParseHex(HexByte(v)) == Some(v)
  {
    HexByteValue(v);
    PlainDigits(HexByte(v), Hexadecimal);
  }

  lemma HexByteValue(v: nat)
    requires v < 256
    ensures HexValue(HexByte(v)) == v
  {
    var s := HexByte(v);
    var first := s[..1];
    assert first[..0] == [];
    assert HexValue(first) == v / 16;
    assert s[..|s| - 1] == first;
    assert HexValue(s) == 16 * (v / 16) + v % 16;
  }

  /** Up to two hex digits are worth less than 256, and one less than 16. */
  lemma HexValueBound(t: string)
    requires AllHex(t) && |t| <= 2
    ensures HexValue(t) < 256
    ensures |t| <= 1 ==> HexValue(t) < 16
  {
    if |t| == 2 {
      assert HexValue(t[..1]) < 16 by {
        assert t[..1][..0] == [];
      }
    } else if |t| == 1 {
      assert t[..0] == [];
    }
  }

  // ---------------------------------------------------------------------------
  // Python's int()

  /** `int(t)` reads base 10 and `int(t, 16)` base 16. */
  datatype Base = Decimal | Hexadecimal

  function Radix(base: Base): nat {
    match base
    case Decimal => 10
    case Hexadecimal => 16
  }

  predicate IsDigitIn(c: char, base: Base) {
    match base
    case Decimal => IsDigit(c)
    case Hexadecimal => IsHexDigit(c)
  }

  function DigitIn(c: char, base: Base): nat
    requires IsDigitIn(c, base)
  {
    match base
    case Decimal => DigitValue(c)
    case Hexadecimal => HexDigitValue(c)
  }

  predicate AllDigitsIn(s: string, base: Base) {
    match base
    case Decimal => AllDigits(s)
    case Hexadecimal => AllHex(s)
  }

  function ValueIn(s: string, base: Base): nat
    requires AllDigitsIn(s, base)
  {
    match base
    case Decimal => DigitsValue(s)
    case Hexadecimal => HexValue(s)
  }

  /** The value of a digit string grows by its last digit. */
  lemma ValueInStep(s: string, base: Base)
    requires s != [] && AllDigitsIn(s, base)
    ensures AllDigitsIn(s[..|s| - 1], base) && IsDigitIn(s[|s| - 1], base)
    ensures ValueIn(s, base) == Radix(base) * ValueIn(s[..|s| - 1], base) + DigitIn(s[|s| - 1], base)
  {
  }

  /** Digits with single underscores between them, as Python groups them, read from the
      right: the text ends in a digit, and what precedes that digit and the one
      underscore allowed before it is grouped again, or empty when the digit is first. */
  function ReadGrouped(s: string, base: Base): (r: Option<nat>)
    decreases |s|
  {
    if s == [] || !IsDigitIn(s[|s| - 1], base) then None
    else if |s| == 1 then Some(DigitIn(s[0], base))
    else
      var init := if s[|s| - 2] == '_' then s[..|s| - 2] else s[..|s| - 1];
      match ReadGrouped(init, base)
      case None => None
      case Some(v) => Some(Radix(base) * v + DigitIn(s[|s| - 1], base))
  }

  /** What grouped digits look like, stated without reading them: a digit at each end,
      only digits and underscores, and never two underscores in a row. */
  predicate Grouped(s: string, base: Base) {
    && s != [] && IsDigitIn(s[0], base) && IsDigitIn(s[|s| - 1], base)
    && (forall i :: 0 <= i < |s| ==> s[i] == '_' || IsDigitIn(s[i], base))
    && (forall i, j :: 0 <= i < |s| && 0 <= j < |s| && j == i + 1 ==> !(s[i] == '_' && s[j] == '_'))
  }

  /** The reader accepts exactly the grouped texts. */
  lemma {:induction false} ReadGroupedIff(s: string, base: Base)
    ensures ReadGrouped(s, base).Some? <==> Grouped(s, base)
    decreases |s|
  {
    if s != [] && IsDigitIn(s[|s| - 1], base) && |s| > 1 {
      var init := if s[|s| - 2] == '_' then s[..|s| - 2] else s[..|s| - 1];
      ReadGroupedIff(init, base);
      if Grouped(s, base) {
        GroupedInit(s, base);
      } else if Grouped(init, base) {
        GroupedExtend(s, base);
      }
    }
  }

  /** Dropping the last digit, and an underscore before it, leaves a grouped text. */
  lemma GroupedInit(s: string, base: Base)
    requires Grouped(s, base) && |s| > 1
    ensures Grouped(if s[|s| - 2] == '_' then s[..|s| - 2] else s[..|s| - 1], base)
  {
    var init := if s[|s| - 2] == '_' then s[..|s| - 2] else s[..|s| - 1];
    if s[|s| - 2] == '_' {
      assert |s| > 2 by {
        assert s[0] != '_';
      }
      var x, y := s[|s| - 3], s[|s| - 2];
      assert x != '_';
    }
    assert init[0] == s[0] && init[|init| - 1] == s[|init| - 1];
    assert forall i :: 0 <= i < |init| ==> init[i] == s[i];
  }

  /** A grouped text extended by a digit, with at most one underscore between, is
      grouped. */
  lemma GroupedExtend(s: string, base: Base)
    requires |s| > 1 && IsDigitIn(s[|s| - 1], base)
    requires Grouped(if s[|s| - 2] == '_' then s[..|s| - 2] else s[..|s| - 1], base)
    ensures Grouped(s, base)
  {
    var init := if s[|s| - 2] == '_' then s[..|s| - 2] else s[..|s| - 1];
    assert forall i :: 0 <= i < |init| ==> init[i] == s[i];
    assert s[0] == init[0];
    forall i | 0 <= i < |s| ensures s[i] == '_' || IsDigitIn(s[i], base) {
      if i < |init| {
        assert s[i] == init[i];
      }
    }
    forall i, j | 0 <= i < |s| && 0 <= j < |s| && j == i + 1 ensures !(s[i] == '_' && s[j] == '_') {
      if j < |init| {
        assert s[i] == init[i] && s[j] == init[j];
      } else if i < |init| {
        assert s[i] == init[|init| - 1];
      }
    }
  }

  /** A grouped text reads as its digits' value with the underscores dropped. */
  lemma {:induction false} ReadGroupedValue(s: string, base: Base)
    requires ReadGrouped(s, base).Some?
    ensures AllDigitsIn(RemoveChar(s, '_'), base)
    ensures ReadGrouped(s, base).value == ValueIn(RemoveChar(s, '_'), base)
    decreases |s|
  {
    var d := s[|s| - 1];
    if |s| == 1 {
      DropUnderscores(s, 0);
      ValueAppend([], d, base);
      assert [] + [d] == s;
    } else {
      var k := if s[|s| - 2] == '_' then |s| - 2 else |s| - 1;
      var pre := s[..k];
      ReadGroupedStep(s, base);
      ReadGroupedValue(pre, base);
      DropUnderscores(s, k);
      ValueAppend(RemoveChar(pre, '_'), d, base);
    }
  }

  /** Cutting a text before its last character, or before an underscore and its last
      character, splits off that character among the kept ones. */
  lemma DropUnderscores(s: string, k: nat)
    requires s != [] && s[|s| - 1] != '_'
    requires k == |s| - 1 || (k == |s| - 2 && s[k] == '_')
    ensures RemoveChar(s, '_') == RemoveChar(s[..k], '_') + [s[|s| - 1]]
  {
    var d := s[|s| - 1];
    var pre, tail := s[..k], s[k..];
    assert tail == if k == |s| - 2 then ['_', d] else [d] by {
      assert tail[|tail| - 1] == d;
      if k == |s| - 2 {
        assert tail[0] == '_';
      }
    }
    RemoveOneTail(d);
    assert RemoveChar(s, '_') == RemoveChar(pre, '_') + RemoveChar(tail, '_') by {
      assert pre + tail == s;
      RemoveCharAppend(pre, tail, '_');
    }
  }

  lemma RemoveOneTail(d: char)
    requires d != '_'
    ensures RemoveChar([d], '_') == [d] && RemoveChar(['_', d], '_') == [d]
  {
    assert [d][1..] == [];
    assert ['_', d][1..] == [d];
  }

  /** Appending a digit multiplies by the radix and adds the digit. */
  lemma ValueAppend(r: string, d: char, base: Base)
    requires AllDigitsIn(r, base) && IsDigitIn(d, base)
    ensures AllDigitsIn(r + [d], base)
    ensures ValueIn(r + [d], base) == Radix(base) * ValueIn(r, base) + DigitIn(d, base)
  {
    DigitsAppend(r, d, base);
    var t := r + [d];
    assert t[..|t| - 1] == r;
    ValueInStep(t, base);
  }

  lemma DigitsAppend(s: string, d: char, base: Base)
    requires AllDigitsIn(s, base) && IsDigitIn(d, base)
    ensures AllDigitsIn(s + [d], base)
  {
    var t := s + [d];
    assert forall i :: 0 <= i < |s| ==> t[i] == s[i];
  }

  /** A digit string without underscores reads as its value. */
  lemma {:induction false} PlainDigitsRead(s: string, base: Base)
    requires s != [] && AllDigitsIn(s, base)
    ensures ReadGrouped(s, base) == Some(ValueIn(s, base))
    decreases |s|
  {
    ValueInStep(s, base);
    if |s| == 1 {
      assert s[..0] == [];
    } else {
      var init := s[..|s| - 1];
      assert init[|init| - 1] == s[|s| - 2];
      assert IsDigitIn(init[|init| - 1], base);
      PlainDigitsRead(init, base);
    }
  }

  /** One underscore between two digit strings is dropped. */
  lemma {:induction false} UnderscoreRead(a: string, b: string, base: Base)
    requires a != [] && AllDigitsIn(a, base) && b != [] && AllDigitsIn(b, base)
    ensures AllDigitsIn(a + b, base)
    ensures ReadGrouped(a + "_" + b, base) == Some(ValueIn(a + b, base))
    decreases |b|
  {
    DigitsConcat(a, b, base);
    var s := a + "_" + b;
    var d := b[|b| - 1];
    var b' := b[..|b| - 1];
    assert AllDigitsIn(b', base) && IsDigitIn(d, base) by {
      ValueInStep(b, base);
    }
    assert a + b == (a + b') + [d];
    DigitsConcat(a, b', base);
    ValueAppend(a + b', d, base);
    if |b| == 1 {
      assert s == a + ['_', d] && a + b' == a;
      assert s[..|s| - 2] == a && s[|s| - 2] == '_' && s[|s| - 1] == d;
      PlainDigitsRead(a, base);
      ReadGroupedStep(s, base);
    } else {
      assert s == (a + "_" + b') + [d];
      assert s[..|s| - 1] == a + "_" + b' && s[|s| - 2] == b'[|b'| - 1] && s[|s| - 1] == d;
      UnderscoreRead(a, b', base);
      ReadGroupedStep(s, base);
    }
  }

  /** Reading grouped digits takes the last digit onto the value of what precedes it,
      skipping one underscore before that digit. */
  lemma ReadGroupedStep(s: string, base: Base)
    requires |s| >= 2
    ensures var init := if s[|s| - 2] == '_' then s[..|s| - 2] else s[..|s| - 1];
      ReadGrouped(s, base).Some? <==> IsDigitIn(s[|s| - 1], base) && ReadGrouped(init, base).Some?
    ensures var init := if s[|s| - 2] == '_' then s[..|s| - 2] else s[..|s| - 1];
      IsDigitIn(s[|s| - 1], base) && ReadGrouped(init, base).Some? ==>
        ReadGrouped(s, base) == Some(Radix(base) * ReadGrouped(init, base).value + DigitIn(s[|s| - 1], base))
  {
  }

  lemma DigitsConcat(a: string, b: string, base: Base)
    requires AllDigitsIn(a, base) && AllDigitsIn(b, base)
    ensures AllDigitsIn(a + b, base)
  {
    forall i | 0 <= i < |a + b| ensures IsDigitIn((a + b)[i], base) {
      if i < |a| {
        assert (a + b)[i] == a[i];
      } else {
        assert (a + b)[i] == b[i - |a|];
      }
    }
  }

  /** Grouped text of at most two characters has no underscore. */
  lemma ShortGroupedPlain(s: string, base: Base)
    requires ReadGrouped(s, base).Some? && |s| <= 2
    ensures AllDigitsIn(s, base) && ReadGrouped(s, base).value == ValueIn(s, base)
  {
    if |s| == 2 {
      assert s[..|s| - 1] == [s[0]];
      assert s[0] != '_' by {
        assert s[..0] == [];
      }
    }
    PlainDigitsRead(s, base);
  }

  /** Python's `int(t)` or `int(t, 16)` on a `str`: whitespace around, an optional sign,
      in base 16 an optional `0x` or `0X` prefix that one underscore may follow, then
      digits with single underscores between them. */
  function PyInt(t: string, base: Base): (r: Option<int>)
    ensures r.Some? ==> Strip(t) != []
    ensures r.Some? && r.value < 0 ==> Strip(t)[0] == '-'
  {
    Signed(Strip(t), base)
  }

  /** The stripped text: an optional sign, then the magnitude. */
  function Signed(u: string, base: Base): Option<int> {
    var signed := u != [] && (u[0] == '+' || u[0] == '-');
    var rest := if signed then u[1..] else u;
    match Magnitude(rest, base)
    case None => None
    case Some(v) => Some(if signed && u[0] == '-' then -v else v)
  }

  /** Python's default limit on the digits of a decimal integer string
      (`sys.get_int_max_str_digits()`): `int()` refuses more, and so does `str()`. */
  const MaxStrDigits := 4300

  /** Grouped digits that decimal `int()` refuses for their length: underscores do not
      count, and base 16 has no limit. */
  predicate OverDigitLimit(g: string, base: Base) {
    base == Decimal && DigitCount(g) > MaxStrDigits
  }

  /** The characters of `g` other than the separator `_`. */
  function DigitCount(g: string): nat
    decreases |g|
  {
    if g == [] then 0 else (if g[0] == '_' then 0 else 1) + DigitCount(g[1..])
  }

  /** What follows the sign: in base 16 the optional prefix, then grouped digits. */
  function Magnitude(body: string, base: Base): (r: Option<int>)
    ensures r.Some? ==> r.value >= 0
  {
    var digits :=
      if base == Hexadecimal && |body| >= 2 && body[0] == '0' && (body[1] == 'x' || body[1] == 'X')
      then (if |body| >= 3 && body[2] == '_' then body[3..] else body[2..])
      else body;
    match ReadGrouped(digits, base)
    case None => None
    case Some(v) => if OverDigitLimit(digits, base) then None else Some(v)
  }

  function ParseInt(t: string): Option<int> {
    PyInt(t, Decimal)
  }

  function ParseHex(t: string): Option<int> {
    PyInt(t, Hexadecimal)
  }

  /** Surrounding whitespace is all `strip` removes. */
  lemma StripPadded(a: string, t: string, b: string)
    requires IsBlank(a) && IsBlank(b)
    requires t != [] && !IsSpace(t[0]) && !IsSpace(t[|t| - 1])
    ensures Strip(a + t + b) == t
  {
    TrimLeftBlank(a, t + b);
    assert a + t + b == a + (t + b);
    TrimRightBlank(t, b);
  }

  lemma {:induction false} TrimLeftBlank(a: string, s: string)
    requires IsBlank(a) && (s == [] || !IsSpace(s[0]))
    ensures TrimLeft(a + s) == s
    decreases |a|
  {
    if a == [] {
      assert a + s == s;
    } else {
      assert (a + s)[1..] == a[1..] + s;
      TrimLeftBlank(a[1..], s);
    }
  }

  lemma {:induction false} TrimRightBlank(s: string, b: string)
    requires IsBlank(b) && (s == [] || !IsSpace(s[|s| - 1]))
    ensures TrimRight(s + b) == s
    decreases |b|
  {
    if b == [] {
      assert s + b == s;
    } else {
      var b' := b[..|b| - 1];
      assert (s + b)[..|s + b| - 1] == s + b';
      TrimRightBlank(s, b');
    }
  }

  /** The optional sign written before the digits. */
  datatype Sign = NoSign | Plus | Minus

  function SignText(sign: Sign): string {
    match sign
    case NoSign => []
    case Plus => ['+']
    case Minus => ['-']
  }

  function Signs(sign: Sign, v: int): int {
    if sign == Minus then -v else v
  }

  /** The optional base-16 prefix: `0x` or `0X`, which one underscore may follow. */
  datatype Prefix = NoPrefix | ZeroX(upper: bool, underscore: bool)

  function PrefixText(prefix: Prefix): string {
    match prefix
    case NoPrefix => []
    case ZeroX(upper, underscore) => ['0', if upper then 'X' else 'x'] + (if underscore then ['_'] else [])
  }

  /** Every form the grammar allows is read: whitespace `a` and `b` around an optional
      sign, the base-16 prefix and grouped digits `g`; the value is that of `g`'s digits,
      negated after a minus sign. */
  lemma PyIntAccepts(a: string, sign: Sign, prefix: Prefix, g: string, b: string, base: Base)
    requires IsBlank(a) && IsBlank(b)
    requires prefix.NoPrefix? || base == Hexadecimal
    requires ReadGrouped(g, base).Some?
    ensures PyInt(a + SignText(sign) + PrefixText(prefix) + g + b, base)
      == if OverDigitLimit(g, base) then None else Some(Signs(sign, ReadGrouped(g, base).value))
  {
    var body := PrefixText(prefix) + g;
    var t := SignText(sign) + body;
    BodyEdges(prefix, g, base);
    MagnitudeAccepts(prefix, g, base);
    SignedOf(sign, body, base);
    assert PyInt(a + t + b, base) == Signed(t, base) by {
      SignedEdges(sign, body);
      PyIntOfPadded(a, t, b, base);
    }
    Regroup(a, SignText(sign), PrefixText(prefix), g, b);
  }

  /** The prefixed digits neither start with a sign nor start or end with whitespace. */
  lemma BodyEdges(prefix: Prefix, g: string, base: Base)
    requires ReadGrouped(g, base).Some?
    ensures var body := PrefixText(prefix) + g;
      body != [] && body[0] != '+' && body[0] != '-' && !IsSpace(body[0]) && !IsSpace(body[|body| - 1])
  {
    GroupedEdges(g, base);
    var body := PrefixText(prefix) + g;
    assert body[|body| - 1] == g[|g| - 1];
    if prefix == NoPrefix {
      assert body[0] == g[0];
    }
  }

  /** Grouped text starts and ends with a digit, and its second character is a digit or
      an underscore. */
  lemma GroupedEdges(g: string, base: Base)
    requires ReadGrouped(g, base).Some?
    ensures g != [] && IsDigitIn(g[0], base) && IsDigitIn(g[|g| - 1], base)
    ensures |g| >= 2 ==> g[1] == '_' || IsDigitIn(g[1], base)
  {
    ReadGroupedIff(g, base);
  }

  lemma Regroup(a: string, x: string, y: string, g: string, b: string)
    ensures a + x + y + g + b == a + (x + (y + g)) + b
  {
  }

  /** Padding around a signed body is stripped. */
  lemma PyIntOfPadded(a: string, t: string, b: string, base: Base)
    requires IsBlank(a) && IsBlank(b)
    requires t != [] && !IsSpace(t[0]) && !IsSpace(t[|t| - 1])
    ensures PyInt(a + t + b, base) == Signed(t, base)
  {
    StripPadded(a, t, b);
  }

  lemma SignedEdges(sign: Sign, body: string)
    requires body != [] && !IsSpace(body[0]) && !IsSpace(body[|body| - 1])
    ensures var t := SignText(sign) + body;
      t != [] && !IsSpace(t[0]) && !IsSpace(t[|t| - 1])
  {
    var t := SignText(sign) + body;
    assert t[|t| - 1] == body[|body| - 1];
    if sign == NoSign {
      assert t[0] == body[0];
    }
  }

  lemma MagnitudeAccepts(prefix: Prefix, g: string, base: Base)
    requires prefix.NoPrefix? || base == Hexadecimal
    requires ReadGrouped(g, base).Some?
    ensures Magnitude(PrefixText(prefix) + g, base)
      == if OverDigitLimit(g, base) then None else Some(ReadGrouped(g, base).value as int)
  {
    GroupedEdges(g, base);
    var body := PrefixText(prefix) + g;
    match prefix
    case NoPrefix =>
      assert body == g;
      if base == Hexadecimal && |g| >= 2 {
        assert g[1] != 'x' && g[1] != 'X';
      }
    case ZeroX(_, underscore) =>
      if underscore {
        assert body[3..] == g;
      } else {
        assert body[2..] == g;
      }
  }

  lemma SignedOf(sign: Sign, body: string, base: Base)
    requires body != [] && body[0] != '+' && body[0] != '-'
    ensures Signed(SignText(sign) + body, base)
      == match Magnitude(body, base) case None => None case Some(v) => Some(Signs(sign, v))
  {
    var u := SignText(sign) + body;
    if sign != NoSign {
      assert u[1..] == body;
    } else {
      assert u == body;
    }
  }

  /** A string of plain digits reads as their value. */
  lemma PlainDigits(t: string, base: Base)
    requires t != [] && AllDigitsIn(t, base)
    ensures PyInt(t, base) == if base == Decimal && |t| > MaxStrDigits then None else Some(ValueIn(t, base) as int)
  {
    PlainDigitsRead(t, base);
    NoUnderscoreDigits(t, base);
    PyIntAccepts([], NoSign, NoPrefix, t, [], base);
    assert [] + SignText(NoSign) + PrefixText(NoPrefix) + t + [] == t;
  }

  /** At most two characters read in base 16 lie in `-15..255`: two digits make a byte,
      and a sign leaves room for one digit only. */
  lemma ShortHexBound(t: string)
    requires |t| <= 2 && ParseHex(t).Some?
    ensures -15 <= ParseHex(t).value <= 255
  {
    var u := Strip(t);
    if u != [] && (u[0] == '+' || u[0] == '-') {
      ShortMagnitudeBound(u[1..]);
    } else {
      ShortMagnitudeBound(u);
    }
  }

  lemma ShortMagnitudeBound(body: string)
    requires |body| <= 2 && Magnitude(body, Hexadecimal).Some?
    ensures Magnitude(body, Hexadecimal).value < 256
    ensures |body| <= 1 ==> Magnitude(body, Hexadecimal).value < 16
  {
    if !(|body| == 2 && body[0] == '0' && (body[1] == 'x' || body[1] == 'X')) {
      ShortGroupedPlain(body, Hexadecimal);
      HexValueBound(body);
    }
  }
}

=== FILE: wrappers.dfy ===
/** Failure-carrying values shared by every module of the model.
    Python signals failure by raising; the model returns a `Failure` instead. */
module Wrappers {

  datatype Option<+T> = None | Some(value: T) {
    function GetOr(default: T): T {
      match this
      case Some(v) => v
      case None => default
    }
  }

  datatype Result<+R, +E> = Success(value: R) | Failure(error: E) {
    predicate IsFailure() {
      Failure?
    }

    function PropagateFailure<U>(): Result<U, E>
      requires Failure?
    {
      Failure(error)
    }

    function Extract(): R
      requires Success?
    {
      value
    }
  }
}
